=== FILE: README.md ===
# NVIDIA container-config, modelled in Dafny

The NVIDIA container-config tools install the NVIDIA container toolkit on a
host and register `nvidia-container-runtime` with the container engine.
This project models the parts that compute something, as pure functions:

- **containerd** (`Containerd`, `ContainerdUpdate`, `ContainerdRevert`,
  `ContainerdRoundTrip`, `ContainerdExamples`, `ContainerdLegacy`).
  It covers the config version chosen for a `config.toml`, and the edits
  that register and unregister the NVIDIA runtime class in the version 1
  and version 2 schemas.
  Both generations of the tool are modelled: `cmd/containerd` and the
  older `src/containerd.go`.
- **docker** (`Docker`). It covers the `runtimes` and `default-runtime`
  edits to `daemon.json`.
- **the toolkit installer** (`Executable`, `FileMode`, `ShellWrapper`,
  `RuntimeInstaller`, `Toolkit`). It covers:
  - the shell wrappers written around each installed executable;
  - the `nvidia-container-cli` settings in the toolkit config;
  - the symlinks;
  - the choice of the container library to install.
- **the run driver and the CRI-O hook** (`Run`, `Crio`). It covers the
  argument parsing, the command lines handed to the toolkit and runtime
  tools, and the hook file written from its template.

Supporting modules:

- `TomlTree` models a go-toml tree and its dotted-path operations:
  - `SetPath` follows go-toml's `SetPath`, which creates the missing
    intermediate tables;
  - `DeletePath` follows go-toml's `DeletePath`, which removes the key
    only when its parent is a table;
  - `PruneUp` is the "delete the parent while it is empty" loop.
- `Semver` covers the subset of `golang.org/x/mod/semver` that the tools
  use.
- `FilePath` covers `filepath.Join`, `Base` and `Dir` on clean paths.
- `Strings` and `Wrappers` hold string and result helpers.

The two containerd schemas are the constants `Containerd.SchemaV1` and
`Containerd.SchemaV2`. They fix the version number, the CRI plugin id and the
key of the binary path, as `newConfigV1` and `newConfigV2` do in
`cmd/containerd/config_v1.go` and `cmd/containerd/config_v2.go`.

The central property is the containerd round trip. Call a config
*undoable* for a runtime class `rc` (the predicate `Undoable`) when:

- it has no entry for `rc` yet, and that entry could be written;
- no table on the way to `runtimes` is empty;
- the default runtime name is not already `rc`;
- when the runtime is to become the default, no default name is set.

For such a config, reverting after updating gives back the original, with
the `version` key set. When the original held nothing but that key, the
result is the empty config.

## Model

| member | source | states |
|---|---|---|
| Containerd.NewContainerdVersion | cmd/containerd/containerd.go:822-832 | A daemon version is accepted as given when it is valid semver, otherwise with a `v` prefixed when that makes it valid. Otherwise it is rejected with an error naming the input; an accepted value is always valid semver. |
| Containerd.ParseVersion | cmd/containerd/containerd.go:311-336 | An integer `version` key is used as is; a non-integer one is an error carrying the value. A non-empty config without the key is version 1. An empty config is version 2 exactly when the daemon is at least v1.3. |
| Containerd.UpdateConfig | cmd/containerd/containerd.go:339-357 | Versions 1 and 2 dispatch to the matching schema update; every other version is the unsupported-version error. |
| Containerd.RevertConfig | cmd/containerd/containerd.go:360-378 | Versions 1 and 2 dispatch to the matching schema revert; every other version is the unsupported-version error. |
| Containerd.DropDefaultName | cmd/containerd/containerd.go:502-506 | The default runtime name is removed exactly when it equals the runtime class; otherwise the config is untouched. |
| Containerd.DropOwnedBinary | cmd/containerd/containerd.go:496-500 | The default runtime's binary setting is removed exactly when its base name is `nvidia-container-runtime`; otherwise the config is untouched. |
| Containerd.OnlyRuntimeFieldsIff | cmd/containerd/containerd.go:522-538 | The source's count of the four known fields equals the table size exactly when the table holds nothing but those fields. |
| Containerd.ClearRuntimeFields | cmd/containerd/containerd.go:522-538 | A default runtime table holding only the four synthesized fields becomes empty; any other table is untouched. |
| Containerd.DropLoneVersion | cmd/containerd/containerd.go:548-550 | A config whose only key is `version` becomes empty; any other config is untouched. The result never consists of the `version` key alone. |
| ContainerdUpdate.SynthesizeShape | cmd/containerd/containerd.go:434-439 | Without a `runc` entry to copy, the class entry is the existing table under that path, with the four runtime fields set. |
| ContainerdUpdate.EntryShape | cmd/containerd/containerd.go:430-440 | Writing the class entry and then its binary path is one write of the finished class entry. |
| ContainerdUpdate.RegisterShape | cmd/containerd/config_v2.go:40-92 | Registering stamps the version and writes the finished class entry. The default runtime name is set only when the runtime is to become the default. |
| ContainerdUpdate.RegisterRuntimeEffect | cmd/containerd/config_v2.go:40-92 | After registering, `version` is the schema's number and the class path holds the class entry. The default runtime name is the class when it is to become the default, and unchanged otherwise. |
| ContainerdUpdate.RegisterRuntimeFrame | cmd/containerd/config_v2.go:40-92 | Registering changes nothing outside the `version` key, the class entry and, when setting the default, the default name. |
| ContainerdUpdate.ClassEntryContents | cmd/containerd/containerd.go:430-440 | The class entry is a copy of `runc` when that is a table. Otherwise it is a synthesized entry with the runtime type and empty root, engine and privileged fields. In both cases its `options` table gains the binary path and keeps its other options. |
| ContainerdUpdate.InitRuntimeShape | cmd/containerd/containerd.go:455-461 | Initializing the default runtime writes one table at its path: the synthesized fields with the binary path under `options`. |
| ContainerdUpdate.UpdateV2Effect | cmd/containerd/containerd.go:556-608 | The version 2 update sets `version = 2`, writes the class entry and sets the default name only when asked. Every path apart from these keeps its value. |
| ContainerdUpdate.InitDefaultEffect | cmd/containerd/containerd.go:455-461 | Initializing the legacy default runtime writes its table and leaves every path apart from it unchanged. |
| ContainerdUpdate.RegisterThenInit | cmd/containerd/config_v1.go:60-70 | On a daemon older than v1.3, registering followed by the legacy default runtime gives all of: the version, the class entry, the synthesized default runtime and the unchanged default name. |
| ContainerdUpdate.UpdateV1InitEffect | cmd/containerd/containerd.go:442-461 | For an older daemon asked to set the default, the version 1 update leaves the default name alone and writes the `default_runtime` table instead. |
| ContainerdUpdate.UpdateV1Effect | cmd/containerd/containerd.go:381-464 | Covers all three cases of the version 1 update: no default, default by name, and legacy default table. Each gives its exact version, class entry, default name and default runtime table. |
| ContainerdUpdate.UpdateV1Frame | cmd/containerd/containerd.go:381-464 | The version 1 update changes nothing outside the version key, the class entry, the default name and the default runtime table. |
| ContainerdUpdate.RegisterIdempotent | cmd/containerd/config_v2.go:40-92 | Registering the same runtime twice is the same as registering it once. |
| ContainerdUpdate.UpdateV2Idempotent | cmd/containerd/containerd.go:556-608 | Running the version 2 update twice is the same as running it once. |
| ContainerdUpdate.RegisterThenInitIdempotent | cmd/containerd/config_v1.go:60-70 | Registering and initializing the legacy default twice is the same as doing it once. |
| ContainerdUpdate.UpdateV1InitIdempotent | cmd/containerd/containerd.go:442-461 | In the legacy default case, the version 1 update applied twice equals one application. |
| ContainerdUpdate.UpdateV1Idempotent | cmd/containerd/containerd.go:381-464 | The version 1 update applied twice equals one application, in every case. |
| ContainerdUpdate.ParseVersionAfterUpdate | cmd/containerd/containerd.go:386 | After a successful update, later version detection returns the version that was written, whatever the daemon then reports. |
| ContainerdRevert.UnregisterEffect | cmd/containerd/config_v2.go:109-122 | Unregistering removes the class entry and leaves no empty table on its path. The default name goes exactly when it was the class. |
| ContainerdRevert.UnregisterFrame | cmd/containerd/config_v2.go:109-122 | Unregistering changes nothing outside the class path, its emptied parents and the default name. |
| ContainerdRevert.DefaultRuntimeFrame | cmd/containerd/containerd.go:516-546 | The legacy default runtime cleanup changes nothing outside the `default_runtime` table and its emptied parents. |
| ContainerdRevert.DefaultRuntimeCleared | cmd/containerd/containerd.go:516-546 | A default runtime table holding only the four synthesized fields disappears, with no empty parent left. |
| ContainerdRevert.DefaultRuntimeKeeps | cmd/containerd/containerd.go:522-538 | A default runtime table with any extra key besides `options` keeps every field other than `options`. |
| ContainerdRevert.DefaultRuntimeBinary | cmd/containerd/containerd.go:516-546 | The cleanup never invents a binary setting: it is either gone or unchanged. |
| ContainerdRevert.DefaultRuntimeOptions | cmd/containerd/containerd.go:516-520 | After the cleanup, the default runtime's `options` is never an empty table. |
| ContainerdRevert.DefaultRuntimeSettled | cmd/containerd/containerd.go:522-546 | After the cleanup, the default runtime is never a table of exactly the synthesized fields, and no table on its path is empty. |
| ContainerdRevert.RevertStages | cmd/containerd/containerd.go:467-553 | The source deletes the class entry first and then drops the owned binary. The version 1 revert is equivalent to: drop the owned binary, unregister the class, clean up the default runtime, drop a lone version key. The binary step commutes with the class deletion. |
| ContainerdRevert.RevertWithDefaultClass | cmd/containerd/config_v1.go:104-123 | After the version 1 revert the class entry is gone, with no empty parents left. The default name is removed exactly when it was the class. |
| ContainerdRevert.RevertWithDefaultLegacy | cmd/containerd/config_v1.go:105-155 | After the version 1 revert no owned binary path is left in the default runtime, and its options are never an empty table. Its table is never exactly the synthesized fields, and no empty table remains on its path. |
| ContainerdRevert.RevertWithDefaultCleared | cmd/containerd/containerd.go:516-546 | A default runtime holding only the four synthesized fields is removed entirely by the version 1 revert. |
| ContainerdRevert.RevertWithDefaultFrame | cmd/containerd/containerd.go:467-553 | The version 1 revert changes nothing outside the paths it owns: class, default name, default runtime, their emptied parents and a lone version key. |
| ContainerdRevert.RevertWithDefaultKeeps | cmd/containerd/containerd.go:522-538 | When the default runtime table has a user-added key, every field other than `options` survives the version 1 revert. |
| ContainerdRevert.RevertWithDefaultIdempotent | cmd/containerd/containerd.go:467-553 | Reverting twice is the same as reverting once (version 1). |
| ContainerdRevert.RevertClassOnlyEffect | cmd/containerd/containerd.go:611-645 | After the version 2 revert the class entry is gone, with no empty parents left. The default name is removed exactly when it was the class. |
| ContainerdRevert.RevertClassOnlyFrame | cmd/containerd/containerd.go:611-645 | The version 2 revert changes nothing outside the class path, its emptied parents, the default name and a lone version key. |
| ContainerdRevert.RevertClassOnlyIdempotent | cmd/containerd/containerd.go:611-645 | Reverting twice is the same as reverting once (version 2). |
| ContainerdRoundTrip.UnregisterAfterRegister | cmd/containerd/config_v2.go:85-114 | On an undoable config, unregistering undoes registering, leaving only the version stamp. |
| ContainerdRoundTrip.RoundTripClassOnly | cmd/containerd/config_v2.go:40-129 | On an undoable config, the schema-generic update and then the version 2 style revert give back the config. The version key is kept unless it is all that remains. |
| ContainerdRoundTrip.RoundTripV2 | cmd/containerd/containerd.go:556-645 | On an undoable config, `RevertV2Config` after `UpdateV2Config` gives back the config, with `version = 2` unless that key would be alone. |
| ContainerdRoundTrip.RoundTripV2Empty | cmd/containerd/containerd.go:556-645 | Version 2 update then revert on an empty config gives the empty config. |
| ContainerdRoundTrip.RoundTripWithDefault | cmd/containerd/config_v1.go:48-162 | On an undoable config with no legacy default runtime, the version 1 revert undoes a registration that set the default by name. |
| ContainerdRoundTrip.DefaultAfterStrip | cmd/containerd/containerd.go:516-546 | A synthesized default runtime whose binary was already dropped is removed by the cleanup, leaving exactly the config it was added to. |
| ContainerdRoundTrip.RoundTripWithDefaultInit | cmd/containerd/containerd.go:454-546 | On an undoable config with no legacy default runtime, the version 1 revert undoes a registration followed by the legacy default runtime table. |
| ContainerdRoundTrip.RuntimePathOwned | cmd/containerd/containerd.go:497 | The binary path the update writes is always recognized as owned by the revert. |
| ContainerdRoundTrip.RoundTripV1 | cmd/containerd/containerd.go:381-553 | On an undoable config with no legacy default runtime, `RevertV1Config` after `UpdateV1Config` gives back the config for any daemon version, with `version = 1` unless that key would be alone. |
| ContainerdRoundTrip.RoundTripV1Empty | cmd/containerd/containerd.go:381-553 | Version 1 update then revert on an empty config gives the empty config, for any daemon version. |
| ContainerdExamples.DaemonVersions | cmd/containerd/containerd.go:834-836 | v1.2 is below the v1.3 gate; v1.3 and v1.4 are at or above it. |
| ContainerdExamples.ParseVersionExamples | cmd/containerd/containerd_test.go:67-99 | An empty config is version 1 for daemon v1.2 and version 2 for v1.3 and v1.4. |
| ContainerdExamples.NewContainerdVersionExamples | cmd/containerd/containerd_test.go:101-135 | "1.3" and "v1.3" both give v1.3; "v" and "" are rejected. |
| ContainerdExamples.NewContainerdVersionIdempotent | cmd/containerd/containerd.go:822-832 | Normalizing an accepted version again changes nothing. |
| ContainerdExamples.SetDefaultRuntimeExamples | cmd/containerd/containerd_test.go:26-65 | With setAsDefault on an empty config: v1.2 writes no default name; v1.3 and v1.4 write the class as the name. |
| ContainerdExamples.RoundTripEmptyConfig | cmd/containerd/containerd.go:183-269 | Setup followed by cleanup on an empty config succeeds at every step and ends with the empty config, for any daemon version. |
| ContainerdExamples.UnversionedKeepsVersion | cmd/containerd/containerd.go:548-550 | A non-empty config without a version key comes back from update and revert with `version = 1` added, so it differs from the original. |
| ContainerdLegacy.LegacyParseVersion | src/containerd.go:251-277 | A non-integer `version` key is an error. |
| ContainerdLegacy.LegacyParseVersionAgrees | src/containerd.go:251-277 | The older tool chooses the same config version as the newer one for every config and daemon. |
| ContainerdLegacy.GateAlwaysOpen | src/containerd.go:391 | Every daemon version compares at or above "1.3", because "1.3" is not valid semver. |
| ContainerdLegacy.LegacyNameEffect | src/containerd.go:383-394 | The older version 1 update sets the default name exactly when its gate lets it, and otherwise leaves the name alone. |
| ContainerdLegacy.LegacyDefaultRuntimeWritten | src/containerd.go:383-390 | With setAsDefault, the older version 1 update writes the class entry and the `default_runtime` table for every daemon version. A synthesized `default_runtime` has the fixed type `io.containerd.runtime.v1.linux`. |
| ContainerdLegacy.GateFinding | src/containerd.go:391-393 | For daemon v1.2 the older update as written sets the default name; the gated version does not. |
| ContainerdLegacy.NameSurvivesRevert | src/containerd.go:435-439 | In the older revert as written, a default name equal to a class other than `nvidia-container-runtime` is left in place. |
| ContainerdLegacy.NameRuleFinding | src/containerd.go:435-439 | With class "nvidia" the older update then revert as written still names "nvidia" as the default runtime. |
| ContainerdLegacy.LegacyRoundTripV1 | src/containerd.go:322-486 | With the gate and the name rule corrected, the older version 1 update then revert gives back any undoable config. |
| ContainerdLegacy.LegacyRoundTripV1Empty | src/containerd.go:322-486 | The corrected older version 1 round trip on an empty config gives the empty config. |
| ContainerdLegacy.LegacyRoundTripV2 | src/containerd.go:489-578 | The older version 2 update then revert gives back any undoable config. |
| Docker.Update | cmd/docker/docker.go:224-239 | `runtimes.nvidia` is set to the runtime's path with no args, and other runtimes are kept. `default-runtime` becomes `nvidia` only when asked and is otherwise untouched. No other key changes. |
| Docker.ResetDefault | cmd/docker/docker.go:243-247 | A `default-runtime` of `nvidia` becomes something else; any other default and every other key are unchanged. |
| Docker.RemoveEntry | cmd/docker/docker.go:249-256 | `runtimes.nvidia` is removed and `runtimes` is dropped when that leaves it empty; all else is unchanged. |
| Docker.Revert | cmd/docker/docker.go:242-258 | The nvidia runtime is removed, an emptied `runtimes` is dropped and a `nvidia` default is reset. Other keys keep their values and no key is added. |
| Docker.UpdateIdempotent | cmd/docker/docker.go:224-239 | Updating twice is the same as updating once. |
| Docker.RevertIdempotent | cmd/docker/docker.go:242-258 | Reverting twice is the same as reverting once. |
| Docker.RoundTrip | cmd/docker/docker.go:224-258 | For a config without a nvidia runtime, without an empty `runtimes` and without a nvidia default, update (not default) then revert gives back the config. |
| Docker.RoundTripDefault | cmd/docker/docker.go:227-247 | After update as default and revert, the default runtime is `runc`. |
| Docker.EmptyRuntimesDropped | cmd/docker/docker.go:249-256 | An empty `runtimes` object does not survive update then revert. |
| Docker.TestEntryPath | cmd/docker/docker_test.go:25-43 | The runtime path for the test directory is `/test/runtime/dir/nvidia-container-runtime`. |
| Docker.UpdateEmpty | cmd/docker/docker_test.go:32-98 | An empty config gains only the nvidia runtime, plus `default-runtime = nvidia` when set as default. |
| Docker.UpdateReplaces | cmd/docker/docker_test.go:44-62 | An existing nvidia entry is replaced by the new path. |
| Docker.UpdateKeepsOther | cmd/docker/docker_test.go:63-85 | Another runtime is kept beside the new nvidia entry. |
| Docker.UpdateOverridesDefault | cmd/docker/docker_test.go:99-113 | A `runc` default is replaced by `nvidia` when set as default. |
| Docker.UpdateKeepsUnrelated | cmd/docker/docker_test.go:114-137 | Unrelated keys are untouched by the update. |
| Docker.RevertEmpty | cmd/docker/docker_test.go:154-168 | Reverting an empty config, or one holding only the nvidia runtime, gives the empty config. |
| Docker.RevertDefaults | cmd/docker/docker_test.go:169-196 | A `nvidia` default becomes `runc`; a different default is kept. |
| Docker.RevertKeepsUnrelated | cmd/docker/docker_test.go:197-220 | Unrelated keys survive the revert. |
| Run.ParseArgs | src/run.go:140-170 | Fewer than two arguments is the missing-argument error. Help anywhere gives the help result. A flag among the positionals, or a positional among the flags, is the matching error. Otherwise the result is the destination and the arguments with the destination taken out. |
| Run.VerifyFlags | src/run.go:172-178 | Exactly `docker`, `crio` and `containerd` are accepted; anything else is an error naming it. |
| Run.ToolkitDir | src/run.go:218 | The toolkit directory is the `toolkit` subdirectory of the destination. |
| Run.InstallCommandWords | src/run.go:217-232 | For a destination without blanks, the shell splits the install line into `toolkit` and the `toolkit` directory under the destination, followed by the words of the toolkit arguments. The tool therefore runs on `<destination>/toolkit`. |
| Run.RuntimeCommandWords | src/run.go:234-287 | For a supported runtime and a destination without blanks, the setup and cleanup lines split into the runtime and the verb, then the runtime arguments' words and the toolkit directory for containerd. For the other runtimes they split into the runtime, the verb, the toolkit directory and then the runtime arguments' words. |
| Run.ToolkitDirPlacement | src/run.go:234-287 | In the setup and cleanup commands, the toolkit directory is last for containerd and comes straight after the verb otherwise. |
| Crio.ParseArgs | src/crio.go:134-145 | Exactly one argument is accepted and becomes the toolkit directory that is substituted into the hook; otherwise an error. The hooks directory comes from a flag instead. |
| Crio.HookPathShape | src/crio.go:186-188 | The hook file lies directly in the hooks directory under its file name. |
| Crio.HookTemplatePath | src/crio.go:177-184 | The template is the default hook file beside the executable. An executable lookup error comes back wrapped in an error that names the `crio` command and carries the original error. |
| Crio.CreateHook | src/crio.go:164-173 | The hook text is the template's lines, each with the destination pattern replaced, joined without separators. |
| Crio.HookHasNoNewlines | src/crio.go:164-173 | The written hook contains no newline when the lines and the toolkit directory have none. |
| Crio.HookWithoutPattern | src/crio.go:164-173 | A template without the destination pattern is written unchanged, apart from the dropped line breaks. |
| Crio.HookSplits | src/crio.go:164-173 | The hook for a template is the concatenation of the hooks for its two halves. |
| Crio.SubstituteOccurrence | src/crio.go:168 | Every occurrence of the destination pattern in a line becomes the toolkit directory. The text before the first occurrence is kept, and the rest of the line is substituted in turn. |
| Crio.SubstituteLeading | src/crio.go:168 | A line starting with the destination pattern starts with the toolkit directory instead, and the rest of the line is substituted in turn. |
| Executable.WrapperEnv | cmd/toolkit/executable.go:95-106 | The wrapper exports the executable's environment plus PATH; with no environment, PATH alone is the destination prepended to `$PATH`. |
| Executable.WriteWrapperTo | cmd/toolkit/executable.go:83-129 | The wrapper is the shebang, the pre-lines, one export per variable in ascending key order, the call of the dot file, the argument lines and `"$@"`. All lines pass through the replacement. |
| Executable.WrapperTextUnique | cmd/toolkit/executable.go:108-117 | Any two ascending enumerations of the keys give the same export lines, so the wrapper text is deterministic. |
| Executable.PathAlwaysExported | cmd/toolkit/executable.go:102-106 | PATH is always exported, as the destination followed by the given PATH or `$PATH`. |
| Executable.InstalledPathShape | cmd/toolkit/executable.go:133-136 | An executable is installed in the destination folder under its own base name. |
| Executable.DotFileShape | cmd/toolkit/executable.go:58-61 | The dot file is the executable's base name plus the dot-file extension, beside the installed executable. |
| FileMode.ExecutableMode | cmd/toolkit/executable.go:144 | The new mode has all three execute bits set. |
| FileMode.ExecutableModeKeepsOthers | cmd/toolkit/executable.go:144 | Every bit other than the execute bits is unchanged. |
| FileMode.ExecutableModeNoChange | cmd/toolkit/executable.go:144 | A mode with all execute bits already set is unchanged. |
| FileMode.ExecutableModeIdempotent | cmd/toolkit/executable.go:144 | Making a file executable twice is the same as once. |
| ShellWrapper.MapLines | cmd/toolkit/executable.go:90-92 | Each line is transformed in place; the number of lines is kept. |
| ShellWrapper.WithPath | cmd/toolkit/executable.go:102-106 | PATH is added or prefixed with the destination folder; every other variable is kept. |
| ShellWrapper.EnvLines | cmd/toolkit/executable.go:114-117 | One export line per key, in the given order, with the transformed value. |
| ShellWrapper.Script | cmd/toolkit/executable.go:87-126 | The wrapper's layout: shebang first, `"$@"` last, and pre-lines, exports, the call and the argument lines in between, in that order. |
| ShellWrapper.SortKeys | cmd/toolkit/executable.go:108-112 | The keys are listed once each, in ascending order. |
| ShellWrapper.AscendingUnique | cmd/toolkit/executable.go:108-112 | There is only one ascending enumeration of a key set. |
| RuntimeInstaller.NewRuntimeInstaller | cmd/toolkit/runtime.go:74-99 | The installer wraps the given source with the runc fallback preamble and no arguments. Its environment is the caller's entries plus `XDG_CONFIG_HOME` under the destination's `.config`, unless the caller set that variable. |
| RuntimeInstaller.PreLinesShape | cmd/toolkit/runtime.go:75-83 | The preamble is seven lines, blank first and last, and falls back to `exec runc "$@"`. |
| RuntimeInstaller.StandardInstallerEnv | cmd/toolkit/runtime.go:53-59 | The standard runtime installer sets only `XDG_CONFIG_HOME`. |
| RuntimeInstaller.ExperimentalEnv | cmd/toolkit/runtime.go:67-70 | `LD_LIBRARY_PATH` is set, prefixed with the library root, exactly when a root was found. |
| RuntimeInstaller.ExperimentalInstallerEnv | cmd/toolkit/runtime.go:61-72 | The experimental installer has `XDG_CONFIG_HOME`, and also `LD_LIBRARY_PATH` exactly when a library root is known. |
| RuntimeInstaller.FindLibraryRoot | cmd/toolkit/runtime.go:101-109 | The root is the directory of the found library, or empty exactly when the lookup failed. |
| RuntimeInstaller.LibraryRootOfFound | cmd/toolkit/runtime.go:101-113 | A management library found in a directory makes that directory the library root and the `LD_LIBRARY_PATH` prefix. |
| Toolkit.DotRealShape | cmd/toolkit/toolkit.go:325-328 | The `.real` file is the executable's base name with `.real` appended, beside the installed executable. |
| Toolkit.WrapExecutable | cmd/toolkit/toolkit.go:330-372 | The older wrapper is the shebang, the pre-lines, one export per variable (PATH included) in some enumeration order, the call, the argument lines and `"$@"`. |
| Toolkit.UnsortedSameAssignments | cmd/toolkit/toolkit.go:353-355 | Whatever the map order, the export lines are exactly the variable assignments, one per variable. |
| Toolkit.SingleKeyOrderForced | cmd/toolkit/toolkit.go:353-355 | With a single variable the export order is forced. |
| Toolkit.LdconfigPath | cmd/toolkit/toolkit.go:231 | The ldconfig setting always starts with `@` (run on the host). |
| Toolkit.LdconfigRerooted | cmd/toolkit/toolkit.go:228-231 | A host ldconfig `@/x` becomes `@<driver root>/x`. |
| Toolkit.LdconfigAtRoot | cmd/toolkit/toolkit.go:228-231 | With the driver at `/`, the ldconfig setting is unchanged. |
| Toolkit.InstallToolkitConfigEffect | cmd/toolkit/toolkit.go:208-242 | The config gains the driver root, the CLI path and the re-rooted ldconfig under `nvidia-container-cli`; every other path is unchanged. |
| Toolkit.InstallSymlink | cmd/toolkit/toolkit.go:376-386 | A symlink's target is a bare file name, never a path. |
| Toolkit.HookSymlink | cmd/toolkit/toolkit.go:285-303 | `nvidia-container-runtime-hook` points at `nvidia-container-toolkit` beside it. |
| Toolkit.InstallContainerLibrary | cmd/toolkit/toolkit.go:168-204 | The first candidate that resolves and copies is installed, and a link under the library's name is added exactly when the copy's name differs. When no candidate works, the result is the not-found error. |
| Toolkit.LibraryLink | cmd/toolkit/toolkit.go:191-200 | The installed library keeps its resolved base name, and the library-name link points at it. |
| Strings.TrimPrefix | cmd/toolkit/toolkit.go:231 | With the prefix present, prefix plus result is the input; otherwise the input is unchanged. |
| Strings.ReplaceAll | src/crio.go:168 | A string without the pattern is unchanged. What happens at an occurrence is stated by `Strings.ReplaceFirst`. |
| Strings.ReplaceFirst | src/crio.go:168 | `strings.ReplaceAll` replaces the first occurrence of the pattern and carries on after it. Together with the pattern-free case, this determines the result for every input. |
| Strings.ReplaceAllSelf | src/crio.go:168 | Replacing a pattern by itself changes nothing. |
| Strings.LessEqTotal | cmd/toolkit/executable.go:112 | Any two strings are ordered one way or the other. |
| Strings.LessEqAntisymmetric | cmd/toolkit/executable.go:112 | Strings ordered both ways are equal. |
| Strings.LessEqTransitive | cmd/toolkit/executable.go:112 | The string order is transitive. |
| FilePath.BaseOfJoin | cmd/containerd/containerd.go:497 | The base name of a directory joined with a bare name is that name. |
| FilePath.DirOfJoin | cmd/toolkit/executable.go:133-136 | The directory of a clean directory joined with a bare name is that directory. |
| FilePath.BaseOfJoinBase | cmd/toolkit/toolkit.go:376-386 | Joining a directory with a base name keeps that base name. |
| Semver.Compare | cmd/containerd/containerd.go:834-836 | Comparison is -1, 0 or 1. Invalid versions tie with each other and sort below every valid one. Two valid versions compare equal exactly when their numbers are equal, and below exactly when they precede in major, then minor, then patch order. |
| Semver.AtLeastV13 | cmd/containerd/containerd.go:833-836 | A daemon version is at least v1.3 exactly when it is valid and its major number exceeds 1, or is 1 with a minor number of 3 or more. |
| Semver.CompareAntisymmetric | cmd/containerd/containerd.go:834-836 | Swapping the operands negates the comparison. |
| Semver.CompareReflexive | cmd/containerd/containerd.go:834-836 | A version compares equal to itself. |
| Semver.CompareTransitive | cmd/containerd/containerd.go:834-836 | At-least is transitive, so the v1.3 gate is monotone in the daemon version. |
| Semver.NoLeadingVInvalid | src/containerd.go:391 | A version without a leading `v` is never valid semver. |
| TomlTree.GetSetSame | cmd/containerd/containerd.go:440 | After setting a writable path, reading it gives the value set. |
| TomlTree.GetSetOther | cmd/containerd/containerd.go:440 | Setting a path leaves every diverging path unchanged. |
| TomlTree.GetDeleteSame | cmd/containerd/containerd.go:495 | After deleting a path it is absent. |
| TomlTree.GetDeleteOther | cmd/containerd/containerd.go:495 | Deleting a path leaves every diverging path unchanged. |
| TomlTree.SetSetSame | cmd/containerd/containerd.go:440 | Setting a path twice is the same as setting it to the second value. |
| TomlTree.DeleteAfterSet | cmd/containerd/containerd.go:495 | Deleting a path just set leaves only the tables created on the way to it. |
| TomlTree.PruneUpNoEmpty | cmd/containerd/containerd.go:508-514 | After the upward prune, no table on the path is empty. |
| TomlTree.PruneUpFrame | cmd/containerd/containerd.go:508-514 | The upward prune changes nothing off the path. |
| TomlTree.PruneUpNoop | cmd/containerd/containerd.go:508-514 | With no empty table on the path, the prune changes nothing. |
| TomlTree.PruneEnsure | cmd/containerd/containerd.go:508-514 | Pruning removes exactly the empty tables that writing the path had created. |

## Left out

- `Run`: the lines handed to `sh -c` are read as blank-separated words
  (`Run.Words`). Quoting, variable expansion and globbing by the shell are
  not modelled, and the word lemmas assume a destination without blanks.
- `Docker.Json`: numbers are integers; Go decodes every JSON number in
  `daemon.json` as a float64, which keeps fractions and rounds integers
  beyond 2^53. The engine only passes numbers through.
- `cmd/containerd/config.go` is not part of this model. It holds the shared
  `config.update`/`initRuntime` helpers; their behaviour is taken from the
  inlined copies in `cmd/containerd/containerd.go:381-464`.
- File and process I/O are parameters or absent: loading and flushing the
  config files, restarting or signalling containerd and docker, running
  commands, logging and command-line flag wiring.
- `getContainerdVersion` is absent: the daemon version is a string
  parameter.
- `TomlTree`: when go-toml's `SetPath` meets a non-table value on the way,
  it steps over that key and writes the remaining keys into the table that
  holds it. The model does the same, but the theorems require the written
  path to be writable, so they say nothing about that case.
- `TomlTree`: go-toml's `GetPath`, `SetPath` and `DeletePath` descend into
  the last element of an array of tables. The model's `Arr` is opaque to
  paths: `GetPath` finds nothing below it, `SetPath` steps over it and
  `DeletePath` leaves it alone.
- `FilePath`: `Join`, `Base` and `Dir` are modelled on clean paths; `Clean`
  is not modelled.
- `Semver`: it parses `vMAJOR[.MINOR[.PATCH]]` only; pre-release and build
  suffixes are treated as invalid.
- `Executable.WriteWrapperTo`: the `newReplacements`/`destDirPattern`
  substitution is the `replace` function parameter.
- `Toolkit.InstallContainerLibrary`: `resolveLink` (symlink resolution) and
  `installFileToFolder` (the file copy) are the `resolve` and `copies`
  parameters.
- `Toolkit.InstallSymlink`: a failure to create the link is not modelled.
- `RuntimeInstaller`: the `executableTarget` type is not shown in the
  source and is modelled as a pair of names.
- `Toolkit.InstallToolkitConfigEffect`: when the stored ldconfig value is
  not a string, the model uses a placeholder for what `fmt.Sprintf("%s")`
  prints.
- `Toolkit.WrapExecutable`: Go's random map order is an arbitrary
  enumeration of the keys.
- `Docker.Update`: a `runtimes` value that is not a JSON object makes the
  source panic on its type assertion. Here that is the precondition
  `RuntimesIsObject`.
- `Crio.CreateHook`: errors opening or writing the hook file are not
  modelled.
- The source changes the installers' environment maps in place; the model
  returns new maps.
- The round-trip theorems assume no legacy `default_runtime` table is
  present before the update. The source's revert cannot tell such a table
  from the one the update writes.

## Findings

| source | as written | input that shows it | evidently intended | confidence | as-written member | corrected member |
|---|---|---|---|---|---|---|
| src/containerd.go:391 | The gate compares the daemon with "1.3", which is not valid semver, so every daemon passes | daemon "v1.2" with setAsDefault on an empty config writes `default_runtime_name` | The name is written only for daemons at least v1.3, as in `cmd/containerd/containerd.go:442-452` | not executed | ContainerdLegacy.GateFinding | ContainerdLegacy.LegacyRoundTripV1 |
| src/containerd.go:435-439 | The revert removes the default name only when it equals `nvidia-container-runtime`, not the runtime class the update wrote | class "nvidia" with setAsDefault: after update and revert the default name is still "nvidia" | Remove the name when it equals the runtime class, as in `cmd/containerd/containerd.go:502-506` | not executed | ContainerdLegacy.NameRuleFinding | ContainerdLegacy.LegacyRoundTripV1 |

=== FILE: containerd.dfy ===
/**
 The containerd configuration engine: choosing the schema version of a
 config.toml, registering the NVIDIA runtime as a runtime class (Update) and
 removing it again (Revert), for the version 1 and version 2 schemas.

 A config file is a `TomlTree.Tree`; every operation is a pure edit of it.
 */
module Containerd {
  import opened Wrappers
  import opened TomlTree
  import FilePath
  import Semver

  /** The executable registered as the runtime, and recognised by name on revert. */
  const RuntimeBinary := "nvidia-container-runtime"

  /** The first containerd release that reads `default_runtime_name` from a
      version 1 file. */
  const Version1dot3 := "v1.3"

  /** The fields of a synthesized runtime entry (the fields Revert treats as
      its own in `default_runtime`). */
  const RuntimeTypeKey := "runtime_type"
  const RuntimeRootKey := "runtime_root"
  const RuntimeEngineKey := "runtime_engine"
  const PrivilegedKey := "privileged_without_host_devices"
  const RuntimeFields: set<string> := {RuntimeTypeKey, RuntimeRootKey, RuntimeEngineKey, PrivilegedKey}

  /** The command-line options the engine reads. */
  datatype Options = Options(
    runtimeClass: string,
    runtimeType: string,
    setAsDefault: bool,
    runtimeDir: string)

  /** What differs between the two file schemas: the number written to
      `version`, the id of the CRI plugin, and the option key that holds the
      runtime binary. */
  datatype Schema = Schema(version: int, cri: string, binaryKey: string)

  const SchemaV1: Schema := Schema(1, "cri", "Runtime")
  const SchemaV2: Schema := Schema(2, "io.containerd.grpc.v1.cri", "BinaryName")

  datatype Error =
    | InvalidSemver(given: string)
    | VersionNotInteger(found: Value)
    | UnsupportedVersion(version: int)

  // ---------------------------------------------------------------------------
  // Paths
  // ---------------------------------------------------------------------------

  const VersionKey := "version"

  function ContainerdPath(s: Schema): Path { ["plugins", s.cri, "containerd"] }
  function RuntimesPath(s: Schema): Path { ContainerdPath(s) + ["runtimes"] }
  function RuncPath(s: Schema): Path { RuntimesPath(s) + ["runc"] }
  function ClassPath(s: Schema, rc: string): Path { RuntimesPath(s) + [rc] }
  function DefaultNamePath(s: Schema): Path { ContainerdPath(s) + ["default_runtime_name"] }
  function DefaultRuntimePath(s: Schema): Path { ContainerdPath(s) + ["default_runtime"] }
  function DefaultOptionsPath(s: Schema): Path { DefaultRuntimePath(s) + ["options"] }
  function DefaultBinaryPath(s: Schema): Path { DefaultOptionsPath(s) + [s.binaryKey] }

  /** Where Update points the runtime class: `<runtimeDir>/nvidia-container-runtime`. */
  function RuntimePath(o: Options): string {
    FilePath.Join(o.runtimeDir, RuntimeBinary)
  }

  // ---------------------------------------------------------------------------
  // Versions
  // ---------------------------------------------------------------------------

  /** The daemon version is at least `w` in semantic-version order. */
  predicate AtLeast(v: string, w: string) {
    Semver.Compare(v, w) >= 0
  }

  /** Normalises the version string the daemon reports: a valid semantic
      version is kept, a bare "1.3"-style one gets its 'v', anything else is
      an error. */
  function NewContainerdVersion(version: string): (r: Result<string, Error>)
    ensures r.Ok? ==> Semver.IsValid(r.value)
    ensures r.Ok? ==> r.value == version || r.value == "v" + version
    ensures Semver.IsValid(version) ==> r == Ok(version)
    ensures r.Err? <==> !Semver.IsValid(version) && !Semver.IsValid("v" + version)
    ensures r.Err? ==> r.error == InvalidSemver(version)
  {
    if Semver.IsValid(version) then Ok(version)
    else if version != "" && version[0] != 'v' && Semver.IsValid("v" + version) then Ok("v" + version)
    else
      assert version != "" && version[0] == 'v' ==> !Semver.IsValid("v" + version) by {
        if version != "" && version[0] == 'v' {
          assert ("v" + version)[1..] == version;
        }
      }
      Err(InvalidSemver(version))
  }

  /** The schema version of a config: an integer `version` key wins; without
      one, an empty file follows the daemon (2 from v1.3 on) and a non-empty
      file is version 1; any other type of `version` is an error. */
  function ParseVersion(t: Tree, daemon: string): (r: Result<int, Error>)
    ensures VersionKey in t && t[VersionKey].Int? ==> r == Ok(t[VersionKey].i)
    ensures VersionKey in t && !t[VersionKey].Int? ==> r == Err(VersionNotInteger(t[VersionKey]))
    ensures VersionKey !in t && t != map[] ==> r == Ok(1)
    ensures t == map[] ==> r == Ok(if AtLeast(daemon, Version1dot3) then 2 else 1)
  {
    var defaultVersion := if AtLeast(daemon, Version1dot3) then 2 else 1;
    match GetPath(t, [VersionKey])
    case None => if |t.Keys| == 0 then Ok(defaultVersion) else Ok(1)
    case Some(Int(v)) => Ok(v)
    case Some(other) => Err(VersionNotInteger(other))
  }

  // ---------------------------------------------------------------------------
  // Update
  // ---------------------------------------------------------------------------

  /** Writes the four fields of a fresh runtime entry below `p`, one SetPath
      each, as the engine does when there is no `runc` entry to copy. */
  function SynthesizeRuntime(t: Tree, p: Path, runtimeType: string): Tree {
    var t1 := SetPath(t, p + [RuntimeTypeKey], Str(runtimeType));
    var t2 := SetPath(t1, p + [RuntimeRootKey], Str(""));
    var t3 := SetPath(t2, p + [RuntimeEngineKey], Str(""));
    SetPath(t3, p + [PrivilegedKey], Bool(false))
  }

  /** The class entry as a copy of the `runc` table, or synthesized when
      `runc` is not a table. */
  function WriteEntry(t: Tree, s: Schema, rc: string, runtimeType: string): Tree {
    match GetPath(t, RuncPath(s))
    case Some(Table(runc)) => SetPath(t, ClassPath(s, rc), Table(runc))
    case _ => SynthesizeRuntime(t, ClassPath(s, rc), runtimeType)
  }

  /** The shared part of both schemas' Update: stamp the version, make the
      class entry a copy of `runc` (or a synthesized entry when `runc` is not
      a table), point its binary option at `runtimePath`, and optionally name
      the class as the default runtime. */
  function RegisterRuntime(t: Tree, s: Schema, rc: string, runtimeType: string,
                           runtimePath: string, setAsDefault: bool): Tree
  {
    var t2 := WriteEntry(t[VersionKey := Int(s.version)], s, rc, runtimeType);
    var t3 := SetPath(t2, ClassPath(s, rc) + ["options", s.binaryKey], Str(runtimePath));
    if setAsDefault then SetPath(t3, DefaultNamePath(s), Str(rc)) else t3
  }

  /** Makes sure a runtime entry exists at `p` (synthesizing one only when
      nothing is there) and points its binary option at `runtimePath`. */
  function InitRuntime(t: Tree, p: Path, runtimeType: string, binaryKey: string, runtimePath: string): Tree {
    var t1 := if GetPath(t, p) == None then SynthesizeRuntime(t, p, runtimeType) else t;
    SetPath(t1, p + ["options", binaryKey], Str(runtimePath))
  }

  /** Update for a version 1 file. `default_runtime_name` is only understood
      from containerd v1.3 on; older daemons get the deprecated
      `default_runtime` table instead. */
  function UpdateV1(t: Tree, o: Options, daemon: string): Tree {
    var newer := AtLeast(daemon, Version1dot3);
    var t1 := RegisterRuntime(t, SchemaV1, o.runtimeClass, o.runtimeType, RuntimePath(o), o.setAsDefault && newer);
    if !o.setAsDefault || newer then t1
    else InitRuntime(t1, DefaultRuntimePath(SchemaV1), o.runtimeType, SchemaV1.binaryKey, RuntimePath(o))
  }

  /** Update for a version 2 file. */
  function UpdateV2(t: Tree, o: Options): Tree {
    RegisterRuntime(t, SchemaV2, o.runtimeClass, o.runtimeType, RuntimePath(o), o.setAsDefault)
  }

  /** Dispatch on the schema version; any other version is refused before
      the tree is touched. */
  function UpdateConfig(t: Tree, o: Options, version: int, daemon: string): (r: Result<Tree, Error>)
    ensures r.Err? <==> version != 1 && version != 2
    ensures r.Err? ==> r.error == UnsupportedVersion(version)
    ensures version == 1 ==> r == Ok(UpdateV1(t, o, daemon))
    ensures version == 2 ==> r == Ok(UpdateV2(t, o))
  {
    if version == 1 then Ok(UpdateV1(t, o, daemon))
    else if version == 2 then Ok(UpdateV2(t, o))
    else Err(UnsupportedVersion(version))
  }

  // ---------------------------------------------------------------------------
  // Revert
  // ---------------------------------------------------------------------------

  /** Deletes `default_runtime_name` when it is the string `name`. */
  function DropDefaultName(t: Tree, s: Schema, name: string): (r: Tree)
    ensures GetPath(t, DefaultNamePath(s)) == Some(Str(name)) ==> GetPath(r, DefaultNamePath(s)) == None
    ensures GetPath(t, DefaultNamePath(s)) != Some(Str(name)) ==> r == t
  {
    GetDeleteSame(t, DefaultNamePath(s));
    if GetPath(t, DefaultNamePath(s)) == Some(Str(name)) then DeletePath(t, DefaultNamePath(s)) else t
  }

  /** The value is a path whose last element is the NVIDIA runtime binary. */
  predicate IsOwnedBinary(v: Option<Value>) {
    match v
    case Some(Str(x)) => FilePath.Base(x) == RuntimeBinary
    case _ => false
  }

  /** Deletes `default_runtime.options.<binaryKey>` when it points at the
      NVIDIA runtime binary. */
  function DropOwnedBinary(t: Tree, s: Schema): (r: Tree)
    ensures IsOwnedBinary(GetPath(t, DefaultBinaryPath(s))) ==> GetPath(r, DefaultBinaryPath(s)) == None
    ensures !IsOwnedBinary(GetPath(t, DefaultBinaryPath(s))) ==> r == t
  {
    GetDeleteSame(t, DefaultBinaryPath(s));
    if IsOwnedBinary(GetPath(t, DefaultBinaryPath(s))) then DeletePath(t, DefaultBinaryPath(s)) else t
  }

  /** The class entry's removal: delete it, drop `default_runtime_name` when
      it names `owned`, and prune the tables left empty on the class path. */
  function UnregisterClass(t: Tree, s: Schema, rc: string, owned: string): Tree {
    var p := ClassPath(s, rc);
    PruneUp(DropDefaultName(DeletePath(t, p), s, owned), p)
  }

  /** The engine's test for a table that holds nothing but synthesized
      fields: it counts the four field names present and compares the count
      with the number of keys. */
  predicate OnlyRuntimeFields(m: Tree) {
    |m.Keys| <= |RuntimeFields| && |m.Keys * RuntimeFields| == |m.Keys|
  }

  /** The counting test is exactly key inclusion. */
  lemma OnlyRuntimeFieldsIff(m: Tree)
    ensures OnlyRuntimeFields(m) <==> m.Keys <= RuntimeFields
  {
    var both := m.Keys * RuntimeFields;
    if OnlyRuntimeFields(m) {
      assert |m.Keys - both| == |m.Keys| - |both| == 0;
      assert m.Keys - both == {};
    }
    if m.Keys <= RuntimeFields {
      assert both == m.Keys;
      SubsetCard(m.Keys, RuntimeFields);
    }
  }

  lemma SubsetCard<T>(a: set<T>, b: set<T>)
    requires a <= b
    ensures |a| <= |b|
  {
    assert b == a + (b - a);
  }

  /** `p` holds a table whose every key is one of the four synthesized fields. */
  predicate OnlyFieldsAt(t: Tree, p: Path) {
    match GetPath(t, p)
    case Some(Table(m)) => m.Keys <= RuntimeFields
    case _ => false
  }

  /** Empties `default_runtime` when every key it still has is one of the
      four fields of a synthesized entry. */
  function ClearRuntimeFields(t: Tree, p: Path): (r: Tree)
    requires |p| > 0
    ensures OnlyFieldsAt(t, p) ==> GetPath(r, p) == Some(Empty)
    ensures !OnlyFieldsAt(t, p) ==> r == t
  {
    match GetPath(t, p)
    case Some(Table(m)) =>
      OnlyRuntimeFieldsIff(m);
      if OnlyRuntimeFields(m)
      then
        GetSomeWritable(t, p);
        GetSetSame(t, p, Table(m - RuntimeFields));
        assert m - RuntimeFields == map[];
        SetPath(t, p, Table(m - RuntimeFields))
      else t
    case _ => t
  }

  /** Removes `version` when it is the only key left. */
  function DropLoneVersion(t: Tree): (r: Tree)
    ensures r.Keys != {VersionKey}
    ensures t.Keys == {VersionKey} ==> r == map[]
    ensures t.Keys != {VersionKey} ==> r == t
  {
    if t.Keys == {VersionKey} then t - {VersionKey} else t
  }

  /** The clean-up of the deprecated `default_runtime` table: prune an empty
      `options`, empty the table when only the four synthesized fields are
      left, then prune empty tables up its path. */
  function RevertDefaultRuntime(t: Tree, s: Schema): Tree {
    var t1 := PruneAt(t, DefaultOptionsPath(s));
    var t2 := ClearRuntimeFields(t1, DefaultRuntimePath(s));
    PruneUp(t2, DefaultRuntimePath(s))
  }

  /** The steps of Revert for a file with a `default_runtime` table, in the
      engine's order; `owned` is the `default_runtime_name` value Revert
      removes. */
  function RevertWithDefault(t: Tree, s: Schema, rc: string, owned: string): Tree {
    var t1 := DeletePath(t, ClassPath(s, rc));
    var t2 := DropOwnedBinary(t1, s);
    var t3 := DropDefaultName(t2, s, owned);
    var t4 := PruneUp(t3, ClassPath(s, rc));
    DropLoneVersion(RevertDefaultRuntime(t4, s))
  }

  /** Revert for a version 1 file. */
  function RevertV1(t: Tree, o: Options): Tree {
    RevertWithDefault(t, SchemaV1, o.runtimeClass, o.runtimeClass)
  }

  /** The steps of Revert for a file without a `default_runtime` table. */
  function RevertClassOnly(t: Tree, s: Schema, rc: string, owned: string): Tree {
    DropLoneVersion(UnregisterClass(t, s, rc, owned))
  }

  /** Revert for a version 2 file. */
  function RevertV2(t: Tree, o: Options): Tree {
    RevertClassOnly(t, SchemaV2, o.runtimeClass, o.runtimeClass)
  }

  function RevertConfig(t: Tree, o: Options, version: int): (r: Result<Tree, Error>)
    ensures r.Err? <==> version != 1 && version != 2
    ensures r.Err? ==> r.error == UnsupportedVersion(version)
    ensures version == 1 ==> r == Ok(RevertV1(t, o))
    ensures version == 2 ==> r == Ok(RevertV2(t, o))
  {
    if version == 1 then Ok(RevertV1(t, o))
    else if version == 2 then Ok(RevertV2(t, o))
    else Err(UnsupportedVersion(version))
  }
}

=== FILE: containerd_examples.dfy ===
/**
 Concrete cases of the containerd engine: the daemon versions and empty
 files the engine's own tests use, the round trip through the version the
 engine picks for an empty file, and the non-empty file Revert does not
 restore exactly.
 */
module ContainerdExamples {
  import opened Wrappers
  import opened TomlTree
  import opened Containerd
  import opened ContainerdUpdate
  import opened ContainerdRoundTrip
  import Semver

  /** "v1.2" is older than v1.3; "v1.3" and "v1.4" are not. */
  lemma DaemonVersions()
    ensures !AtLeast("v1.2", Version1dot3)
    ensures AtLeast("v1.3", Version1dot3)
    ensures AtLeast("v1.4", Version1dot3)
  {
    Semver.ParseV12();
    Semver.ParseV13();
    Semver.ParseV14();
  }

  /** An empty file is version 1 for a v1.2 daemon and version 2 from v1.3 on. */
  lemma ParseVersionExamples()
    ensures ParseVersion(map[], "v1.2") == Ok(1)
    ensures ParseVersion(map[], "v1.3") == Ok(2)
    ensures ParseVersion(map[], "v1.4") == Ok(2)
  {
    DaemonVersions();
  }

  /** "1.3" gains its 'v', "v1.3" is kept, "v" and "" are refused. */
  lemma NewContainerdVersionExamples()
    ensures NewContainerdVersion("1.3") == Ok("v1.3")
    ensures NewContainerdVersion("v1.3") == Ok("v1.3")
    ensures NewContainerdVersion("v").Err?
    ensures NewContainerdVersion("").Err?
  {
    assert "v" + "1.3" == "v1.3";
    assert "v" + "v" == "vv";
    assert "v" + "" == "v";
  }

  /** Normalising a normalised version changes nothing. */
  lemma NewContainerdVersionIdempotent(version: string)
    ensures NewContainerdVersion(version).Ok? ==>
              NewContainerdVersion(NewContainerdVersion(version).value) == NewContainerdVersion(version)
  {
  }

  /** On an empty version 1 file with the flag set, `default_runtime_name`
      names the class for v1.3 and v1.4 daemons and is absent for v1.2. */
  lemma SetDefaultRuntimeExamples(o: Options)
    requires o.setAsDefault
    ensures GetPath(UpdateV1(map[], o, "v1.2"), DefaultNamePath(SchemaV1)) == None
    ensures GetPath(UpdateV1(map[], o, "v1.3"), DefaultNamePath(SchemaV1)) == Some(Str(o.runtimeClass))
    ensures GetPath(UpdateV1(map[], o, "v1.4"), DefaultNamePath(SchemaV1)) == Some(Str(o.runtimeClass))
  {
    var e: Tree := map[];
    DaemonVersions();
    EmptyUndoable(SchemaV1, o.runtimeClass, false);
    assert GetPath(e, DefaultRuntimePath(SchemaV1)) == None;
    UpdateV1Effect(e, o, "v1.2");
    UpdateV1Effect(e, o, "v1.3");
    UpdateV1Effect(e, o, "v1.4");
  }

  /** Whatever daemon, the version the engine picks for an empty file makes
      Update succeed and Revert give back the empty file. */
  lemma RoundTripEmptyConfig(o: Options, daemon: string)
    ensures var v := ParseVersion(map[], daemon);
            && v.Ok?
            && UpdateConfig(map[], o, v.value, daemon).Ok?
            && RevertConfig(UpdateConfig(map[], o, v.value, daemon).value, o, v.value) == Ok(map[])
  {
    RoundTripV1Empty(o, daemon);
    RoundTripV2Empty(o);
  }

  /** A non-empty file without `version` is a version 1 file, and Revert
      after Update leaves `version = 1` in it: the round trip is not exact. */
  lemma UnversionedKeepsVersion(o: Options, daemon: string)
    ensures var t: Tree := map["debug" := Bool(true)];
            && ParseVersion(t, daemon) == Ok(1)
            && RevertV1(UpdateV1(t, o, daemon), o) == t[VersionKey := Int(1)]
            && RevertV1(UpdateV1(t, o, daemon), o) != t
  {
    var t: Tree := map["debug" := Bool(true)];
    var s := SchemaV1;
    var rc := o.runtimeClass;
    var d := o.setAsDefault && AtLeast(daemon, Version1dot3);
    assert GetPath(t, ClassPath(s, rc)) == None;
    assert GetPath(t, DefaultNamePath(s)) == None;
    assert GetPath(t, DefaultRuntimePath(s)) == None;
    forall k | 1 <= k <= |RuntimesPath(s)| ensures GetPath(t, RuntimesPath(s)[..k]) != Some(Empty) {
      assert GetPath(t, RuntimesPath(s)[..k]) == None;
    }
    assert Undoable(t, s, rc, d);
    RoundTripV1(t, o, daemon);
    var t1 := t[VersionKey := Int(1)];
    assert t1.Keys != {VersionKey} by {
      assert "debug" in t1.Keys;
    }
    assert VersionKey !in t;
  }
}

=== FILE: containerd_legacy.dfy ===
/**
 The older revision of the containerd engine. It differs from the current
 one in four places: the synthesized `runtime_type` is a fixed constant per
 schema, version 1 Update with the flag set always writes `default_runtime`,
 the gate for `default_runtime_name` compares the daemon version with the
 literal "1.3", and version 1 Revert removes `default_runtime_name` only
 when it names the runtime binary rather than the class.
 */
module ContainerdLegacy {
  import opened Wrappers
  import opened TomlTree
  import opened Containerd
  import opened ContainerdUpdate
  import opened ContainerdRevert
  import opened ContainerdRoundTrip
  import opened ContainerdExamples
  import Semver

  /** The `runtime_type` of a synthesized entry, per schema. */
  const RuntimeTypeV1 := "io.containerd.runtime.v1.linux"
  const RuntimeTypeV2 := "io.containerd.runc.v1"

  /** The version the name gate compares against, as written: no 'v'. */
  const GateAsWritten := "1.3"

  /** Schema version of a config. The daemon default is 1 when the daemon
      version sorts below v1.3 and 2 otherwise. */
  function LegacyParseVersion(t: Tree, daemon: string): (r: Result<int, Error>)
    ensures VersionKey in t && !t[VersionKey].Int? ==> r.Err?
  {
    var defaultVersion := if Semver.Compare(daemon, Version1dot3) == -1 then 1 else 2;
    match GetPath(t, [VersionKey])
    case None => if |t.Keys| == 0 then Ok(defaultVersion) else Ok(1)
    case Some(Int(v)) => Ok(v)
    case Some(other) => Err(VersionNotInteger(other))
  }

  /** The older rule picks the same version as the current one. */
  lemma LegacyParseVersionAgrees(t: Tree, daemon: string)
    ensures LegacyParseVersion(t, daemon) == ParseVersion(t, daemon)
  {
    assert Semver.Compare(daemon, Version1dot3) == -1 <==> !AtLeast(daemon, Version1dot3);
  }

  /** Version 1 Update, with the decision to write `default_runtime_name`
      given as `writeName`. */
  function LegacyUpdateV1(t: Tree, o: Options, writeName: bool): Tree {
    var path := RuntimePath(o);
    var t1 := RegisterRuntime(t, SchemaV1, o.runtimeClass, RuntimeTypeV1, path, false);
    if !o.setAsDefault then t1
    else NameIf(InitRuntime(t1, DefaultRuntimePath(SchemaV1), RuntimeTypeV1, SchemaV1.binaryKey, path),
                SchemaV1, o.runtimeClass, writeName)
  }

  /** Version 1 Update as written: the name is written when the daemon
      version compares at least "1.3". */
  function UpdateV1AsWritten(t: Tree, o: Options, daemon: string): Tree {
    LegacyUpdateV1(t, o, Semver.Compare(daemon, GateAsWritten) >= 0)
  }

  /** Version 1 Update with the gate the comparison evidently means:
      daemon version at least v1.3. */
  function UpdateV1Gated(t: Tree, o: Options, daemon: string): Tree {
    LegacyUpdateV1(t, o, AtLeast(daemon, Version1dot3))
  }

  /** Version 1 Revert as written: `default_runtime_name` goes only when it
      names the runtime binary. */
  function RevertV1AsWritten(t: Tree, o: Options): Tree {
    RevertWithDefault(t, SchemaV1, o.runtimeClass, RuntimeBinary)
  }

  /** Version 1 Revert removing the name Update wrote: the class. */
  function RevertV1Named(t: Tree, o: Options): Tree {
    RevertWithDefault(t, SchemaV1, o.runtimeClass, o.runtimeClass)
  }

  /** Version 2 Update: the current engine's, with the fixed runtime type. */
  function LegacyUpdateV2(t: Tree, o: Options): Tree {
    RegisterRuntime(t, SchemaV2, o.runtimeClass, RuntimeTypeV2, RuntimePath(o), o.setAsDefault)
  }

  /** Version 2 Revert: the current engine's. */
  function LegacyRevertV2(t: Tree, o: Options): Tree {
    RevertClassOnly(t, SchemaV2, o.runtimeClass, o.runtimeClass)
  }

  // ---------------------------------------------------------------------------
  // The name gate
  // ---------------------------------------------------------------------------

  /** "1.3" is not a valid semantic version, so every daemon version
      compares at least as large: the gate never closes. */
  lemma GateAlwaysOpen(daemon: string)
    ensures Semver.Compare(daemon, GateAsWritten) >= 0
  {
    Semver.NoLeadingVInvalid(GateAsWritten);
  }

  /** `default_runtime_name` after Update: the class when the name is
      written, otherwise as before. */
  lemma LegacyNameEffect(t: Tree, o: Options, writeName: bool)
    requires o.setAsDefault
    requires Undoable(t, SchemaV1, o.runtimeClass, false) && GetPath(t, DefaultRuntimePath(SchemaV1)) == None
    ensures GetPath(LegacyUpdateV1(t, o, writeName), DefaultNamePath(SchemaV1))
            == if writeName then Some(Str(o.runtimeClass)) else GetPath(t, DefaultNamePath(SchemaV1))
  {
    var s := SchemaV1;
    var t2 := InitRuntime(RegisterRuntime(t, s, o.runtimeClass, RuntimeTypeV1, RuntimePath(o), false),
                          DefaultRuntimePath(s), RuntimeTypeV1, s.binaryKey, RuntimePath(o));
    NameAfterInit(t, s, o.runtimeClass, RuntimeTypeV1, RuntimePath(o));
    GetSetSame(t2, DefaultNamePath(s), Str(o.runtimeClass));
  }

  /** With the flag set, the older version 1 Update writes `default_runtime`
      whatever the daemon version, and a synthesized table carries the
      schema's fixed runtime type. */
  lemma LegacyDefaultRuntimeWritten(t: Tree, o: Options, writeName: bool)
    requires o.setAsDefault
    requires Open(t, ClassPath(SchemaV1, o.runtimeClass)) && Open(t, DefaultRuntimePath(SchemaV1))
    ensures var r := LegacyUpdateV1(t, o, writeName);
            var d := DefaultRuntimePath(SchemaV1);
            && GetPath(r, ClassPath(SchemaV1, o.runtimeClass))
               == Some(Table(ClassEntry(t, SchemaV1, o.runtimeClass, RuntimeTypeV1, RuntimePath(o))))
            && GetPath(r, d)
               == Some(Table(SetPath(InitBase(t, d, RuntimeTypeV1), ["options", SchemaV1.binaryKey], Str(RuntimePath(o)))))
    ensures GetPath(t, DefaultRuntimePath(SchemaV1)) == None ==>
              GetPath(LegacyUpdateV1(t, o, writeName), DefaultRuntimePath(SchemaV1) + [RuntimeTypeKey])
              == Some(Str(RuntimeTypeV1))
  {
    var s, rc, path := SchemaV1, o.runtimeClass, RuntimePath(o);
    var d, n := DefaultRuntimePath(s), DefaultNamePath(s);
    var r1 := InitRuntime(RegisterRuntime(t, s, rc, RuntimeTypeV1, path, false), d, RuntimeTypeV1, s.binaryKey, path);
    var m := SetPath(InitBase(t, d, RuntimeTypeV1), ["options", s.binaryKey], Str(path));
    assert GetPath(r1, d) == Some(Table(m)) && GetPath(r1, ClassPath(s, rc))
           == Some(Table(ClassEntry(t, s, rc, RuntimeTypeV1, path))) by {
      RegisterThenInit(t, s, rc, RuntimeTypeV1, path);
    }
    assert GetPath(LegacyUpdateV1(t, o, writeName), d) == Some(Table(m))
        && GetPath(LegacyUpdateV1(t, o, writeName), ClassPath(s, rc))
           == Some(Table(ClassEntry(t, s, rc, RuntimeTypeV1, path))) by {
      if writeName {
        PathsApart(s, rc);
        ContainerdChildWritable(r1, s, rc, n);
        GetSetOther(r1, n, Str(rc), d);
        GetSetOther(r1, n, Str(rc), ClassPath(s, rc));
      }
    }
    if GetPath(t, d) == None {
      assert GetPath(m, [RuntimeTypeKey]) == Some(Str(RuntimeTypeV1)) by {
        assert m == SynthesizedDefault(RuntimeTypeV1, s.binaryKey, path);
        SchemaKeysApart();
        SynthesizedType(RuntimeTypeV1, s.binaryKey, path);
      }
      GetAppend(LegacyUpdateV1(t, o, writeName), d, [RuntimeTypeKey], m);
    }
  }

  /** A synthesized `default_runtime` keeps the runtime type it was given. */
  lemma SynthesizedType(ty: string, key: string, path: string)
    requires key !in RuntimeFields && key != "options"
    ensures GetPath(SynthesizedDefault(ty, key, path), [RuntimeTypeKey]) == Some(Str(ty))
  {
    SetPairKeys(WithFields(map[], ty), "options", key, Str(path));
    assert RuntimeTypeKey in RuntimeFields;
  }

  /** Registration and the `default_runtime` step leave
      `default_runtime_name` as it was. */
  lemma NameAfterInit(t: Tree, s: Schema, rc: string, ty: string, path: string)
    requires Undoable(t, s, rc, false) && GetPath(t, DefaultRuntimePath(s)) == None
    ensures GetPath(InitRuntime(RegisterRuntime(t, s, rc, ty, path, false), DefaultRuntimePath(s), ty, s.binaryKey, path),
                    DefaultNamePath(s)) == GetPath(t, DefaultNamePath(s))
    ensures Writable(InitRuntime(RegisterRuntime(t, s, rc, ty, path, false), DefaultRuntimePath(s), ty, s.binaryKey, path),
                     DefaultNamePath(s))
  {
    var d, c, n := DefaultRuntimePath(s), ClassPath(s, rc), DefaultNamePath(s);
    var b := Stamped(t, s);
    var e := Table(ClassEntry(t, s, rc, ty, path));
    RevertPathsApart(s, rc);
    StampedFacts(t, s, rc, false);
    RegisterThenInitShape(t, s, rc, ty, path);
    TopKeyFrame(t, VersionKey, Int(s.version), n);
    GetSetOther(b, c, e, n);
    WritableSetOther(b, c, e, d);
    var dd := Table(SynthesizedDefault(ty, s.binaryKey, path));
    GetSetOther(SetPath(b, c, e), d, dd, n);
    GetSetSame(b, c, e);
    GetSetOther(SetPath(b, c, e), d, dd, c);
    ContainerdChildWritable(SetPath(SetPath(b, c, e), d, dd), s, rc, n);
  }

  /** As written, a v1.2 daemon gets `default_runtime_name`, which it does
      not read; with the intended gate it does not. */
  lemma GateFinding(o: Options)
    requires o.setAsDefault
    ensures GetPath(UpdateV1AsWritten(map[], o, "v1.2"), DefaultNamePath(SchemaV1)) == Some(Str(o.runtimeClass))
    ensures GetPath(UpdateV1Gated(map[], o, "v1.2"), DefaultNamePath(SchemaV1)) == None
  {
    var e: Tree := map[];
    GateAlwaysOpen("v1.2");
    DaemonVersions();
    EmptyUndoable(SchemaV1, o.runtimeClass, false);
    assert GetPath(e, DefaultRuntimePath(SchemaV1)) == None;
    LegacyNameEffect(e, o, true);
    LegacyNameEffect(e, o, false);
  }

  // ---------------------------------------------------------------------------
  // The revert name rule
  // ---------------------------------------------------------------------------

  /** As written, for any class other than the binary's own name, the
      `default_runtime_name` Update writes survives Revert. */
  lemma NameSurvivesRevert(t: Tree, o: Options, daemon: string)
    requires o.setAsDefault && o.runtimeClass != RuntimeBinary
    requires Undoable(t, SchemaV1, o.runtimeClass, false) && GetPath(t, DefaultRuntimePath(SchemaV1)) == None
    ensures GetPath(RevertV1AsWritten(UpdateV1AsWritten(t, o, daemon), o), DefaultNamePath(SchemaV1))
            == Some(Str(o.runtimeClass))
  {
    GateAlwaysOpen(daemon);
    LegacyNameEffect(t, o, true);
    RevertWithDefaultClass(UpdateV1AsWritten(t, o, daemon), SchemaV1, o.runtimeClass, RuntimeBinary);
  }

  /** The engine's default class "nvidia" on an empty file shows it. */
  lemma NameRuleFinding(dir: string, daemon: string)
    ensures var o := Options("nvidia", RuntimeTypeV1, true, dir);
            GetPath(RevertV1AsWritten(UpdateV1AsWritten(map[], o, daemon), o), DefaultNamePath(SchemaV1))
            == Some(Str("nvidia"))
  {
    var e: Tree := map[];
    var o := Options("nvidia", RuntimeTypeV1, true, dir);
    EmptyUndoable(SchemaV1, "nvidia", false);
    assert GetPath(e, DefaultRuntimePath(SchemaV1)) == None;
    assert RuntimeBinary != "nvidia";
    NameSurvivesRevert(e, o, daemon);
  }

  /** With the intended gate and the class-based name rule, Revert undoes
      Update on a version 1 file that holds neither the class nor a
      `default_runtime` table (nor names the class, or anything when the
      name is to be written). */
  lemma LegacyRoundTripV1(t: Tree, o: Options, daemon: string)
    requires Undoable(t, SchemaV1, o.runtimeClass, o.setAsDefault && AtLeast(daemon, Version1dot3))
    requires GetPath(t, DefaultRuntimePath(SchemaV1)) == None
    ensures RevertV1Named(UpdateV1Gated(t, o, daemon), o) == DropLoneVersion(t[VersionKey := Int(1)])
  {
    var named := AtLeast(daemon, Version1dot3);
    if o.setAsDefault {
      RuntimePathOwned(o);
      RoundTripWithDefaultInit(t, SchemaV1, o.runtimeClass, RuntimeTypeV1, RuntimePath(o), named);
    } else {
      RoundTripWithDefault(t, SchemaV1, o.runtimeClass, RuntimeTypeV1, RuntimePath(o), false);
    }
  }

  /** The corrected engine restores an empty file, for every daemon. */
  lemma LegacyRoundTripV1Empty(o: Options, daemon: string)
    ensures RevertV1Named(UpdateV1Gated(map[], o, daemon), o) == map[]
  {
    var e: Tree := map[];
    EmptyUndoable(SchemaV1, o.runtimeClass, o.setAsDefault && AtLeast(daemon, Version1dot3));
    LegacyRoundTripV1(e, o, daemon);
    assert e[VersionKey := Int(1)].Keys == {VersionKey};
  }

  /** Version 2 of the older revision restores an undoable file as the
      current one does. */
  lemma LegacyRoundTripV2(t: Tree, o: Options)
    requires Undoable(t, SchemaV2, o.runtimeClass, o.setAsDefault)
    ensures LegacyRevertV2(LegacyUpdateV2(t, o), o) == DropLoneVersion(t[VersionKey := Int(2)])
  {
    RoundTripClassOnly(t, SchemaV2, o.runtimeClass, RuntimeTypeV2, RuntimePath(o), o.setAsDefault);
  }
}

=== FILE: containerd_revert.dfy ===
/**
 What Revert does to a containerd config, stated through GetPath: the class
 entry is gone, `default_runtime_name` and the legacy `default_runtime` table
 lose only what the engine itself would have written, no empty table is left
 on the paths Revert walked, and everything else is as it was. Also: Revert
 is idempotent.
 */
module ContainerdRevert {
  import opened Wrappers
  import opened TomlTree
  import opened Containerd

  // ---------------------------------------------------------------------------
  // Where the paths Revert touches part ways
  // ---------------------------------------------------------------------------

  lemma RevertPathsApart(s: Schema, rc: string)
    ensures Diverge(ClassPath(s, rc), DefaultNamePath(s)) && Diverge(DefaultNamePath(s), ClassPath(s, rc))
    ensures Diverge(ClassPath(s, rc), DefaultRuntimePath(s)) && Diverge(DefaultRuntimePath(s), ClassPath(s, rc))
    ensures Diverge(DefaultNamePath(s), DefaultRuntimePath(s)) && Diverge(DefaultRuntimePath(s), DefaultNamePath(s))
    ensures Diverge(RuntimesPath(s), DefaultRuntimePath(s)) && Diverge(DefaultRuntimePath(s), RuntimesPath(s))
    ensures Diverge(ClassPath(s, rc), DefaultBinaryPath(s)) && Diverge(DefaultBinaryPath(s), ClassPath(s, rc))
    ensures Diverge(DefaultNamePath(s), DefaultBinaryPath(s)) && Diverge(DefaultBinaryPath(s), DefaultNamePath(s))
    ensures IsPrefix(DefaultRuntimePath(s), DefaultOptionsPath(s))
    ensures IsPrefix(DefaultRuntimePath(s), DefaultBinaryPath(s))
    ensures IsPrefix(DefaultOptionsPath(s), DefaultBinaryPath(s))
    ensures IsPrefix(ContainerdPath(s), DefaultRuntimePath(s)) && IsPrefix(ContainerdPath(s), RuntimesPath(s))
    ensures IsPrefix(RuntimesPath(s), ClassPath(s, rc))
    ensures ClassPath(s, rc)[..4] == RuntimesPath(s) && DefaultRuntimePath(s)[..3] == ContainerdPath(s)
    ensures ClassPath(s, rc)[..3] == DefaultRuntimePath(s)[..3] == DefaultNamePath(s)[..3]
    ensures ClassPath(s, rc)[0] != VersionKey && DefaultNamePath(s)[0] != VersionKey
    ensures DefaultRuntimePath(s)[0] != VersionKey && DefaultBinaryPath(s)[0] != VersionKey
  {
    var c, n, d, b, r := ClassPath(s, rc), DefaultNamePath(s), DefaultRuntimePath(s), DefaultBinaryPath(s), RuntimesPath(s);
    assert c[..3] == n[..3] == d[..3] == b[..3] == r[..3] == ContainerdPath(s);
    DivergeAt(c, n, 3); DivergeAt(n, c, 3);
    DivergeAt(c, d, 3); DivergeAt(d, c, 3);
    DivergeAt(n, d, 3); DivergeAt(d, n, 3);
    DivergeAt(r, d, 3); DivergeAt(d, r, 3);
    DivergeAt(c, b, 3); DivergeAt(b, c, 3);
    DivergeAt(n, b, 3); DivergeAt(b, n, 3);
  }

  /** Dropping a lone `version` leaves every path under another key alone.
      A step lemma for the revert frame proofs below, which apply it to one
      path at a time rather than carry a quantified frame in every context. */
  lemma DropLoneVersionFrame(t: Tree, q: Path)
    requires |q| > 0 && q[0] != VersionKey
    ensures GetPath(DropLoneVersion(t), q) == GetPath(t, q)
  {
  }

  lemma DropLoneVersionNoEmpty(t: Tree, p: Path)
    requires |p| > 0 && p[0] != VersionKey && NoEmptyOnPath(t, p)
    ensures NoEmptyOnPath(DropLoneVersion(t), p)
  {
    forall k | 1 <= k <= |p| ensures GetPath(DropLoneVersion(t), p[..k]) != Some(Empty) {
      DropLoneVersionFrame(t, p[..k]);
    }
  }

  // ---------------------------------------------------------------------------
  // The class entry's removal
  // ---------------------------------------------------------------------------

  /** After UnregisterClass the class entry is gone, `default_runtime_name`
      is gone exactly when it named `owned`, and the class path holds no
      empty table. */
  lemma UnregisterEffect(t: Tree, s: Schema, rc: string, owned: string)
    ensures var x := UnregisterClass(t, s, rc, owned);
            && GetPath(x, ClassPath(s, rc)) == None
            && (GetPath(t, DefaultNamePath(s)) == Some(Str(owned)) ==> GetPath(x, DefaultNamePath(s)) == None)
            && (GetPath(t, DefaultNamePath(s)) != Some(Str(owned)) ==>
                  GetPath(x, DefaultNamePath(s)) == GetPath(t, DefaultNamePath(s)))
            && NoEmptyOnPath(x, ClassPath(s, rc))
  {
    var c, n := ClassPath(s, rc), DefaultNamePath(s);
    RevertPathsApart(s, rc);
    var t1 := DeletePath(t, c);
    GetDeleteSame(t, c);
    GetDeleteOther(t, c, n);
    var t2 := DropDefaultName(t1, s, owned);
    if GetPath(t1, n) == Some(Str(owned)) {
      GetDeleteOther(t1, n, c);
    }
    PruneUpKeepsAbsent(t2, c, c);
    DivergeNotPrefix(n, c);
    PruneUpFrame(t2, c, n);
    PruneUpNoEmpty(t2, c);
  }

  /** UnregisterClass changes nothing off the class path and the name key. */
  lemma UnregisterFrame(t: Tree, s: Schema, rc: string, owned: string, q: Path)
    requires Diverge(q, ClassPath(s, rc)) && Diverge(q, DefaultNamePath(s))
    ensures GetPath(UnregisterClass(t, s, rc, owned), q) == GetPath(t, q)
  {
    var c, n := ClassPath(s, rc), DefaultNamePath(s);
    var t1 := DeletePath(t, c);
    DivergeSymmetric(q, c);
    GetDeleteOther(t, c, q);
    if GetPath(t1, n) == Some(Str(owned)) {
      DivergeSymmetric(q, n);
      GetDeleteOther(t1, n, q);
    }
    DivergeNotPrefix(q, c);
    PruneUpFrame(DropDefaultName(t1, s, owned), c, q);
  }

  // ---------------------------------------------------------------------------
  // The clean-up of `default_runtime`
  // ---------------------------------------------------------------------------

  /** The clean-up changes nothing off the `default_runtime` path. */
  lemma DefaultRuntimeFrame(y: Tree, s: Schema, q: Path)
    requires Diverge(q, DefaultRuntimePath(s))
    ensures GetPath(RevertDefaultRuntime(y, s), q) == GetPath(y, q)
  {
    var d, o := DefaultRuntimePath(s), DefaultOptionsPath(s);
    RevertPathsApart(s, "runc");
    DivergeBelow(q, d, o);
    DivergeNotPrefix(q, o);
    PruneAtFrame(y, o, q);
    var y1 := PruneAt(y, o);
    if OnlyFieldsAt(y1, d) {
      GetSomeWritable(y1, d);
      DivergeSymmetric(q, d);
      GetSetOther(y1, d, Empty, q);
      assert ClearRuntimeFields(y1, d) == SetPath(y1, d, Empty) by {
        var m := GetPath(y1, d).value.t;
        assert m - RuntimeFields == map[];
      }
    }
    DivergeNotPrefix(q, d);
    PruneUpFrame(ClearRuntimeFields(y1, d), d, q);
  }

  /** A `default_runtime` holding only synthesized fields disappears. */
  lemma DefaultRuntimeCleared(y: Tree, s: Schema)
    requires OnlyFieldsAt(y, DefaultRuntimePath(s))
    ensures GetPath(RevertDefaultRuntime(y, s), DefaultRuntimePath(s)) == None
  {
    var d, o := DefaultRuntimePath(s), DefaultOptionsPath(s);
    RevertPathsApart(s, "runc");
    var m := GetPath(y, d).value.t;
    assert "options" !in m;
    GetAppend(y, d, ["options"], m);
    assert o == d + ["options"];
    assert PruneAt(y, o) == y;
    var y2 := ClearRuntimeFields(y, d);
    var y3 := PruneAt(y2, d);
    GetDeleteSame(y2, d);
    PruneUpKeepsAbsent(y3, d[..3], d);
  }

  /** While `default_runtime` has a key of its own (not a synthesized field,
      not `options`), the clean-up keeps every key but `options`. */
  lemma DefaultRuntimeKeeps(y: Tree, s: Schema, k: string, j: string)
    requires GetPath(y, DefaultRuntimePath(s) + [k]).Some?
    requires k !in RuntimeFields && k != "options" && j != "options"
    ensures GetPath(RevertDefaultRuntime(y, s), DefaultRuntimePath(s) + [j])
            == GetPath(y, DefaultRuntimePath(s) + [j])
  {
    var d, o := DefaultRuntimePath(s), DefaultOptionsPath(s);
    var dk, dj := d + [k], d + [j];
    assert !IsPrefix(dk, o) && !IsPrefix(dj, o) by {
      assert dk[4] == k && dj[4] == j && o[4] == "options";
    }
    PruneAtFrame(y, o, dk);
    PruneAtFrame(y, o, dj);
    var y1 := PruneAt(y, o);
    assert !OnlyFieldsAt(y1, d) by {
      GetPrefixIsTable(y1, d, dk);
      var m := GetPath(y1, d).value.t;
      GetAppend(y1, d, [k], m);
    }
    assert !IsPrefix(dj, d);
    PruneUpFrame(y1, d, dj);
  }

  /** The clean-up leaves `options.<binaryKey>` as it was or removes it. */
  lemma DefaultRuntimeBinary(y: Tree, s: Schema)
    ensures var z := RevertDefaultRuntime(y, s);
            GetPath(z, DefaultBinaryPath(s)) == None || GetPath(z, DefaultBinaryPath(s)) == GetPath(y, DefaultBinaryPath(s))
  {
    var d, o, b := DefaultRuntimePath(s), DefaultOptionsPath(s), DefaultBinaryPath(s);
    RevertPathsApart(s, "runc");
    if GetPath(y, o) == Some(Empty) {
      DeleteShrinks(y, o, b);
    }
    var y1 := PruneAt(y, o);
    var y2 := ClearRuntimeFields(y1, d);
    if OnlyFieldsAt(y1, d) {
      GetBelowEmpty(y2, d, b);
    }
    PruneUpShrinks(y2, d, b);
  }

  /** After the clean-up `options` is not an empty table. */
  lemma DefaultRuntimeOptions(y: Tree, s: Schema)
    ensures GetPath(RevertDefaultRuntime(y, s), DefaultOptionsPath(s)) != Some(Empty)
  {
    var d, o := DefaultRuntimePath(s), DefaultOptionsPath(s);
    RevertPathsApart(s, "runc");
    var y1 := PruneAt(y, o);
    if GetPath(y, o) == Some(Empty) {
      GetDeleteSame(y, o);
    }
    var y2 := ClearRuntimeFields(y1, d);
    if OnlyFieldsAt(y1, d) {
      GetBelowEmpty(y2, d, o);
    }
    PruneUpShrinks(y2, d, o);
  }

  /** After the clean-up `default_runtime` is settled: it does not hold only
      synthesized fields, and no empty table is left on its path. */
  lemma DefaultRuntimeSettled(y: Tree, s: Schema)
    ensures !OnlyFieldsAt(RevertDefaultRuntime(y, s), DefaultRuntimePath(s))
    ensures NoEmptyOnPath(RevertDefaultRuntime(y, s), DefaultRuntimePath(s))
  {
    var d, o := DefaultRuntimePath(s), DefaultOptionsPath(s);
    RevertPathsApart(s, "runc");
    var y1 := PruneAt(y, o);
    var y2 := ClearRuntimeFields(y1, d);
    var y3 := PruneAt(y2, d);
    assert d[..|d|-1] == d[..3];
    if OnlyFieldsAt(y1, d) {
      GetDeleteSame(y2, d);
      PruneUpKeepsAbsent(y3, d[..3], d);
    } else {
      assert GetPath(y2, d) != Some(Empty);
      assert IsPrefix(d[..3], d);
      PruneUpAbsentBelow(y3, d[..3], d);
    }
    PruneUpNoEmpty(y2, d);
  }

  // ---------------------------------------------------------------------------
  // Revert with a `default_runtime` table (version 1)
  // ---------------------------------------------------------------------------

  /** The binary step may be moved before the class deletion: the two touch
      diverging paths. */
  lemma RevertStages(t: Tree, s: Schema, rc: string, owned: string)
    ensures RevertWithDefault(t, s, rc, owned)
            == DropLoneVersion(RevertDefaultRuntime(UnregisterClass(DropOwnedBinary(t, s), s, rc, owned), s))
  {
    var c, b := ClassPath(s, rc), DefaultBinaryPath(s);
    RevertPathsApart(s, rc);
    GetDeleteOther(t, c, b);
    if IsOwnedBinary(GetPath(t, b)) {
      DeleteDeleteOther(t, c, b);
    }
  }

  /** Revert removes the class entry, removes `default_runtime_name` exactly
      when it names `owned`, and leaves no empty table on the class path. */
  lemma RevertWithDefaultClass(t: Tree, s: Schema, rc: string, owned: string)
    ensures var r := RevertWithDefault(t, s, rc, owned);
            && GetPath(r, ClassPath(s, rc)) == None
            && (GetPath(t, DefaultNamePath(s)) == Some(Str(owned)) ==> GetPath(r, DefaultNamePath(s)) == None)
            && (GetPath(t, DefaultNamePath(s)) != Some(Str(owned)) ==>
                  GetPath(r, DefaultNamePath(s)) == GetPath(t, DefaultNamePath(s)))
            && NoEmptyOnPath(r, ClassPath(s, rc))
            && r.Keys != {VersionKey}
  {
    var c, n, d, b := ClassPath(s, rc), DefaultNamePath(s), DefaultRuntimePath(s), DefaultBinaryPath(s);
    RevertPathsApart(s, rc);
    RevertStages(t, s, rc, owned);
    var t0 := DropOwnedBinary(t, s);
    if IsOwnedBinary(GetPath(t, b)) {
      GetDeleteOther(t, b, n);
    }
    var y := UnregisterClass(t0, s, rc, owned);
    UnregisterEffect(t0, s, rc, owned);
    var z := RevertDefaultRuntime(y, s);
    DefaultRuntimeFrame(y, s, c);
    DefaultRuntimeFrame(y, s, n);
    DropLoneVersionFrame(z, c);
    DropLoneVersionFrame(z, n);
    DefaultRuntimeSettled(y, s);
    assert NoEmptyOnPath(z, c) by {
      forall k | 1 <= k <= |c| ensures GetPath(z, c[..k]) != Some(Empty) {
        if k <= 3 {
          assert c[..k] == d[..k];
        } else if k == 4 {
          DefaultRuntimeFrame(y, s, c[..4]);
        } else {
          assert c[..k] == c;
        }
      }
    }
    DropLoneVersionNoEmpty(z, c);
  }

  /** What Revert does to `default_runtime`: an `options.<binaryKey>` that
      points at the NVIDIA binary is removed, and what is left is settled (no
      empty `options`, not only synthesized fields, no empty table on its
      path). */
  lemma RevertWithDefaultLegacy(t: Tree, s: Schema, rc: string, owned: string)
    ensures var r := RevertWithDefault(t, s, rc, owned);
            && (IsOwnedBinary(GetPath(t, DefaultBinaryPath(s))) ==> GetPath(r, DefaultBinaryPath(s)) == None)
            && !IsOwnedBinary(GetPath(r, DefaultBinaryPath(s)))
            && GetPath(r, DefaultOptionsPath(s)) != Some(Empty)
            && !OnlyFieldsAt(r, DefaultRuntimePath(s))
            && NoEmptyOnPath(r, DefaultRuntimePath(s))
  {
    var d, o, b := DefaultRuntimePath(s), DefaultOptionsPath(s), DefaultBinaryPath(s);
    RevertPathsApart(s, rc);
    RevertStages(t, s, rc, owned);
    var t0 := DropOwnedBinary(t, s);
    var y := UnregisterClass(t0, s, rc, owned);
    var z := RevertDefaultRuntime(y, s);
    UnregisterFrame(t0, s, rc, owned, b);
    DefaultRuntimeBinary(y, s);
    DropLoneVersionFrame(z, b);
    DefaultRuntimeOptions(y, s);
    DropLoneVersionFrame(z, o);
    DefaultRuntimeSettled(y, s);
    DropLoneVersionFrame(z, d);
    DropLoneVersionNoEmpty(z, d);
  }

  /** A `default_runtime` of synthesized fields only has no `options`, so
      no binary below it. */
  lemma NoOptionsNoBinary(t: Tree, s: Schema)
    requires OnlyFieldsAt(t, DefaultRuntimePath(s))
    ensures GetPath(t, DefaultBinaryPath(s)) == None
  {
    var d := DefaultRuntimePath(s);
    var m := GetPath(t, d).value.t;
    var q: Path := ["options", s.binaryKey];
    assert "options" !in m;
    assert GetPath(m, q) == None by {
      assert q[0] == "options";
    }
    GetAppend(t, d, q, m);
    BinaryBelowDefault(s);
  }

  /** The binary option sits two keys below `default_runtime`. */
  lemma BinaryBelowDefault(s: Schema)
    ensures DefaultBinaryPath(s) == DefaultRuntimePath(s) + ["options", s.binaryKey]
  {
  }

  /** Clearing a table of exactly the synthesized fields writes an empty
      table in its place. */
  lemma ClearExactFields(t: Tree, p: Path, w: Tree)
    requires |p| > 0 && GetPath(t, p) == Some(Table(w)) && w.Keys == RuntimeFields
    ensures ClearRuntimeFields(t, p) == SetPath(t, p, Empty)
  {
    assert w - RuntimeFields == map[];
  }

  /** A `default_runtime` holding only synthesized fields is removed. */
  lemma RevertWithDefaultCleared(t: Tree, s: Schema, rc: string, owned: string)
    requires OnlyFieldsAt(t, DefaultRuntimePath(s))
    ensures GetPath(RevertWithDefault(t, s, rc, owned), DefaultRuntimePath(s)) == None
  {
    var d := DefaultRuntimePath(s);
    RevertPathsApart(s, rc);
    RevertStages(t, s, rc, owned);
    NoOptionsNoBinary(t, s);
    assert DropOwnedBinary(t, s) == t;
    UnregisterFrame(t, s, rc, owned, d);
    var y := UnregisterClass(t, s, rc, owned);
    DefaultRuntimeCleared(y, s);
    DropLoneVersionFrame(RevertDefaultRuntime(y, s), d);
  }

  /** Revert changes nothing off the class entry, `default_runtime_name`,
      `default_runtime` and `version`. */
  lemma RevertWithDefaultFrame(t: Tree, s: Schema, rc: string, owned: string, q: Path)
    requires |q| > 0 && q[0] != VersionKey
    requires Diverge(q, ClassPath(s, rc)) && Diverge(q, DefaultNamePath(s)) && Diverge(q, DefaultRuntimePath(s))
    ensures GetPath(RevertWithDefault(t, s, rc, owned), q) == GetPath(t, q)
  {
    var d, b := DefaultRuntimePath(s), DefaultBinaryPath(s);
    RevertPathsApart(s, rc);
    RevertStages(t, s, rc, owned);
    var t0 := DropOwnedBinary(t, s);
    if IsOwnedBinary(GetPath(t, b)) {
      DivergeBelow(q, d, b);
      DivergeSymmetric(q, b);
      GetDeleteOther(t, b, q);
    }
    var y := UnregisterClass(t0, s, rc, owned);
    UnregisterFrame(t0, s, rc, owned, q);
    DefaultRuntimeFrame(y, s, q);
    DropLoneVersionFrame(RevertDefaultRuntime(y, s), q);
  }

  /** A `default_runtime` with a key of its own keeps every key but
      `options`, the synthesized fields included. */
  lemma RevertWithDefaultKeeps(t: Tree, s: Schema, rc: string, owned: string, k: string, j: string)
    requires GetPath(t, DefaultRuntimePath(s) + [k]).Some?
    requires k !in RuntimeFields && k != "options" && j != "options"
    ensures GetPath(RevertWithDefault(t, s, rc, owned), DefaultRuntimePath(s) + [j])
            == GetPath(t, DefaultRuntimePath(s) + [j])
  {
    var c, n, d, b := ClassPath(s, rc), DefaultNamePath(s), DefaultRuntimePath(s), DefaultBinaryPath(s);
    var dk, dj := d + [k], d + [j];
    RevertPathsApart(s, rc);
    RevertStages(t, s, rc, owned);
    assert dk[..4] == b[..4] == dj[..4] && dk[4] != b[4] && dj[4] != b[4];
    DivergeAt(b, dk, 4);
    DivergeAt(b, dj, 4);
    var t0 := DropOwnedBinary(t, s);
    if IsOwnedBinary(GetPath(t, b)) {
      GetDeleteOther(t, b, dk);
      GetDeleteOther(t, b, dj);
    }
    ApartBelowDefault(s, rc, k);
    ApartBelowDefault(s, rc, j);
    UnregisterFrame(t0, s, rc, owned, dk);
    UnregisterFrame(t0, s, rc, owned, dj);
    var y := UnregisterClass(t0, s, rc, owned);
    DefaultRuntimeKeeps(y, s, k, j);
    DropLoneVersionFrame(RevertDefaultRuntime(y, s), dj);
  }

  lemma ApartBelowDefault(s: Schema, rc: string, k: string)
    ensures Diverge(DefaultRuntimePath(s) + [k], ClassPath(s, rc))
    ensures Diverge(DefaultRuntimePath(s) + [k], DefaultNamePath(s))
  {
    var d := DefaultRuntimePath(s);
    RevertPathsApart(s, rc);
    DivergeBelow(ClassPath(s, rc), d, d + [k]);
    DivergeSymmetric(ClassPath(s, rc), d + [k]);
    DivergeBelow(DefaultNamePath(s), d, d + [k]);
    DivergeSymmetric(DefaultNamePath(s), d + [k]);
  }

  /** Reverting a reverted file changes nothing. */
  lemma RevertWithDefaultIdempotent(t: Tree, s: Schema, rc: string, owned: string)
    ensures RevertWithDefault(RevertWithDefault(t, s, rc, owned), s, rc, owned) == RevertWithDefault(t, s, rc, owned)
  {
    var r := RevertWithDefault(t, s, rc, owned);
    var c, d := ClassPath(s, rc), DefaultRuntimePath(s);
    RevertWithDefaultClass(t, s, rc, owned);
    RevertWithDefaultLegacy(t, s, rc, owned);
    RevertStages(r, s, rc, owned);
    assert DropOwnedBinary(r, s) == r;
    DeleteAbsent(r, c);
    PruneUpNoop(r, c);
    assert UnregisterClass(r, s, rc, owned) == r;
    assert PruneAt(r, DefaultOptionsPath(s)) == r;
    PruneUpNoop(r, d);
    assert RevertDefaultRuntime(r, s) == r;
  }

  // ---------------------------------------------------------------------------
  // Revert without a `default_runtime` table (version 2)
  // ---------------------------------------------------------------------------

  /** Revert removes the class entry and removes `default_runtime_name`
      exactly when it names `owned`, leaving no empty table on the class
      path. */
  lemma RevertClassOnlyEffect(t: Tree, s: Schema, rc: string, owned: string)
    ensures var r := RevertClassOnly(t, s, rc, owned);
            && GetPath(r, ClassPath(s, rc)) == None
            && (GetPath(t, DefaultNamePath(s)) == Some(Str(owned)) ==> GetPath(r, DefaultNamePath(s)) == None)
            && (GetPath(t, DefaultNamePath(s)) != Some(Str(owned)) ==>
                  GetPath(r, DefaultNamePath(s)) == GetPath(t, DefaultNamePath(s)))
            && NoEmptyOnPath(r, ClassPath(s, rc))
            && r.Keys != {VersionKey}
  {
    var c, n := ClassPath(s, rc), DefaultNamePath(s);
    RevertPathsApart(s, rc);
    var y := UnregisterClass(t, s, rc, owned);
    UnregisterEffect(t, s, rc, owned);
    DropLoneVersionFrame(y, c);
    DropLoneVersionFrame(y, n);
    DropLoneVersionNoEmpty(y, c);
  }

  /** Revert changes nothing off the class entry, `default_runtime_name` and
      `version`. */
  lemma RevertClassOnlyFrame(t: Tree, s: Schema, rc: string, owned: string, q: Path)
    requires |q| > 0 && q[0] != VersionKey
    requires Diverge(q, ClassPath(s, rc)) && Diverge(q, DefaultNamePath(s))
    ensures GetPath(RevertClassOnly(t, s, rc, owned), q) == GetPath(t, q)
  {
    UnregisterFrame(t, s, rc, owned, q);
    DropLoneVersionFrame(UnregisterClass(t, s, rc, owned), q);
  }

  /** Reverting a reverted file changes nothing. */
  lemma RevertClassOnlyIdempotent(t: Tree, s: Schema, rc: string, owned: string)
    ensures RevertClassOnly(RevertClassOnly(t, s, rc, owned), s, rc, owned) == RevertClassOnly(t, s, rc, owned)
  {
    var r := RevertClassOnly(t, s, rc, owned);
    RevertClassOnlyEffect(t, s, rc, owned);
    DeleteAbsent(r, ClassPath(s, rc));
    PruneUpNoop(r, ClassPath(s, rc));
    assert UnregisterClass(r, s, rc, owned) == r;
  }
}

=== FILE: containerd_roundtrip.dfy ===
/**
 Update followed by Revert. On a file where the class and the engine's
 default settings are absent, Revert gives back the file Update was handed,
 with `version` stamped (and a lone `version` dropped again).
 */
module ContainerdRoundTrip {
  import opened Wrappers
  import opened TomlTree
  import opened Containerd
  import opened ContainerdUpdate
  import opened ContainerdRevert
  import FilePath

  /** `t` with the schema's version stamped. */
  function Stamped(t: Tree, s: Schema): Tree {
    t[VersionKey := Int(s.version)]
  }

  /** What a file must look like for Revert to undo a registration: the class
      path is free and writable, the tables on the way hold no empty table,
      and `default_runtime_name` does not already name the class (nor
      anything, when Update is to set it). */
  predicate Undoable(t: Tree, s: Schema, rc: string, setAsDefault: bool) {
    && GetPath(t, ClassPath(s, rc)) == None
    && Writable(t, ClassPath(s, rc))
    && NoEmptyOnPath(t, RuntimesPath(s))
    && GetPath(t, DefaultNamePath(s)) != Some(Str(rc))
    && (setAsDefault ==> GetPath(t, DefaultNamePath(s)) == None)
  }

  lemma StampedFacts(t: Tree, s: Schema, rc: string, setAsDefault: bool)
    requires Undoable(t, s, rc, setAsDefault)
    ensures Undoable(Stamped(t, s), s, rc, setAsDefault)
  {
    var t1 := Stamped(t, s);
    RevertPathsApart(s, rc);
    TopKeyFrame(t, VersionKey, Int(s.version), ClassPath(s, rc));
    TopKeyFrame(t, VersionKey, Int(s.version), DefaultNamePath(s));
    forall k | 1 <= k <= |RuntimesPath(s)| ensures GetPath(t1, RuntimesPath(s)[..k]) != Some(Empty) {
      TopKeyFrame(t, VersionKey, Int(s.version), RuntimesPath(s)[..k]);
    }
  }

  /** Deleting a freshly written class entry leaves the `runtimes` table
      its write created. */
  lemma DeleteWritten(b: Tree, s: Schema, rc: string, v: Value)
    requires Undoable(b, s, rc, false)
    ensures DeletePath(SetPath(b, ClassPath(s, rc), v), ClassPath(s, rc)) == Ensure(b, RuntimesPath(s))
  {
    var c := ClassPath(s, rc);
    RevertPathsApart(s, rc);
    DeleteAfterSet(b, c, v);
  }

  /** The tree left after the deletion holds the `runtimes` table and
      nothing at the class or name paths. */
  lemma EnsuredFacts(b: Tree, s: Schema, rc: string, setAsDefault: bool)
    requires Undoable(b, s, rc, setAsDefault)
    ensures var e := Ensure(b, RuntimesPath(s));
            && GetPath(e, RuntimesPath(s)).Some?
            && GetPath(e, ClassPath(s, rc)) == None
            && GetPath(e, DefaultNamePath(s)) == GetPath(b, DefaultNamePath(s))
            && Writable(e, DefaultNamePath(s))
  {
    var r, c, n := RuntimesPath(s), ClassPath(s, rc), DefaultNamePath(s);
    RevertPathsApart(s, rc);
    WritablePrefix(b, r, c);
    EnsureFacts(b, r);
    var e := Ensure(b, r);
    assert n[..3] == r[..3] && n[3] != r[3];
    DivergeAt(r, n, 3);
    if GetPath(b, r).Some? {
      assert e == b;
    } else {
      GetSetSame(b, r, Empty);
      GetBelowEmpty(e, r, c);
    }
    GetPrefixIsTable(e, ContainerdPath(s), r);
    assert n[..|n|-1] == ContainerdPath(s);
    WritableFromParent(e, n);
  }

  /** Pruning up the class path removes what the deletion left. */
  lemma PruneEnsured(b: Tree, s: Schema, rc: string)
    requires Undoable(b, s, rc, false)
    ensures PruneUp(Ensure(b, RuntimesPath(s)), ClassPath(s, rc)) == b
  {
    var r, c := RuntimesPath(s), ClassPath(s, rc);
    var e := Ensure(b, r);
    EnsuredFacts(b, s, rc, false);
    RevertPathsApart(s, rc);
    assert PruneAt(e, c) == e;
    assert c[..|c|-1] == r;
    assert r + [rc] == c;
    PruneEnsure(b, r, rc);
  }

  /** `t` with `default_runtime_name` set to the class when `named`. */
  function NameIf(t: Tree, s: Schema, rc: string, named: bool): Tree {
    if named then SetPath(t, DefaultNamePath(s), Str(rc)) else t
  }

  /** Revert's class step undoes one write of the class entry, and of
      `default_runtime_name` when that is written too. */
  lemma UnregisterAfterSet(b: Tree, s: Schema, rc: string, v: Value, setAsDefault: bool)
    requires Undoable(b, s, rc, setAsDefault)
    ensures UnregisterClass(NameIf(SetPath(b, ClassPath(s, rc), v), s, rc, setAsDefault), s, rc, rc) == b
  {
    var r, c, n := RuntimesPath(s), ClassPath(s, rc), DefaultNamePath(s);
    var u := SetPath(b, c, v);
    var e := Ensure(b, r);
    RevertPathsApart(s, rc);
    DeleteWritten(b, s, rc, v);
    EnsuredFacts(b, s, rc, setAsDefault);
    if setAsDefault {
      GetSetSame(b, c, v);
      GetPrefixIsTable(u, ContainerdPath(s), c);
      assert n[..|n|-1] == ContainerdPath(s);
      WritableFromParent(u, n);
      DeleteSetOther(u, n, Str(rc), c);
      assert DeletePath(SetPath(u, n, Str(rc)), c) == SetPath(e, n, Str(rc));
      GetSetSame(e, n, Str(rc));
      DeleteAfterSet(e, n, Str(rc));
      GetPrefixIsTable(e, ContainerdPath(s), r);
      assert Ensure(e, n[..|n|-1]) == e;
      assert DropDefaultName(SetPath(e, n, Str(rc)), s, rc) == e;
    } else {
      assert DropDefaultName(e, s, rc) == e;
    }
    PruneEnsured(b, s, rc);
  }

  /** Revert's class step undoes Update's registration. */
  lemma UnregisterAfterRegister(t: Tree, s: Schema, rc: string, ty: string, path: string, setAsDefault: bool)
    requires Undoable(t, s, rc, setAsDefault)
    ensures UnregisterClass(RegisterRuntime(t, s, rc, ty, path, setAsDefault), s, rc, rc) == Stamped(t, s)
  {
    StampedFacts(t, s, rc, setAsDefault);
    RegisterShape(t, s, rc, ty, path, setAsDefault);
    UnregisterAfterSet(Stamped(t, s), s, rc, Table(ClassEntry(t, s, rc, ty, path)), setAsDefault);
  }

  // ---------------------------------------------------------------------------
  // Version 2
  // ---------------------------------------------------------------------------

  lemma RoundTripClassOnly(t: Tree, s: Schema, rc: string, ty: string, path: string, setAsDefault: bool)
    requires Undoable(t, s, rc, setAsDefault)
    ensures RevertClassOnly(RegisterRuntime(t, s, rc, ty, path, setAsDefault), s, rc, rc)
            == DropLoneVersion(Stamped(t, s))
  {
    UnregisterAfterRegister(t, s, rc, ty, path, setAsDefault);
  }

  /** Revert undoes Update on a version 2 file that does not hold the class
      (nor name it as the default): what is left is the original file with
      `version = 2`, or nothing when the file was empty. */
  lemma RoundTripV2(t: Tree, o: Options)
    requires Undoable(t, SchemaV2, o.runtimeClass, o.setAsDefault)
    ensures RevertV2(UpdateV2(t, o), o) == DropLoneVersion(t[VersionKey := Int(2)])
  {
    RoundTripClassOnly(t, SchemaV2, o.runtimeClass, o.runtimeType, RuntimePath(o), o.setAsDefault);
  }

  /** An empty file is undoable for any class. */
  lemma EmptyUndoable(s: Schema, rc: string, setAsDefault: bool)
    ensures Undoable(map[], s, rc, setAsDefault)
  {
    var e: Tree := map[];
    RevertPathsApart(s, rc);
    assert GetPath(e, ClassPath(s, rc)) == None;
    assert GetPath(e, DefaultNamePath(s)) == None;
    forall k | 1 <= k <= |RuntimesPath(s)| ensures GetPath(e, RuntimesPath(s)[..k]) != Some(Empty) {
      assert GetPath(e, RuntimesPath(s)[..k]) == None;
    }
  }

  /** Update then Revert on an empty version 2 file gives an empty file. */
  lemma RoundTripV2Empty(o: Options)
    ensures RevertV2(UpdateV2(map[], o), o) == map[]
  {
    EmptyUndoable(SchemaV2, o.runtimeClass, o.setAsDefault);
    RoundTripV2(map[], o);
    var e: Tree := map[];
    assert e[VersionKey := Int(2)].Keys == {VersionKey};
  }

  // ---------------------------------------------------------------------------
  // Version 1
  // ---------------------------------------------------------------------------

  lemma NoEmptyContainerd(b: Tree, s: Schema)
    requires NoEmptyOnPath(b, RuntimesPath(s))
    ensures NoEmptyOnPath(b, ContainerdPath(s))
  {
    forall k | 1 <= k <= |ContainerdPath(s)| ensures GetPath(b, ContainerdPath(s)[..k]) != Some(Empty) {
      assert ContainerdPath(s)[..k] == RuntimesPath(s)[..k];
    }
  }

  /** Without a `default_runtime` table the clean-up of it changes nothing. */
  lemma DefaultRuntimeIdle(b: Tree, s: Schema)
    requires GetPath(b, DefaultRuntimePath(s)) == None && NoEmptyOnPath(b, RuntimesPath(s))
    ensures RevertDefaultRuntime(b, s) == b
  {
    var d := DefaultRuntimePath(s);
    RevertPathsApart(s, "runc");
    GetBelowEmpty(b, d, DefaultOptionsPath(s));
    assert NoEmptyOnPath(b, d) by {
      forall k | 1 <= k <= |d| ensures GetPath(b, d[..k]) != Some(Empty) {
        if k < |d| {
          assert d[..k] == RuntimesPath(s)[..k];
        } else {
          assert d[..k] == d;
        }
      }
    }
    PruneUpNoop(b, d);
  }

  /** Revert undoes a registration that left `default_runtime` alone. */
  lemma RoundTripWithDefault(t: Tree, s: Schema, rc: string, ty: string, path: string, setAsDefault: bool)
    requires Undoable(t, s, rc, setAsDefault) && GetPath(t, DefaultRuntimePath(s)) == None
    ensures RevertWithDefault(RegisterRuntime(t, s, rc, ty, path, setAsDefault), s, rc, rc)
            == DropLoneVersion(Stamped(t, s))
  {
    var d, b := DefaultRuntimePath(s), DefaultBinaryPath(s);
    var u := RegisterRuntime(t, s, rc, ty, path, setAsDefault);
    RevertPathsApart(s, rc);
    RevertStages(u, s, rc, rc);
    GetBelowEmpty(t, d, b);
    RegisterRuntimeFrame(t, s, rc, ty, path, setAsDefault, b);
    assert DropOwnedBinary(u, s) == u;
    UnregisterAfterRegister(t, s, rc, ty, path, setAsDefault);
    StampedFacts(t, s, rc, setAsDefault);
    TopKeyFrame(t, VersionKey, Int(s.version), d);
    DefaultRuntimeIdle(Stamped(t, s), s);
  }

  /** The `default_runtime` table an older-daemon Update synthesizes. */
  function SynthesizedDefault(ty: string, key: string, path: string): Tree {
    SetPath(WithFields(map[], ty), ["options", key], Str(path))
  }

  /** Removing the binary and then the empty `options` from the synthesized
      table leaves the four fields. */
  lemma SynthesizedDefaultStrip(ty: string, key: string, path: string)
    ensures var w := WithFields(map[], ty);
            && GetPath(SynthesizedDefault(ty, key, path), ["options", key]) == Some(Str(path))
            && DeletePath(SynthesizedDefault(ty, key, path), ["options", key]) == w["options" := Empty]
            && GetPath(w["options" := Empty], ["options"]) == Some(Empty)
            && DeletePath(w["options" := Empty], ["options"]) == w
            && w.Keys == RuntimeFields
  {
    var w := WithFields(map[], ty);
    assert "options" !in w;
    var m: Tree := map[key := Str(path)];
    var q: Path := ["options", key];
    assert q[1..] == [key];
    assert SetPath(map[], q[1..], Str(path)) == m;
    assert SynthesizedDefault(ty, key, path) == w["options" := Table(m)];
    assert m - {key} == map[];
  }

  /** The clean-up removes a `default_runtime` that holds the four fields and
      an empty `options`, written at an absent path. */
  lemma DefaultAfterStrip(b: Tree, s: Schema, ty: string)
    requires GetPath(b, DefaultRuntimePath(s)) == None && Writable(b, DefaultRuntimePath(s))
    requires NoEmptyOnPath(b, RuntimesPath(s))
    ensures RevertDefaultRuntime(SetPath(b, DefaultRuntimePath(s), Table(WithFields(map[], ty)["options" := Empty])), s) == b
  {
    var d, c := DefaultRuntimePath(s), ContainerdPath(s);
    var w := WithFields(map[], ty);
    var x := SetPath(b, d, Table(w["options" := Empty]));
    var x1 := SetPath(b, d, Table(w));
    var x2 := SetPath(b, d, Empty);
    RevertPathsApart(s, "runc");
    assert PruneAt(x, DefaultOptionsPath(s)) == x1 by {
      SynthesizedDefaultStrip(ty, "", "");
      GetSetSame(b, d, Table(w["options" := Empty]));
      GetAppend(x, d, ["options"], w["options" := Empty]);
      DeleteBelowSet(b, d, w["options" := Empty], ["options"]);
    }
    assert ClearRuntimeFields(x1, d) == x2 by {
      SynthesizedDefaultStrip(ty, "", "");
      GetSetSame(b, d, Table(w));
      ClearExactFields(x1, d, w);
      SetSetSame(b, d, Table(w), Empty);
    }
    assert PruneUp(x2, d) == PruneUp(Ensure(b, c), c) by {
      GetSetSame(b, d, Empty);
      DeleteAfterSet(b, d, Empty);
      assert d[..|d|-1] == c;
    }
    NoEmptyContainerd(b, s);
    PruneEnsure(b, c, "default_runtime");
  }

  /** Writing `default_runtime` keeps a file undoable. */
  lemma UndoableAfterDefault(b: Tree, s: Schema, rc: string, v: Value, named: bool)
    requires Undoable(b, s, rc, named) && Writable(b, DefaultRuntimePath(s))
    ensures Undoable(SetPath(b, DefaultRuntimePath(s), v), s, rc, named)
  {
    var d, r, c, n := DefaultRuntimePath(s), RuntimesPath(s), ClassPath(s, rc), DefaultNamePath(s);
    var b3 := SetPath(b, d, v);
    RevertPathsApart(s, rc);
    GetSetOther(b, d, v, c);
    GetSetOther(b, d, v, n);
    GetSetOther(b, d, v, r);
    WritableSetOther(b, d, v, c);
    GetSetSame(b, d, v);
    forall k | 1 <= k <= |r| ensures GetPath(b3, r[..k]) != Some(Empty) {
      if k < |r| {
        assert r[..k] == d[..k];
        GetPrefixNonEmpty(b3, r[..k], d);
      } else {
        assert r[..k] == r;
      }
    }
  }

  /** The older-daemon step on top of a registration is two writes: the
      class entry, then `default_runtime`. */
  lemma RegisterThenInitShape(t: Tree, s: Schema, rc: string, ty: string, path: string)
    requires Undoable(t, s, rc, false) && GetPath(t, DefaultRuntimePath(s)) == None
    ensures var b := Stamped(t, s);
            && GetPath(b, DefaultRuntimePath(s)) == None
            && Writable(b, DefaultRuntimePath(s))
            && InitRuntime(RegisterRuntime(t, s, rc, ty, path, false), DefaultRuntimePath(s), ty, s.binaryKey, path)
               == SetPath(SetPath(b, ClassPath(s, rc), Table(ClassEntry(t, s, rc, ty, path))),
                          DefaultRuntimePath(s), Table(SynthesizedDefault(ty, s.binaryKey, path)))
  {
    var d, c := DefaultRuntimePath(s), ClassPath(s, rc);
    var b := Stamped(t, s);
    var e := Table(ClassEntry(t, s, rc, ty, path));
    RevertPathsApart(s, rc);
    StampedFacts(t, s, rc, false);
    TopKeyFrame(t, VersionKey, Int(s.version), d);
    RegisterShape(t, s, rc, ty, path, false);
    var r := SetPath(b, c, e);
    WritableBranch(b, c, d);
    GetSetOther(b, c, e, d);
    WritableSetOther(b, c, e, d);
    InitRuntimeShape(r, d, ty, s.binaryKey, path);
  }

  /** Revert's first step removes the binary option of the synthesized
      `default_runtime`, and the class write can then be taken last. */
  lemma StripSynthesized(b: Tree, s: Schema, rc: string, e: Value, ty: string, path: string, named: bool)
    requires Undoable(b, s, rc, named) && GetPath(b, DefaultRuntimePath(s)) == None
    requires Writable(b, DefaultRuntimePath(s)) && IsOwnedBinary(Some(Str(path)))
    ensures var d, c := DefaultRuntimePath(s), ClassPath(s, rc);
            DropOwnedBinary(NameIf(SetPath(SetPath(b, c, e), d, Table(SynthesizedDefault(ty, s.binaryKey, path))), s, rc, named), s)
            == NameIf(SetPath(SetPath(b, d, Table(WithFields(map[], ty)["options" := Empty])), c, e), s, rc, named)
  {
    var d, c, n, bp := DefaultRuntimePath(s), ClassPath(s, rc), DefaultNamePath(s), DefaultBinaryPath(s);
    var q := ["options", s.binaryKey];
    var dd := SynthesizedDefault(ty, s.binaryKey, path);
    var d1 := WithFields(map[], ty)["options" := Empty];
    var r := SetPath(b, c, e);
    var u0 := SetPath(r, d, Table(dd));
    RevertPathsApart(s, rc);
    WritableSetOther(b, d, Table(d1), c);
    WritableSetOther(b, c, e, d);
    SynthesizedDefaultStrip(ty, s.binaryKey, path);
    GetSetSame(r, d, Table(dd));
    BinaryBelowDefault(s);
    GetAppend(u0, d, q, dd);
    DeleteBelowSet(r, d, dd, q);
    SetSetOther(b, c, e, d, Table(d1));
    if named {
      GetSetSame(b, c, e);
      GetSetOther(r, d, Table(dd), c);
      ContainerdChildWritable(u0, s, rc, n);
      GetSetOther(u0, n, Str(rc), bp);
      DeleteSetOther(u0, n, Str(rc), bp);
    }
  }

  /** Revert undoes a registration followed by the older-daemon
      `default_runtime` step (and a write of `default_runtime_name` when
      `named`), provided the runtime path names the NVIDIA binary. */
  lemma RoundTripWithDefaultInit(t: Tree, s: Schema, rc: string, ty: string, path: string, named: bool)
    requires Undoable(t, s, rc, named) && GetPath(t, DefaultRuntimePath(s)) == None
    requires IsOwnedBinary(Some(Str(path)))
    ensures RevertWithDefault(NameIf(InitRuntime(RegisterRuntime(t, s, rc, ty, path, false),
                                                 DefaultRuntimePath(s), ty, s.binaryKey, path), s, rc, named), s, rc, rc)
            == DropLoneVersion(Stamped(t, s))
  {
    var d, c := DefaultRuntimePath(s), ClassPath(s, rc);
    var b := Stamped(t, s);
    var e := Table(ClassEntry(t, s, rc, ty, path));
    var d1 := WithFields(map[], ty)["options" := Empty];
    StampedFacts(t, s, rc, named);
    RegisterThenInitShape(t, s, rc, ty, path);
    var u := NameIf(SetPath(SetPath(b, c, e), d, Table(SynthesizedDefault(ty, s.binaryKey, path))), s, rc, named);
    RevertStages(u, s, rc, rc);
    StripSynthesized(b, s, rc, e, ty, path, named);
    var b3 := SetPath(b, d, Table(d1));
    UndoableAfterDefault(b, s, rc, Table(d1), named);
    UnregisterAfterSet(b3, s, rc, e, named);
    DefaultAfterStrip(b, s, ty);
  }

  /** The path Update writes names the NVIDIA binary. */
  lemma RuntimePathOwned(o: Options)
    ensures IsOwnedBinary(Some(Str(RuntimePath(o))))
  {
    assert FilePath.SlashFree(RuntimeBinary);
    FilePath.BaseOfJoin(o.runtimeDir, RuntimeBinary);
  }

  /** Revert undoes Update on a version 1 file that holds neither the class
      nor a `default_runtime` table (nor names the class, or anything when
      the name is to be set): what is left is the original file with
      `version = 1`, or nothing when the file was empty. */
  lemma RoundTripV1(t: Tree, o: Options, daemon: string)
    requires Undoable(t, SchemaV1, o.runtimeClass, o.setAsDefault && AtLeast(daemon, Version1dot3))
    requires GetPath(t, DefaultRuntimePath(SchemaV1)) == None
    ensures RevertV1(UpdateV1(t, o, daemon), o) == DropLoneVersion(t[VersionKey := Int(1)])
  {
    var newer := AtLeast(daemon, Version1dot3);
    if o.setAsDefault && !newer {
      RuntimePathOwned(o);
      RoundTripWithDefaultInit(t, SchemaV1, o.runtimeClass, o.runtimeType, RuntimePath(o), false);
    } else {
      RoundTripWithDefault(t, SchemaV1, o.runtimeClass, o.runtimeType, RuntimePath(o), o.setAsDefault);
    }
  }

  /** Update then Revert on an empty version 1 file gives an empty file, for
      every daemon and either choice of default. */
  lemma RoundTripV1Empty(o: Options, daemon: string)
    ensures RevertV1(UpdateV1(map[], o, daemon), o) == map[]
  {
    var e: Tree := map[];
    EmptyUndoable(SchemaV1, o.runtimeClass, o.setAsDefault && AtLeast(daemon, Version1dot3));
    RoundTripV1(e, o, daemon);
    assert e[VersionKey := Int(1)].Keys == {VersionKey};
  }
}

=== FILE: containerd_update.dfy ===
/**
 What Update does to a containerd config, stated through GetPath: the
 `version` stamp, the class entry (a copy of `runc`, or a synthesized entry),
 its binary option, the default-runtime settings of each schema, and that
 nothing else changes. Also: Update is idempotent, and ParseVersion reads
 back the version Update wrote.
 */
module ContainerdUpdate {
  import opened Wrappers
  import opened TomlTree
  import opened Containerd

  /** `m` with the four fields of a synthesized runtime entry written over it. */
  function WithFields(m: Tree, runtimeType: string): Tree {
    m[RuntimeTypeKey := Str(runtimeType)][RuntimeRootKey := Str("")]
     [RuntimeEngineKey := Str("")][PrivilegedKey := Bool(false)]
  }

  /** The table the class entry starts from: the `runc` table when there is
      one, otherwise whatever is at the class path with the four fields
      written over it. */
  function EntryBase(t: Tree, s: Schema, rc: string, runtimeType: string): Tree {
    match GetPath(t, RuncPath(s))
    case Some(Table(runc)) => runc
    case _ => WithFields(SubTable(t, ClassPath(s, rc)), runtimeType)
  }

  /** The class entry Update leaves behind: the base table with
      `options.<binaryKey>` set to the runtime path. */
  function ClassEntry(t: Tree, s: Schema, rc: string, runtimeType: string, runtimePath: string): Tree {
    SetPath(EntryBase(t, s, rc, runtimeType), ["options", s.binaryKey], Str(runtimePath))
  }

  /** The table `default_runtime` starts from in a version 1 Update for an
      older daemon: the existing table, or a synthesized one when absent. */
  function InitBase(t: Tree, p: Path, runtimeType: string): Tree {
    if GetPath(t, p) == None then WithFields(map[], runtimeType) else SubTable(t, p)
  }

  /** The tree Update produces before the default-runtime step. */
  function Registered(t: Tree, s: Schema, rc: string, runtimeType: string, runtimePath: string): Tree {
    SetPath(t[VersionKey := Int(s.version)], ClassPath(s, rc), Table(ClassEntry(t, s, rc, runtimeType, runtimePath)))
  }

  // ---------------------------------------------------------------------------
  // Canonical forms
  // ---------------------------------------------------------------------------

  /** The four one-key writes amount to one write of the whole entry. */
  lemma SynthesizeShape(t: Tree, p: Path, runtimeType: string)
    requires |p| > 0 && Open(t, p)
    ensures SynthesizeRuntime(t, p, runtimeType) == SetPath(t, p, Table(WithFields(SubTable(t, p), runtimeType)))
  {
    var m := SubTable(t, p);
    SetBelow(t, p, [RuntimeTypeKey], Str(runtimeType));
    var m1 := m[RuntimeTypeKey := Str(runtimeType)];
    assert SetPath(m, [RuntimeTypeKey], Str(runtimeType)) == m1;
    SetThenBelow(t, p, m1, [RuntimeRootKey], Str(""));
    var m2 := m1[RuntimeRootKey := Str("")];
    assert SetPath(m1, [RuntimeRootKey], Str("")) == m2;
    SetThenBelow(t, p, m2, [RuntimeEngineKey], Str(""));
    var m3 := m2[RuntimeEngineKey := Str("")];
    assert SetPath(m2, [RuntimeEngineKey], Str("")) == m3;
    SetThenBelow(t, p, m3, [PrivilegedKey], Bool(false));
    assert SetPath(m3, [PrivilegedKey], Bool(false)) == WithFields(m, runtimeType);
  }

  /** Writing the entry and then its binary option is one write of the
      finished entry. */
  lemma EntryShape(t: Tree, s: Schema, rc: string, runtimeType: string, runtimePath: string)
    requires Open(t, ClassPath(s, rc))
    ensures SetPath(WriteEntry(t, s, rc, runtimeType), ClassPath(s, rc) + ["options", s.binaryKey], Str(runtimePath))
            == SetPath(t, ClassPath(s, rc), Table(ClassEntry(t, s, rc, runtimeType, runtimePath)))
  {
    var p := ClassPath(s, rc);
    var q := ["options", s.binaryKey];
    var v := Str(runtimePath);
    match GetPath(t, RuncPath(s))
    case Some(Table(runc)) =>
      SetThenBelow(t, p, runc, q, v);
    case _ =>
      SynthesizeShape(t, p, runtimeType);
      SetThenBelow(t, p, WithFields(SubTable(t, p), runtimeType), q, v);
  }

  lemma {:induction false} RegisterShape(t: Tree, s: Schema, rc: string, runtimeType: string,
                                         runtimePath: string, setAsDefault: bool)
    requires Open(t, ClassPath(s, rc))
    ensures var u := Registered(t, s, rc, runtimeType, runtimePath);
            RegisterRuntime(t, s, rc, runtimeType, runtimePath, setAsDefault)
            == if setAsDefault then SetPath(u, DefaultNamePath(s), Str(rc)) else u
  {
    var p := ClassPath(s, rc);
    var t1 := t[VersionKey := Int(s.version)];
    TopKeyFrame(t, VersionKey, Int(s.version), p);
    TopKeyFrame(t, VersionKey, Int(s.version), RuncPath(s));
    assert SubTable(t1, p) == SubTable(t, p);
    assert ClassEntry(t1, s, rc, runtimeType, runtimePath) == ClassEntry(t, s, rc, runtimeType, runtimePath);
    EntryShape(t1, s, rc, runtimeType, runtimePath);
  }

  // ---------------------------------------------------------------------------
  // Where the engine's paths part ways
  // ---------------------------------------------------------------------------

  lemma PathsApart(s: Schema, rc: string)
    ensures Diverge(ClassPath(s, rc), DefaultNamePath(s)) && Diverge(DefaultNamePath(s), ClassPath(s, rc))
    ensures Diverge(ClassPath(s, rc), DefaultRuntimePath(s)) && Diverge(DefaultRuntimePath(s), ClassPath(s, rc))
    ensures Diverge(DefaultNamePath(s), DefaultRuntimePath(s)) && Diverge(DefaultRuntimePath(s), DefaultNamePath(s))
    ensures Diverge(ClassPath(s, rc), [VersionKey]) && Diverge(DefaultNamePath(s), [VersionKey])
    ensures Diverge(DefaultRuntimePath(s), [VersionKey])
    ensures IsPrefix(ContainerdPath(s), ClassPath(s, rc)) && |ContainerdPath(s)| < |ClassPath(s, rc)|
    ensures DefaultNamePath(s)[..3] == ContainerdPath(s) && DefaultRuntimePath(s)[..3] == ContainerdPath(s)
  {
    var c, n, d := ClassPath(s, rc), DefaultNamePath(s), DefaultRuntimePath(s);
    assert c[..3] == n[..3] == d[..3] == ContainerdPath(s);
    DivergeAt(c, n, 3); DivergeAt(n, c, 3);
    DivergeAt(c, d, 3); DivergeAt(d, c, 3);
    DivergeAt(n, d, 3); DivergeAt(d, n, 3);
    DivergeAt(c, [VersionKey], 0); DivergeAt(n, [VersionKey], 0); DivergeAt(d, [VersionKey], 0);
  }

  /** A path below the containerd table is writable once the class entry exists. */
  lemma ContainerdChildWritable(t: Tree, s: Schema, rc: string, p: Path)
    requires GetPath(t, ClassPath(s, rc)).Some?
    requires |p| == 4 && p[..3] == ContainerdPath(s)
    ensures Writable(t, p)
  {
    PathsApart(s, rc);
    GetPrefixIsTable(t, ContainerdPath(s), ClassPath(s, rc));
    WritableFromParent(t, p);
  }

  // ---------------------------------------------------------------------------
  // Effect of the shared registration step
  // ---------------------------------------------------------------------------

  /** Registration stamps the schema version, leaves the class entry as
      `ClassEntry` and, when asked, names the class as default runtime;
      otherwise `default_runtime_name` is as before. */
  lemma RegisterRuntimeEffect(t: Tree, s: Schema, rc: string, runtimeType: string,
                              runtimePath: string, setAsDefault: bool)
    requires Open(t, ClassPath(s, rc))
    ensures var r := RegisterRuntime(t, s, rc, runtimeType, runtimePath, setAsDefault);
            && GetPath(r, [VersionKey]) == Some(Int(s.version))
            && GetPath(r, ClassPath(s, rc)) == Some(Table(ClassEntry(t, s, rc, runtimeType, runtimePath)))
            && GetPath(r, DefaultNamePath(s))
               == (if setAsDefault then Some(Str(rc)) else GetPath(t, DefaultNamePath(s)))
  {
    var p := ClassPath(s, rc);
    var e := Table(ClassEntry(t, s, rc, runtimeType, runtimePath));
    var t1 := t[VersionKey := Int(s.version)];
    RegisterShape(t, s, rc, runtimeType, runtimePath, setAsDefault);
    PathsApart(s, rc);
    TopKeyFrame(t, VersionKey, Int(s.version), p);
    TopKeyFrame(t, VersionKey, Int(s.version), DefaultNamePath(s));
    var u := SetPath(t1, p, e);
    GetSetSame(t1, p, e);
    GetSetOther(t1, p, e, [VersionKey]);
    GetSetOther(t1, p, e, DefaultNamePath(s));
    if setAsDefault {
      var n := DefaultNamePath(s);
      ContainerdChildWritable(u, s, rc, n);
      GetSetSame(u, n, Str(rc));
      GetSetOther(u, n, Str(rc), [VersionKey]);
      GetSetOther(u, n, Str(rc), p);
    }
  }

  /** Registration changes nothing off its own paths. */
  lemma RegisterRuntimeFrame(t: Tree, s: Schema, rc: string, runtimeType: string,
                             runtimePath: string, setAsDefault: bool, q: Path)
    requires Open(t, ClassPath(s, rc))
    requires |q| > 0 && q[0] != VersionKey && Diverge(q, ClassPath(s, rc))
    requires setAsDefault ==> Diverge(q, DefaultNamePath(s))
    ensures GetPath(RegisterRuntime(t, s, rc, runtimeType, runtimePath, setAsDefault), q) == GetPath(t, q)
  {
    var p := ClassPath(s, rc);
    var e := Table(ClassEntry(t, s, rc, runtimeType, runtimePath));
    var t1 := t[VersionKey := Int(s.version)];
    RegisterShape(t, s, rc, runtimeType, runtimePath, setAsDefault);
    TopKeyFrame(t, VersionKey, Int(s.version), p);
    TopKeyFrame(t, VersionKey, Int(s.version), q);
    DivergeSymmetric(q, p);
    GetSetOther(t1, p, e, q);
    if setAsDefault {
      var u := SetPath(t1, p, e);
      GetSetSame(t1, p, e);
      ContainerdChildWritable(u, s, rc, DefaultNamePath(s));
      DivergeSymmetric(q, DefaultNamePath(s));
      GetSetOther(u, DefaultNamePath(s), Str(rc), q);
    }
  }

  /** What the class entry holds: a copy of `runc` when that is a table (and
      the four synthesized fields otherwise), with `options.<binaryKey>` set
      to the runtime path and every other option kept. */
  lemma ClassEntryContents(t: Tree, s: Schema, rc: string, runtimeType: string, runtimePath: string)
    requires s.binaryKey != "options"
    ensures var b := EntryBase(t, s, rc, runtimeType);
            var opts := if "options" in b && b["options"].Table? then b["options"].t else map[];
            && (IsTableAt(t, RuncPath(s)) ==> b == SubTable(t, RuncPath(s)))
            && (!IsTableAt(t, RuncPath(s)) ==>
                  && b[RuntimeTypeKey] == Str(runtimeType) && b[RuntimeRootKey] == Str("")
                  && b[RuntimeEngineKey] == Str("") && b[PrivilegedKey] == Bool(false)
                  && RuntimeFields <= b.Keys)
            && (Open(b, ["options"]) ==>
                  ClassEntry(t, s, rc, runtimeType, runtimePath)
                  == b["options" := Table(opts[s.binaryKey := Str(runtimePath)])])
  {
    var b := EntryBase(t, s, rc, runtimeType);
    var q := ["options", s.binaryKey];
    assert q[0] == "options" && q[1..] == [s.binaryKey];
    var opts := if "options" in b && b["options"].Table? then b["options"].t else map[];
    if Open(b, ["options"]) {
      assert SetPath(opts, [s.binaryKey], Str(runtimePath)) == opts[s.binaryKey := Str(runtimePath)];
      assert SetPath(b, q, Str(runtimePath)) == b["options" := Table(SetPath(opts, q[1..], Str(runtimePath)))];
    }
  }

  lemma InitRuntimeShape(t: Tree, p: Path, runtimeType: string, binaryKey: string, runtimePath: string)
    requires |p| > 0 && Open(t, p)
    ensures InitRuntime(t, p, runtimeType, binaryKey, runtimePath)
            == SetPath(t, p, Table(SetPath(InitBase(t, p, runtimeType), ["options", binaryKey], Str(runtimePath))))
  {
    var q := ["options", binaryKey];
    var v := Str(runtimePath);
    if GetPath(t, p) == None {
      SynthesizeShape(t, p, runtimeType);
      SetThenBelow(t, p, WithFields(map[], runtimeType), q, v);
    } else {
      SetBelow(t, p, q, v);
    }
  }

  // ---------------------------------------------------------------------------
  // Update, per schema
  // ---------------------------------------------------------------------------

  /** Version 2 Update: `version` = 2, the class entry as `ClassEntry`,
      `default_runtime_name` = class exactly when asked, and every other path
      (`runc` included, when the class is not `runc`) as before. */
  lemma UpdateV2Effect(t: Tree, o: Options)
    requires Open(t, ClassPath(SchemaV2, o.runtimeClass))
    ensures var r := UpdateV2(t, o);
            && GetPath(r, [VersionKey]) == Some(Int(2))
            && GetPath(r, ClassPath(SchemaV2, o.runtimeClass))
               == Some(Table(ClassEntry(t, SchemaV2, o.runtimeClass, o.runtimeType, RuntimePath(o))))
            && GetPath(r, DefaultNamePath(SchemaV2))
               == (if o.setAsDefault then Some(Str(o.runtimeClass)) else GetPath(t, DefaultNamePath(SchemaV2)))
    ensures forall q :: |q| > 0 && q[0] != VersionKey && Diverge(q, ClassPath(SchemaV2, o.runtimeClass))
                        && (o.setAsDefault ==> Diverge(q, DefaultNamePath(SchemaV2)))
                        ==> GetPath(UpdateV2(t, o), q) == GetPath(t, q)
  {
    var s := SchemaV2;
    RegisterRuntimeEffect(t, s, o.runtimeClass, o.runtimeType, RuntimePath(o), o.setAsDefault);
    forall q | |q| > 0 && q[0] != VersionKey && Diverge(q, ClassPath(s, o.runtimeClass))
               && (o.setAsDefault ==> Diverge(q, DefaultNamePath(s)))
      ensures GetPath(UpdateV2(t, o), q) == GetPath(t, q)
    {
      RegisterRuntimeFrame(t, s, o.runtimeClass, o.runtimeType, RuntimePath(o), o.setAsDefault, q);
    }
  }

  /** The older-daemon step writes `default_runtime` and nothing else. */
  lemma InitDefaultEffect(r: Tree, s: Schema, rc: string, runtimeType: string, runtimePath: string)
    requires GetPath(r, ClassPath(s, rc)).Some?
    requires GetPath(r, DefaultRuntimePath(s)).None? || GetPath(r, DefaultRuntimePath(s)).value.Table?
    ensures var x := InitRuntime(r, DefaultRuntimePath(s), runtimeType, s.binaryKey, runtimePath);
            GetPath(x, DefaultRuntimePath(s))
            == Some(Table(SetPath(InitBase(r, DefaultRuntimePath(s), runtimeType), ["options", s.binaryKey], Str(runtimePath))))
    ensures forall q :: |q| > 0 && Diverge(q, DefaultRuntimePath(s)) ==>
              GetPath(InitRuntime(r, DefaultRuntimePath(s), runtimeType, s.binaryKey, runtimePath), q) == GetPath(r, q)
  {
    var dr := DefaultRuntimePath(s);
    PathsApart(s, rc);
    ContainerdChildWritable(r, s, rc, dr);
    InitRuntimeShape(r, dr, runtimeType, s.binaryKey, runtimePath);
    var x := Table(SetPath(InitBase(r, dr, runtimeType), ["options", s.binaryKey], Str(runtimePath)));
    GetSetSame(r, dr, x);
    forall q | |q| > 0 && Diverge(q, dr)
      ensures GetPath(SetPath(r, dr, x), q) == GetPath(r, q)
    {
      DivergeSymmetric(q, dr);
      GetSetOther(r, dr, x, q);
    }
  }

  /** The base InitRuntime starts from depends only on what is at `p`. */
  lemma InitBaseFrame(a: Tree, b: Tree, p: Path, runtimeType: string)
    requires GetPath(a, p) == GetPath(b, p)
    ensures InitBase(a, p, runtimeType) == InitBase(b, p, runtimeType)
  {
  }

  /** Registering without the name and then initializing `default_runtime`,
      for any schema: the step version 1 Update takes for an older daemon. */
  lemma RegisterThenInit(t: Tree, s: Schema, rc: string, runtimeType: string, runtimePath: string)
    requires Open(t, ClassPath(s, rc)) && Open(t, DefaultRuntimePath(s))
    ensures var r := InitRuntime(RegisterRuntime(t, s, rc, runtimeType, runtimePath, false),
                                 DefaultRuntimePath(s), runtimeType, s.binaryKey, runtimePath);
            && GetPath(r, [VersionKey]) == Some(Int(s.version))
            && GetPath(r, ClassPath(s, rc)) == Some(Table(ClassEntry(t, s, rc, runtimeType, runtimePath)))
            && GetPath(r, DefaultRuntimePath(s))
               == Some(Table(SetPath(InitBase(t, DefaultRuntimePath(s), runtimeType),
                                     ["options", s.binaryKey], Str(runtimePath))))
    ensures forall q :: |q| > 0 && q[0] != VersionKey && Diverge(q, ClassPath(s, rc)) && Diverge(q, DefaultRuntimePath(s))
                        ==> GetPath(InitRuntime(RegisterRuntime(t, s, rc, runtimeType, runtimePath, false),
                                                DefaultRuntimePath(s), runtimeType, s.binaryKey, runtimePath), q)
                            == GetPath(t, q)
  {
    var dr := DefaultRuntimePath(s);
    var r1 := RegisterRuntime(t, s, rc, runtimeType, runtimePath, false);
    var r := InitRuntime(r1, dr, runtimeType, s.binaryKey, runtimePath);
    PathsApart(s, rc);
    RegisterRuntimeEffect(t, s, rc, runtimeType, runtimePath, false);
    assert GetPath(r1, dr) == GetPath(t, dr) by {
      RegisterRuntimeFrame(t, s, rc, runtimeType, runtimePath, false, dr);
    }
    InitDefaultEffect(r1, s, rc, runtimeType, runtimePath);
    InitBaseFrame(r1, t, dr, runtimeType);
    forall q | |q| > 0 && q[0] != VersionKey && Diverge(q, ClassPath(s, rc)) && Diverge(q, dr)
      ensures GetPath(r, q) == GetPath(t, q)
    {
      RegisterRuntimeFrame(t, s, rc, runtimeType, runtimePath, false, q);
    }
  }

  /** Version 1 Update for an older daemon with the flag set. */
  lemma UpdateV1InitEffect(t: Tree, o: Options, daemon: string)
    requires Open(t, ClassPath(SchemaV1, o.runtimeClass)) && Open(t, DefaultRuntimePath(SchemaV1))
    requires o.setAsDefault && !AtLeast(daemon, Version1dot3)
    ensures var r := UpdateV1(t, o, daemon);
            var s := SchemaV1;
            && GetPath(r, [VersionKey]) == Some(Int(1))
            && GetPath(r, ClassPath(s, o.runtimeClass))
               == Some(Table(ClassEntry(t, s, o.runtimeClass, o.runtimeType, RuntimePath(o))))
            && GetPath(r, DefaultNamePath(s)) == GetPath(t, DefaultNamePath(s))
            && GetPath(r, DefaultRuntimePath(s))
               == Some(Table(SetPath(InitBase(t, DefaultRuntimePath(s), o.runtimeType),
                                     ["options", s.binaryKey], Str(RuntimePath(o)))))
    ensures forall q :: |q| > 0 && q[0] != VersionKey && Diverge(q, ClassPath(SchemaV1, o.runtimeClass))
                        && Diverge(q, DefaultRuntimePath(SchemaV1))
                        ==> GetPath(UpdateV1(t, o, daemon), q) == GetPath(t, q)
  {
    PathsApart(SchemaV1, o.runtimeClass);
    RegisterThenInit(t, SchemaV1, o.runtimeClass, o.runtimeType, RuntimePath(o));
  }

  /** Version 1 Update: like version 2 for the class entry; the default
      runtime depends on the flag and on the daemon. Without the flag neither
      default key changes; from v1.3 on only `default_runtime_name` is set;
      before v1.3 only `default_runtime` is (synthesized when absent, then
      its `options.Runtime` set). */
  lemma UpdateV1Effect(t: Tree, o: Options, daemon: string)
    requires Open(t, ClassPath(SchemaV1, o.runtimeClass))
    requires o.setAsDefault && !AtLeast(daemon, Version1dot3) ==> Open(t, DefaultRuntimePath(SchemaV1))
    ensures var r := UpdateV1(t, o, daemon);
            var s := SchemaV1;
            && GetPath(r, [VersionKey]) == Some(Int(1))
            && GetPath(r, ClassPath(s, o.runtimeClass))
               == Some(Table(ClassEntry(t, s, o.runtimeClass, o.runtimeType, RuntimePath(o))))
            && (!o.setAsDefault ==>
                  && GetPath(r, DefaultNamePath(s)) == GetPath(t, DefaultNamePath(s))
                  && GetPath(r, DefaultRuntimePath(s)) == GetPath(t, DefaultRuntimePath(s)))
            && (o.setAsDefault && AtLeast(daemon, Version1dot3) ==>
                  && GetPath(r, DefaultNamePath(s)) == Some(Str(o.runtimeClass))
                  && GetPath(r, DefaultRuntimePath(s)) == GetPath(t, DefaultRuntimePath(s)))
            && (o.setAsDefault && !AtLeast(daemon, Version1dot3) ==>
                  && GetPath(r, DefaultNamePath(s)) == GetPath(t, DefaultNamePath(s))
                  && GetPath(r, DefaultRuntimePath(s))
                     == Some(Table(SetPath(InitBase(t, DefaultRuntimePath(s), o.runtimeType),
                                           ["options", s.binaryKey], Str(RuntimePath(o))))))
  {
    var s := SchemaV1;
    if o.setAsDefault && !AtLeast(daemon, Version1dot3) {
      UpdateV1InitEffect(t, o, daemon);
    } else {
      PathsApart(s, o.runtimeClass);
      RegisterRuntimeEffect(t, s, o.runtimeClass, o.runtimeType, RuntimePath(o), o.setAsDefault);
      RegisterRuntimeFrame(t, s, o.runtimeClass, o.runtimeType, RuntimePath(o), o.setAsDefault, DefaultRuntimePath(s));
    }
  }

  /** Version 1 Update changes nothing off the version key, the class entry
      and the two default-runtime keys. */
  lemma UpdateV1Frame(t: Tree, o: Options, daemon: string, q: Path)
    requires Open(t, ClassPath(SchemaV1, o.runtimeClass))
    requires o.setAsDefault && !AtLeast(daemon, Version1dot3) ==> Open(t, DefaultRuntimePath(SchemaV1))
    requires |q| > 0 && q[0] != VersionKey && Diverge(q, ClassPath(SchemaV1, o.runtimeClass))
    requires Diverge(q, DefaultNamePath(SchemaV1)) && Diverge(q, DefaultRuntimePath(SchemaV1))
    ensures GetPath(UpdateV1(t, o, daemon), q) == GetPath(t, q)
  {
    if o.setAsDefault && !AtLeast(daemon, Version1dot3) {
      UpdateV1InitEffect(t, o, daemon);
    } else {
      RegisterRuntimeFrame(t, SchemaV1, o.runtimeClass, o.runtimeType, RuntimePath(o), o.setAsDefault, q);
    }
  }

  // ---------------------------------------------------------------------------
  // Idempotence
  // ---------------------------------------------------------------------------

  /** A base table that already carries the four fields is its own
      synthesis. */
  lemma WithFieldsFixed(m: Tree, runtimeType: string)
    requires RuntimeFields <= m.Keys
    requires m[RuntimeTypeKey] == Str(runtimeType) && m[RuntimeRootKey] == Str("")
    requires m[RuntimeEngineKey] == Str("") && m[PrivilegedKey] == Bool(false)
    ensures WithFields(m, runtimeType) == m
  {
  }

  /** The class entry computed again from a tree that already holds it is
      the same entry. */
  lemma ClassEntryAgain(t: Tree, u: Tree, s: Schema, rc: string, runtimeType: string, runtimePath: string)
    requires s.binaryKey !in RuntimeFields && s.binaryKey != "options"
    requires GetPath(u, ClassPath(s, rc)) == Some(Table(ClassEntry(t, s, rc, runtimeType, runtimePath)))
    requires rc != "runc" ==> GetPath(u, RuncPath(s)) == GetPath(t, RuncPath(s))
    ensures ClassEntry(u, s, rc, runtimeType, runtimePath) == ClassEntry(t, s, rc, runtimeType, runtimePath)
  {
    var q := ["options", s.binaryKey];
    var v := Str(runtimePath);
    var b := EntryBase(t, s, rc, runtimeType);
    var e := ClassEntry(t, s, rc, runtimeType, runtimePath);
    SetPairTwice(b, "options", s.binaryKey, v);
    if rc == "runc" {
      assert RuncPath(s) == ClassPath(s, rc);
      assert EntryBase(u, s, rc, runtimeType) == e;
    } else if !IsTableAt(t, RuncPath(s)) {
      assert SubTable(u, ClassPath(s, rc)) == e;
      ClassEntryContents(t, s, rc, runtimeType, runtimePath);
      SetPairKeys(b, "options", s.binaryKey, v);
      WithFieldsFixed(e, runtimeType);
    }
  }

  /** Registration is a no-op on a tree that already holds everything it
      would write. */
  lemma RegisterFixpoint(u: Tree, s: Schema, rc: string, runtimeType: string,
                         runtimePath: string, setAsDefault: bool)
    requires VersionKey in u && u[VersionKey] == Int(s.version)
    requires GetPath(u, ClassPath(s, rc)) == Some(Table(ClassEntry(u, s, rc, runtimeType, runtimePath)))
    requires setAsDefault ==> GetPath(u, DefaultNamePath(s)) == Some(Str(rc))
    ensures RegisterRuntime(u, s, rc, runtimeType, runtimePath, setAsDefault) == u
  {
    var p := ClassPath(s, rc);
    var e := Table(ClassEntry(u, s, rc, runtimeType, runtimePath));
    assert p[..|p|-1] == RuntimesPath(s);
    GetPrefixIsTable(u, RuntimesPath(s), p);
    WritableFromParent(u, p);
    RegisterShape(u, s, rc, runtimeType, runtimePath, setAsDefault);
    assert u[VersionKey := Int(s.version)] == u;
    SetNoop(u, p, e);
    if setAsDefault {
      ContainerdChildWritable(u, s, rc, DefaultNamePath(s));
      SetNoop(u, DefaultNamePath(s), Str(rc));
    }
  }

  lemma RegisterIdempotent(t: Tree, s: Schema, rc: string, runtimeType: string,
                           runtimePath: string, setAsDefault: bool)
    requires Open(t, ClassPath(s, rc))
    requires s.binaryKey !in RuntimeFields && s.binaryKey != "options"
    ensures var u := RegisterRuntime(t, s, rc, runtimeType, runtimePath, setAsDefault);
            RegisterRuntime(u, s, rc, runtimeType, runtimePath, setAsDefault) == u
  {
    var u := RegisterRuntime(t, s, rc, runtimeType, runtimePath, setAsDefault);
    RegisterRuntimeEffect(t, s, rc, runtimeType, runtimePath, setAsDefault);
    if rc != "runc" {
      var c := RuncPath(s);
      assert c[..4] == ClassPath(s, rc)[..4];
      DivergeAt(c, ClassPath(s, rc), 4);
      assert c[..3] == DefaultNamePath(s)[..3];
      DivergeAt(c, DefaultNamePath(s), 3);
      RegisterRuntimeFrame(t, s, rc, runtimeType, runtimePath, setAsDefault, c);
    }
    ClassEntryAgain(t, u, s, rc, runtimeType, runtimePath);
    RegisterFixpoint(u, s, rc, runtimeType, runtimePath, setAsDefault);
  }

  /** Applying version 2 Update twice is applying it once. */
  lemma UpdateV2Idempotent(t: Tree, o: Options)
    requires Open(t, ClassPath(SchemaV2, o.runtimeClass))
    ensures UpdateV2(UpdateV2(t, o), o) == UpdateV2(t, o)
  {
    RegisterIdempotent(t, SchemaV2, o.runtimeClass, o.runtimeType, RuntimePath(o), o.setAsDefault);
  }

  /** InitRuntime is a no-op on an entry that already has the option set. */
  lemma InitRuntimeFixpoint(u: Tree, p: Path, b: Tree, runtimeType: string, binaryKey: string, runtimePath: string)
    requires |p| > 0 && Writable(u, p) && binaryKey != "options"
    requires GetPath(u, p) == Some(Table(SetPath(b, ["options", binaryKey], Str(runtimePath))))
    ensures InitRuntime(u, p, runtimeType, binaryKey, runtimePath) == u
  {
    var x := SetPath(b, ["options", binaryKey], Str(runtimePath));
    InitRuntimeShape(u, p, runtimeType, binaryKey, runtimePath);
    assert InitBase(u, p, runtimeType) == x;
    SetPairTwice(b, "options", binaryKey, Str(runtimePath));
    SetNoop(u, p, Table(x));
  }

  /** `runc` is off every path version 1 Update writes, unless the class is
      `runc` itself. */
  lemma RuncApart(s: Schema, rc: string)
    requires rc != "runc"
    ensures Diverge(RuncPath(s), ClassPath(s, rc)) && Diverge(RuncPath(s), DefaultNamePath(s))
    ensures Diverge(RuncPath(s), DefaultRuntimePath(s))
  {
    var c := RuncPath(s);
    assert c[..4] == ClassPath(s, rc)[..4];
    DivergeAt(c, ClassPath(s, rc), 4);
    assert c[..3] == DefaultNamePath(s)[..3] == DefaultRuntimePath(s)[..3];
    DivergeAt(c, DefaultNamePath(s), 3);
    DivergeAt(c, DefaultRuntimePath(s), 3);
  }

  /** The facts about a registered-and-initialized tree that make a second
      pass a no-op. */
  lemma RegisterThenInitFacts(t: Tree, s: Schema, rc: string, runtimeType: string, runtimePath: string)
    requires Open(t, ClassPath(s, rc)) && Open(t, DefaultRuntimePath(s))
    requires s.binaryKey !in RuntimeFields && s.binaryKey != "options"
    ensures var u := InitRuntime(RegisterRuntime(t, s, rc, runtimeType, runtimePath, false),
                                 DefaultRuntimePath(s), runtimeType, s.binaryKey, runtimePath);
            && VersionKey in u && u[VersionKey] == Int(s.version)
            && GetPath(u, ClassPath(s, rc)) == Some(Table(ClassEntry(u, s, rc, runtimeType, runtimePath)))
            && Writable(u, DefaultRuntimePath(s))
            && GetPath(u, DefaultRuntimePath(s))
               == Some(Table(SetPath(InitBase(t, DefaultRuntimePath(s), runtimeType),
                                     ["options", s.binaryKey], Str(runtimePath))))
  {
    var u := InitRuntime(RegisterRuntime(t, s, rc, runtimeType, runtimePath, false),
                         DefaultRuntimePath(s), runtimeType, s.binaryKey, runtimePath);
    RegisterThenInit(t, s, rc, runtimeType, runtimePath);
    PathsApart(s, rc);
    if rc != "runc" {
      RuncApart(s, rc);
    }
    ClassEntryAgain(t, u, s, rc, runtimeType, runtimePath);
    ContainerdChildWritable(u, s, rc, DefaultRuntimePath(s));
  }

  /** Registering and initializing a second time changes nothing. */
  lemma RegisterThenInitIdempotent(t: Tree, s: Schema, rc: string, runtimeType: string, runtimePath: string)
    requires Open(t, ClassPath(s, rc)) && Open(t, DefaultRuntimePath(s))
    requires s.binaryKey !in RuntimeFields && s.binaryKey != "options"
    ensures var u := InitRuntime(RegisterRuntime(t, s, rc, runtimeType, runtimePath, false),
                                 DefaultRuntimePath(s), runtimeType, s.binaryKey, runtimePath);
            InitRuntime(RegisterRuntime(u, s, rc, runtimeType, runtimePath, false),
                        DefaultRuntimePath(s), runtimeType, s.binaryKey, runtimePath) == u
  {
    var u := InitRuntime(RegisterRuntime(t, s, rc, runtimeType, runtimePath, false),
                         DefaultRuntimePath(s), runtimeType, s.binaryKey, runtimePath);
    RegisterThenInitFacts(t, s, rc, runtimeType, runtimePath);
    RegisterFixpoint(u, s, rc, runtimeType, runtimePath, false);
    InitRuntimeFixpoint(u, DefaultRuntimePath(s), InitBase(t, DefaultRuntimePath(s), runtimeType),
                        runtimeType, s.binaryKey, runtimePath);
  }

  /** Neither schema's binary key collides with `options` or a runtime field. */
  lemma SchemaKeysApart()
    ensures SchemaV1.binaryKey !in RuntimeFields && SchemaV1.binaryKey != "options"
    ensures SchemaV2.binaryKey !in RuntimeFields && SchemaV2.binaryKey != "options"
  {
  }

  /** The older-daemon branch of version 1 Update is idempotent. */
  lemma UpdateV1InitIdempotent(t: Tree, o: Options, daemon: string)
    requires Open(t, ClassPath(SchemaV1, o.runtimeClass)) && Open(t, DefaultRuntimePath(SchemaV1))
    requires o.setAsDefault && !AtLeast(daemon, Version1dot3)
    ensures UpdateV1(UpdateV1(t, o, daemon), o, daemon) == UpdateV1(t, o, daemon)
  {
    SchemaKeysApart();
    RegisterThenInitIdempotent(t, SchemaV1, o.runtimeClass, o.runtimeType, RuntimePath(o));
  }

  /** Applying version 1 Update twice is applying it once, for either
      daemon range and either flag value. */
  lemma UpdateV1Idempotent(t: Tree, o: Options, daemon: string)
    requires Open(t, ClassPath(SchemaV1, o.runtimeClass))
    requires o.setAsDefault && !AtLeast(daemon, Version1dot3) ==> Open(t, DefaultRuntimePath(SchemaV1))
    ensures UpdateV1(UpdateV1(t, o, daemon), o, daemon) == UpdateV1(t, o, daemon)
  {
    if o.setAsDefault && !AtLeast(daemon, Version1dot3) {
      UpdateV1InitIdempotent(t, o, daemon);
    } else {
      var u := UpdateV1(t, o, daemon);
      SchemaKeysApart();
      RegisterIdempotent(t, SchemaV1, o.runtimeClass, o.runtimeType, RuntimePath(o), o.setAsDefault);
    }
  }

  /** The version ParseVersion reads from an updated file is the schema the
      update was for, whatever the daemon. */
  lemma ParseVersionAfterUpdate(t: Tree, o: Options, version: int, daemon: string, laterDaemon: string)
    requires version == 1 ==> Open(t, ClassPath(SchemaV1, o.runtimeClass))
    requires version == 1 && o.setAsDefault && !AtLeast(daemon, Version1dot3) ==> Open(t, DefaultRuntimePath(SchemaV1))
    requires version == 2 ==> Open(t, ClassPath(SchemaV2, o.runtimeClass))
    ensures UpdateConfig(t, o, version, daemon).Ok? ==>
              ParseVersion(UpdateConfig(t, o, version, daemon).value, laterDaemon) == Ok(version)
  {
    if version == 1 {
      UpdateV1Effect(t, o, daemon);
    } else if version == 2 {
      UpdateV2Effect(t, o);
    }
  }
}

=== FILE: crio.dfy ===
/**
 The CRI-O variant: installing the OCI prestart hook file, written from a
 template with the toolkit directory substituted in.
 */
module Crio {
  import opened Wrappers
  import FilePath
  import Strings
  import ShellWrapper

  const DefaultHooksDir := "/usr/share/containers/oci/hooks.d"
  const DefaultHookFilename := "oci-nvidia-hook.json"
  const DestinationPattern := "@DESTINATION@"

  datatype ArgError = IncorrectNumberOfArguments

  const CommandName := "crio"

  /** The executable's path could not be determined; the error names the
      command and wraps the lookup's own error. */
  datatype TemplatePathError<E> = ExecutableLookup(command: string, cause: E)

  /** The `setup` command takes exactly one argument, the toolkit directory. */
  function ParseArgs(args: seq<string>): (r: Result<string, ArgError>)
    ensures r.Ok? <==> |args| == 1
    ensures r.Ok? ==> r.value == args[0]
  {
    if |args| != 1 then Err(IncorrectNumberOfArguments) else Ok(args[0])
  }

  /** `getHookPath`: the hook file inside the hooks directory. */
  function HookPath(hooksDir: string, hookFilename: string): string {
    FilePath.Join(hooksDir, hookFilename)
  }

  /** Setup writes, and cleanup removes, the file named by the flag in the
      hooks directory. */
  lemma HookPathShape(hooksDir: string, hookFilename: string)
    requires hookFilename != "" && FilePath.SlashFree(hookFilename)
    ensures FilePath.Base(HookPath(hooksDir, hookFilename)) == hookFilename
    ensures hooksDir != "" && hooksDir[|hooksDir| - 1] != '/' ==> FilePath.Dir(HookPath(hooksDir, hookFilename)) == hooksDir
  {
    FilePath.BaseOfJoin(hooksDir, hookFilename);
    if hooksDir != "" && hooksDir[|hooksDir| - 1] != '/' {
      FilePath.DirOfJoin(hooksDir, hookFilename);
    }
  }

  /** `getHookTemplatePath`: the template ships beside the running binary
      under the default hook name, whatever name the hook is installed
      under. `executable` is the lookup of the running binary's path. */
  function HookTemplatePath<E>(executable: Result<string, E>): (r: Result<string, TemplatePathError<E>>)
    ensures r.Err? <==> executable.Err?
    ensures r.Err? ==> r.error == ExecutableLookup(CommandName, executable.error)
    ensures r.Ok? ==> FilePath.Base(r.value) == DefaultHookFilename
  {
    assert FilePath.SlashFree(DefaultHookFilename);
    if executable.Err? then Err(ExecutableLookup(CommandName, executable.error))
    else
      FilePath.BaseOfJoin(FilePath.Dir(executable.value), DefaultHookFilename);
      Ok(FilePath.Join(FilePath.Dir(executable.value), DefaultHookFilename))
  }

  /** One template line with every occurrence of the pattern replaced. */
  function Substitute(toolkitDir: string, line: string): string {
    Strings.ReplaceAll(line, DestinationPattern, toolkitDir)
  }

  /** `createHook`: the template is read line by line, each line is
      substituted and written back. The scanner drops the line ends and
      nothing puts them back, so the lines are concatenated. */
  method CreateHook(template: seq<string>, toolkitDir: string) returns (hook: string)
    ensures hook == Strings.Concat(ShellWrapper.MapLines(line => Substitute(toolkitDir, line), template))
  {
    hook := "";
    var f := line => Substitute(toolkitDir, line);
    for i := 0 to |template|
      invariant hook == Strings.Concat(ShellWrapper.MapLines(f, template[..i]))
    {
      var done := ShellWrapper.MapLines(f, template[..i]);
      assert ShellWrapper.MapLines(f, template[..i + 1]) == done + [f(template[i])];
      Strings.ConcatAppend(done, [f(template[i])]);
      assert Strings.Concat([f(template[i])]) == f(template[i]);
      hook := hook + Substitute(toolkitDir, template[i]);
    }
    assert template[..|template|] == template;
  }

  /** Every character of a substituted string comes from the string or from
      the replacement. */
  lemma {:induction false} ReplaceAllChars(s: string, pat: string, rep: string, c: char)
    requires |pat| > 0
    requires c in Strings.ReplaceAll(s, pat, rep)
    ensures c in s || c in rep
    decreases |s|
  {
    if |s| >= |pat| {
      if s[..|pat|] == pat {
        var rest := Strings.ReplaceAll(s[|pat|..], pat, rep);
        if c !in rep {
          assert c in rest;
          ReplaceAllChars(s[|pat|..], pat, rep, c);
        }
      } else {
        var rest := Strings.ReplaceAll(s[1..], pat, rep);
        if c != s[0] {
          assert c in rest;
          ReplaceAllChars(s[1..], pat, rep, c);
        }
      }
    }
  }

  /** Every character of a concatenation comes from one of its parts. */
  lemma {:induction false} ConcatChars(lines: seq<string>, c: char)
    requires c in Strings.Concat(lines)
    ensures exists i :: 0 <= i < |lines| && c in lines[i]
    decreases |lines|
  {
    if c !in lines[0] {
      ConcatChars(lines[1..], c);
      var i :| 0 <= i < |lines[1..]| && c in lines[1..][i];
      assert c in lines[i + 1];
    }
  }

  /** No line separator is written: when neither the template lines (as the
      scanner hands them over) nor the directory hold a newline, the hook
      file holds none either. */
  lemma HookHasNoNewlines(template: seq<string>, toolkitDir: string)
    requires forall i :: 0 <= i < |template| ==> '\n' !in template[i]
    requires '\n' !in toolkitDir
    ensures '\n' !in Strings.Concat(ShellWrapper.MapLines(line => Substitute(toolkitDir, line), template))
  {
    var lines := ShellWrapper.MapLines(line => Substitute(toolkitDir, line), template);
    if '\n' in Strings.Concat(lines) {
      ConcatChars(lines, '\n');
      var i :| 0 <= i < |lines| && '\n' in lines[i];
      ReplaceAllChars(template[i], DestinationPattern, toolkitDir, '\n');
      assert false;
    }
  }

  /** Lines that do not mention the pattern are copied unchanged, and with
      none mentioning it the hook is the template run together. */
  lemma HookWithoutPattern(template: seq<string>, toolkitDir: string)
    requires forall i :: 0 <= i < |template| ==> !Strings.Occurs(template[i], DestinationPattern)
    ensures Strings.Concat(ShellWrapper.MapLines(line => Substitute(toolkitDir, line), template)) == Strings.Concat(template)
  {
    var lines := ShellWrapper.MapLines(line => Substitute(toolkitDir, line), template);
    assert lines == template;
  }

  /** The hook of a template made of two parts is the two hooks in turn. */
  lemma HookSplits(a: seq<string>, b: seq<string>, toolkitDir: string)
    ensures var f := line => Substitute(toolkitDir, line);
            Strings.Concat(ShellWrapper.MapLines(f, a + b))
            == Strings.Concat(ShellWrapper.MapLines(f, a)) + Strings.Concat(ShellWrapper.MapLines(f, b))
  {
    var f := line => Substitute(toolkitDir, line);
    assert ShellWrapper.MapLines(f, a + b) == ShellWrapper.MapLines(f, a) + ShellWrapper.MapLines(f, b);
    Strings.ConcatAppend(ShellWrapper.MapLines(f, a), ShellWrapper.MapLines(f, b));
  }

  /** Each occurrence of the pattern in a line gets the directory in its
      place: the text before the first occurrence is kept as it is, and the
      rest of the line is substituted in turn. `head` holds no occurrence,
      not even one that runs into the pattern that follows it. */
  lemma SubstituteOccurrence(toolkitDir: string, head: string, tail: string)
    requires !Strings.Occurs(head + DestinationPattern[..|DestinationPattern| - 1], DestinationPattern)
    ensures Substitute(toolkitDir, head + DestinationPattern + tail)
            == head + toolkitDir + Substitute(toolkitDir, tail)
  {
    Strings.ReplaceFirst(head, DestinationPattern, tail, toolkitDir);
  }

  /** A line opening with the pattern starts with the directory instead. */
  lemma SubstituteLeading(toolkitDir: string, tail: string)
    ensures Substitute(toolkitDir, DestinationPattern + tail) == toolkitDir + Substitute(toolkitDir, tail)
  {
    var p := DestinationPattern;
    assert !Strings.HasPrefix(p[..|p| - 1], p);
    assert "" + p[..|p| - 1] == p[..|p| - 1];
    assert !Strings.Occurs(p[..|p| - 1], p) by { NoLongerOccurrence(p[..|p| - 1], p); }
    SubstituteOccurrence(toolkitDir, "", tail);
    assert "" + p + tail == p + tail;
  }

  /** A string shorter than the pattern does not contain it. */
  lemma {:induction false} NoLongerOccurrence(s: string, pat: string)
    requires |s| < |pat|
    ensures !Strings.Occurs(s, pat)
    decreases |s|
  {
    if |s| > 0 {
      NoLongerOccurrence(s[1..], pat);
    }
  }
}

=== FILE: docker.dfy ===
/**
 The Docker variant of the engine: registering the NVIDIA runtime in
 Docker's `daemon.json` (a flat JSON object) and removing it again.
 */
module Docker {
  import FilePath

  /** A JSON value as `encoding/json` decodes it into `interface{}`. */
  datatype Json =
    | JNull
    | JBool(b: bool)
    | JNum(n: int)
    | JStr(s: string)
    | JArr(items: seq<Json>)
    | JObj(fields: map<string, Json>)

  /** The decoded `daemon.json`. */
  type Config = map<string, Json>

  const RuntimeName := "nvidia"
  const RuntimeBinary := "nvidia-container-runtime"
  const DefaultDockerRuntime := "runc"
  const DefaultRuntimeKey := "default-runtime"
  const RuntimesKey := "runtimes"

  /** The engine asserts `runtimes` to be an object; anything else panics. */
  predicate RuntimesIsObject(c: Config) {
    RuntimesKey in c ==> c[RuntimesKey].JObj?
  }

  /** The registered runtimes, or none. */
  function Runtimes(c: Config): map<string, Json>
    requires RuntimesIsObject(c)
  {
    if RuntimesKey in c then c[RuntimesKey].fields else map[]
  }

  /** The entry Update writes: the runtime binary under `runtimeDir`, no
      arguments. */
  function NvidiaEntry(runtimeDir: string): Json {
    JObj(map["path" := JStr(FilePath.Join(runtimeDir, RuntimeBinary)), "args" := JArr([])])
  }

  /** Registers the runtime, replacing any earlier `nvidia` entry, and makes
      it the default when asked. */
  function Update(c: Config, setAsDefault: bool, runtimeDir: string): (r: Config)
    requires RuntimesIsObject(c)
    ensures RuntimesIsObject(r) && RuntimesKey in r
    ensures Runtimes(r) == Runtimes(c)[RuntimeName := NvidiaEntry(runtimeDir)]
    ensures setAsDefault ==> DefaultRuntimeKey in r && r[DefaultRuntimeKey] == JStr(RuntimeName)
    ensures !setAsDefault ==> (DefaultRuntimeKey in r <==> DefaultRuntimeKey in c)
    ensures !setAsDefault && DefaultRuntimeKey in c ==> r[DefaultRuntimeKey] == c[DefaultRuntimeKey]
    ensures r.Keys == c.Keys + {RuntimesKey} + (if setAsDefault then {DefaultRuntimeKey} else {})
    ensures forall k :: k in c && k != RuntimesKey && k != DefaultRuntimeKey ==> r[k] == c[k]
  {
    var c1 := if setAsDefault then c[DefaultRuntimeKey := JStr(RuntimeName)] else c;
    c1[RuntimesKey := JObj(Runtimes(c)[RuntimeName := NvidiaEntry(runtimeDir)])]
  }

  /** The two top-level keys the engine touches are distinct. */
  lemma KeysApart()
    ensures RuntimesKey != DefaultRuntimeKey
  {
    assert RuntimesKey[0] != DefaultRuntimeKey[0];
  }

  /** A default of `nvidia` falls back to `runc`; any other default stays. */
  function ResetDefault(c: Config): (r: Config)
    ensures DefaultRuntimeKey in r <==> DefaultRuntimeKey in c
    ensures DefaultRuntimeKey in c ==> r[DefaultRuntimeKey] != JStr(RuntimeName)
    ensures DefaultRuntimeKey in c && c[DefaultRuntimeKey] != JStr(RuntimeName) ==> r[DefaultRuntimeKey] == c[DefaultRuntimeKey]
    ensures forall k :: k in c && k != DefaultRuntimeKey ==> k in r && r[k] == c[k]
    ensures r.Keys == c.Keys
  {
    if DefaultRuntimeKey in c && c[DefaultRuntimeKey] == JStr(RuntimeName)
    then c[DefaultRuntimeKey := JStr(DefaultDockerRuntime)] else c
  }

  /** Drops the `nvidia` entry, and `runtimes` itself once it is empty. */
  function RemoveEntry(c: Config): (r: Config)
    requires RuntimesIsObject(c)
    ensures RuntimesIsObject(r)
    ensures Runtimes(r) == Runtimes(c) - {RuntimeName}
    ensures RuntimesKey in r <==> Runtimes(r) != map[]
    ensures forall k :: k in c && k != RuntimesKey ==> k in r && r[k] == c[k]
    ensures r.Keys <= c.Keys + {RuntimesKey}
  {
    var rest := Runtimes(c) - {RuntimeName};
    if rest == map[] then c - {RuntimesKey} else c[RuntimesKey := JObj(rest)]
  }

  /** Unregisters the runtime: a default of `nvidia` falls back to `runc`,
      the `nvidia` entry goes, and `runtimes` goes when that empties it. */
  function Revert(c: Config): (r: Config)
    requires RuntimesIsObject(c)
    ensures RuntimesIsObject(r)
    ensures Runtimes(r) == Runtimes(c) - {RuntimeName}
    ensures RuntimesKey in r <==> Runtimes(r) != map[]
    ensures DefaultRuntimeKey in r <==> DefaultRuntimeKey in c
    ensures DefaultRuntimeKey in c ==> r[DefaultRuntimeKey] != JStr(RuntimeName)
    ensures DefaultRuntimeKey in c && c[DefaultRuntimeKey] != JStr(RuntimeName) ==> r[DefaultRuntimeKey] == c[DefaultRuntimeKey]
    ensures forall k :: k in c && k != RuntimesKey && k != DefaultRuntimeKey ==> k in r && r[k] == c[k]
    ensures r.Keys <= c.Keys
  {
    KeysApart();
    RemoveEntry(ResetDefault(c))
  }

  // ---------------------------------------------------------------------------
  // Properties
  // ---------------------------------------------------------------------------

  /** Updating twice is updating once. */
  lemma UpdateIdempotent(c: Config, setAsDefault: bool, runtimeDir: string)
    requires RuntimesIsObject(c)
    ensures Update(Update(c, setAsDefault, runtimeDir), setAsDefault, runtimeDir) == Update(c, setAsDefault, runtimeDir)
  {
    var u := Update(c, setAsDefault, runtimeDir);
    var u2 := Update(u, setAsDefault, runtimeDir);
    assert Runtimes(u2) == Runtimes(u);
    assert u2.Keys == u.Keys;
    forall k | k in u ensures u2[k] == u[k] {
      if k == RuntimesKey {
        assert u2[k] == JObj(Runtimes(u2));
      }
    }
  }

  /** Reverting twice is reverting once. */
  lemma RevertIdempotent(c: Config)
    requires RuntimesIsObject(c)
    ensures Revert(Revert(c)) == Revert(c)
  {
    var r := Revert(c);
    var r2 := Revert(r);
    assert r2.Keys == r.Keys;
    forall k | k in r ensures r2[k] == r[k] {
      if k == RuntimesKey {
        assert r2[k] == JObj(Runtimes(r2));
      }
    }
  }

  /** Without the flag, Revert undoes Update on a config that has no
      `nvidia` entry, no `nvidia` default and no empty `runtimes` object. */
  lemma RoundTrip(c: Config, runtimeDir: string)
    requires RuntimesIsObject(c)
    requires RuntimeName !in Runtimes(c)
    requires RuntimesKey in c ==> Runtimes(c) != map[]
    requires DefaultRuntimeKey in c ==> c[DefaultRuntimeKey] != JStr(RuntimeName)
    ensures Revert(Update(c, false, runtimeDir)) == c
  {
    var r := Revert(Update(c, false, runtimeDir));
    if RuntimesKey in c {
      var k :| k in Runtimes(c);
      assert k in Runtimes(r);
    }
    assert r.Keys == c.Keys;
    forall k | k in c ensures r[k] == c[k] {
      if k == RuntimesKey {
        assert r[k] == JObj(Runtimes(r));
      }
    }
  }

  /** With the flag, Update then Revert leaves `default-runtime` = "runc",
      whatever was there before, even nothing. */
  lemma RoundTripDefault(c: Config, runtimeDir: string)
    requires RuntimesIsObject(c)
    ensures var r := Revert(Update(c, true, runtimeDir));
            DefaultRuntimeKey in r && r[DefaultRuntimeKey] == JStr(DefaultDockerRuntime)
  {
  }

  /** An empty `runtimes` object does not survive the round trip. */
  lemma EmptyRuntimesDropped(runtimeDir: string)
    ensures var c: Config := map[RuntimesKey := JObj(map[])];
            Revert(Update(c, false, runtimeDir)) == map[]
  {
    var c: Config := map[RuntimesKey := JObj(map[])];
    var r := Revert(Update(c, false, runtimeDir));
    assert r.Keys == {};
  }

  // ---------------------------------------------------------------------------
  // The engine's own test tables
  // ---------------------------------------------------------------------------

  const TestDir := "/test/runtime/dir"

  lemma TestEntryPath()
    ensures FilePath.Join(TestDir, RuntimeBinary) == "/test/runtime/dir/nvidia-container-runtime"
  {
    assert TestDir[|TestDir| - 1] != '/';
  }

  /** The settings the tables leave alone. */
  function Unrelated(): Config {
    map["exec-opts" := JArr([JStr("native.cgroupdriver=systemd")]),
        "log-driver" := JStr("json-file"),
        "log-opts" := JObj(map["max-size" := JStr("100m")]),
        "storage-driver" := JStr("overlay2")]
  }

  /** The entry the tables expect, for the test directory. */
  function TestEntry(): Json {
    JObj(map["path" := JStr("/test/runtime/dir/nvidia-container-runtime"), "args" := JArr([])])
  }

  lemma TestEntryIsWritten()
    ensures NvidiaEntry(TestDir) == TestEntry()
  {
    TestEntryPath();
  }

  /** Update table: an empty config gains the entry only. */
  lemma UpdateEmpty()
    ensures Update(map[], false, TestDir) == map["runtimes" := JObj(map["nvidia" := TestEntry()])]
    ensures Update(map[], true, TestDir) == map["default-runtime" := JStr("nvidia"), "runtimes" := JObj(map["nvidia" := TestEntry()])]
  {
    TestEntryIsWritten();
  }

  /** Update table: an existing `nvidia` entry is replaced. */
  lemma UpdateReplaces()
    ensures Update(map["runtimes" := JObj(map["nvidia" := JObj(map["path" := JStr("nvidia-container-runtime"), "args" := JArr([])])])], false, TestDir)
            == map["runtimes" := JObj(map["nvidia" := TestEntry()])]
  {
    TestEntryIsWritten();
    var before := map["nvidia" := JObj(map["path" := JStr("nvidia-container-runtime"), "args" := JArr([])])];
    assert before["nvidia" := TestEntry()] == map["nvidia" := TestEntry()];
  }

  /** Update table: another runtime is kept beside the new entry. */
  lemma UpdateKeepsOther()
    ensures var other := JObj(map["path" := JStr("some-other-path"), "args" := JArr([])]);
            Update(map["runtimes" := JObj(map["not-nvidia" := other])], false, TestDir)
            == map["runtimes" := JObj(map["not-nvidia" := other, "nvidia" := TestEntry()])]
  {
    TestEntryIsWritten();
  }

  /** Update table: a `runc` default is overwritten. */
  lemma UpdateOverridesDefault()
    ensures Update(map["default-runtime" := JStr("runc")], true, TestDir)
            == map["default-runtime" := JStr("nvidia"), "runtimes" := JObj(map["nvidia" := TestEntry()])]
  {
    TestEntryIsWritten();
  }

  /** Update table: unrelated settings are kept. */
  lemma UpdateKeepsUnrelated()
    ensures Update(Unrelated(), false, TestDir) == Unrelated()["runtimes" := JObj(map["nvidia" := TestEntry()])]
  {
    TestEntryIsWritten();
  }

  /** Revert table: empty stays empty, a lone entry leaves nothing behind. */
  lemma RevertEmpty()
    ensures Revert(map[]) == map[]
    ensures Revert(map["runtimes" := JObj(map["nvidia" := TestEntry()])]) == map[]
  {
  }

  /** Revert table: an `nvidia` default falls back, any other stays. */
  lemma RevertDefaults()
    ensures Revert(map["default-runtime" := JStr("nvidia"), "runtimes" := JObj(map["nvidia" := TestEntry()])])
            == map["default-runtime" := JStr("runc")]
    ensures Revert(map["default-runtime" := JStr("not-nvidia"), "runtimes" := JObj(map["nvidia" := TestEntry()])])
            == map["default-runtime" := JStr("not-nvidia")]
  {
  }

  /** Revert table: unrelated settings are kept. */
  lemma RevertKeepsUnrelated()
    ensures Revert(Unrelated()["runtimes" := JObj(map["nvidia" := TestEntry()])]) == Unrelated()
  {
  }
}

=== FILE: executable.dfy ===
/**
 An executable component of the toolkit: the source binary is installed as a
 dot file, and a shell wrapper under the original name sets up the
 environment and calls it.
 */
module Executable {
  import opened Wrappers
  import FilePath
  import opened ShellWrapper

  /** `env` is `None` for a nil map. */
  datatype Executable = Executable(
    source: string,
    dotFileExtension: string,
    env: Option<map<string, string>>,
    preLines: seq<string>,
    argLines: seq<string>)

  /** The environment the wrapper exports; a nil map counts as empty. */
  function WrapperEnv(e: Executable, destFolder: string): (r: map<string, string>)
    ensures r.Keys == (if e.env.Some? then e.env.value.Keys else {}) + {PathKey}
    ensures e.env.None? ==> r == map[PathKey := destFolder + ":" + PathPlaceholder]
  {
    WithPath(if e.env.Some? then e.env.value else map[], destFolder)
  }

  /** Writes the wrapper, one element per line. `replace` stands for the
      destination-folder substitution applied to every pre-line, value and
      argument line. `env` is the map the wrapper exported: when the caller
      gave a map, it is that map, which now holds PATH. `order` is the order
      of the assignments. */
  method WriteWrapperTo(e: Executable, destFolder: string, dotfileName: string, replace: string -> string)
    returns (lines: seq<string>, env: map<string, string>, order: seq<string>)
    ensures env == WrapperEnv(e, destFolder)
    ensures e.env.Some? ==> env == WithPath(e.env.value, destFolder)
    ensures Enumerates(order, env.Keys) && Ascending(order)
    ensures lines == Script(MapLines(replace, e.preLines), EnvLines(order, env, replace), dotfileName,
                            MapLines(replace, e.argLines))
  {
    lines := [Shebang];
    for i := 0 to |e.preLines|
      invariant lines == [Shebang] + MapLines(replace, e.preLines[..i])
    {
      assert e.preLines[..i + 1] == e.preLines[..i] + [e.preLines[i]];
      lines := lines + [replace(e.preLines[i])];
    }
    assert e.preLines[..|e.preLines|] == e.preLines;
    var head := lines;

    env := if e.env.None? then map[] else e.env.value;
    var path := if PathKey in env then env[PathKey] else PathPlaceholder;
    env := env[PathKey := destFolder + ":" + path];

    order := SortKeys(env.Keys);
    for i := 0 to |order|
      invariant lines == head + EnvLines(order[..i], env, replace)
    {
      assert order[..i + 1] == order[..i] + [order[i]];
      lines := lines + [EnvLine(order[i], replace(env[order[i]]))];
    }
    assert order[..|order|] == order;
    lines := lines + [CallLine(dotfileName)];
    var body := lines;

    for i := 0 to |e.argLines|
      invariant lines == body + MapLines(ArgLine, MapLines(replace, e.argLines[..i]))
    {
      assert e.argLines[..i + 1] == e.argLines[..i] + [e.argLines[i]];
      lines := lines + [ArgLine(replace(e.argLines[i]))];
    }
    assert e.argLines[..|e.argLines|] == e.argLines;
    lines := lines + [ForwardArgs];
  }

  /** However the keys are listed, an ascending listing gives one wrapper
      text: the output is a function of the executable and the folder. */
  lemma WrapperTextUnique(e: Executable, destFolder: string, dotfileName: string, replace: string -> string,
                          o1: seq<string>, o2: seq<string>)
    requires Enumerates(o1, WrapperEnv(e, destFolder).Keys) && Ascending(o1)
    requires Enumerates(o2, WrapperEnv(e, destFolder).Keys) && Ascending(o2)
    ensures var env := WrapperEnv(e, destFolder);
            EnvLines(o1, env, replace) == EnvLines(o2, env, replace)
  {
    AscendingUnique(o1, o2, WrapperEnv(e, destFolder).Keys);
  }

  /** The PATH assignment is always written: the destination folder in front
      of the caller's PATH, or of the shell's. */
  lemma PathAlwaysExported(e: Executable, destFolder: string, order: seq<string>)
    requires Enumerates(order, WrapperEnv(e, destFolder).Keys)
    ensures exists i :: 0 <= i < |order| && order[i] == PathKey
    ensures var given := if e.env.Some? && PathKey in e.env.value then e.env.value[PathKey] else PathPlaceholder;
            WrapperEnv(e, destFolder)[PathKey] == destFolder + ":" + given
  {
    assert PathKey in order;
  }

  /** `filepath.Base(source) + extension`. */
  function DotFileName(e: Executable): string {
    FilePath.Base(e.source) + e.dotFileExtension
  }

  /** `installFileToFolderWithName`: the name joined onto the folder. */
  function InstalledAs(destFolder: string, name: string): string {
    FilePath.Join(destFolder, name)
  }

  /** `getInstalledPath`: the source's base name under the folder. */
  function InstalledPath(destFolder: string, src: string): string {
    InstalledAs(destFolder, FilePath.Base(src))
  }

  /** The wrapper takes the source's name and sits in the folder. */
  lemma InstalledPathShape(destFolder: string, src: string)
    requires FilePath.Base(src) != "/"
    ensures FilePath.Base(InstalledPath(destFolder, src)) == FilePath.Base(src)
    ensures destFolder != "" && destFolder[|destFolder| - 1] != '/' ==>
              FilePath.Dir(InstalledPath(destFolder, src)) == destFolder
  {
    FilePath.BaseOfJoinBase(destFolder, src);
    FilePath.BaseSlashFree(src);
    if destFolder != "" && destFolder[|destFolder| - 1] != '/' {
      FilePath.DirOfJoin(destFolder, FilePath.Base(src));
    }
  }

  /** The dot file sits beside the wrapper, named after the source with the
      extension appended. */
  lemma DotFileShape(e: Executable, destFolder: string)
    requires FilePath.Base(e.source) != "/" && FilePath.SlashFree(e.dotFileExtension)
    ensures FilePath.Base(InstalledAs(destFolder, DotFileName(e))) == FilePath.Base(e.source) + e.dotFileExtension
    ensures destFolder != "" && destFolder[|destFolder| - 1] != '/' ==>
              FilePath.Dir(InstalledAs(destFolder, DotFileName(e))) == FilePath.Dir(InstalledPath(destFolder, e.source))
  {
    var name := DotFileName(e);
    FilePath.BaseSlashFree(e.source);
    assert FilePath.SlashFree(name);
    FilePath.BaseOfJoin(destFolder, name);
    if destFolder != "" && destFolder[|destFolder| - 1] != '/' {
      FilePath.DirOfJoin(destFolder, name);
      InstalledPathShape(destFolder, e.source);
    }
  }
}

/** `chmod +x` on a Go `os.FileMode` (a 32-bit word). */
module FileMode {
  /** The execute bits for owner, group and others (octal 111). */
  const ExecuteBits: bv32 := 0x49

  /** `ensureExecutable`: `chmod +x`. */
  function ExecutableMode(mode: bv32): (r: bv32)
    ensures r & ExecuteBits == ExecuteBits
  {
    mode | ExecuteBits
  }

  /** Every bit other than the execute bits is kept. */
  lemma ExecutableModeKeepsOthers(mode: bv32)
    ensures ExecutableMode(mode) & !ExecuteBits == mode & !ExecuteBits
  {
  }

  /** An already executable mode is left alone. */
  lemma ExecutableModeNoChange(mode: bv32)
    requires mode & ExecuteBits == ExecuteBits
    ensures ExecutableMode(mode) == mode
  {
  }

  lemma ExecutableModeIdempotent(mode: bv32)
    ensures ExecutableMode(ExecutableMode(mode)) == ExecutableMode(mode)
  {
  }
}

=== FILE: filepath.dfy ===
/**
 The parts of Go's `path/filepath` the model needs, for slash-separated paths.
 `Join` trims trailing separators of its first operand but does not otherwise
 clean the result (no "." / ".." / "//" normalisation).
 */
module FilePath {

  /** Removes every trailing '/'. */
  function TrimTrailingSlashes(s: string): (r: string)
    ensures |r| <= |s| && r == s[..|r|]
    ensures |r| > 0 ==> r[|r|-1] != '/'
    ensures forall i :: |r| <= i < |s| ==> s[i] == '/'
    decreases |s|
  {
    if |s| > 0 && s[|s|-1] == '/' then TrimTrailingSlashes(s[..|s|-1]) else s
  }

  /** Index of the last '/', or -1. */
  function LastSlash(s: string): (i: int)
    ensures -1 <= i < |s|
    ensures i >= 0 ==> s[i] == '/'
    ensures forall j :: i < j < |s| ==> s[j] != '/'
    decreases |s|
  {
    if |s| == 0 then -1
    else if s[|s|-1] == '/' then |s| - 1
    else LastSlash(s[..|s|-1])
  }

  predicate SlashFree(s: string) {
    forall i :: 0 <= i < |s| ==> s[i] != '/'
  }

  /** `filepath.Join(dir, name)`. */
  function Join(dir: string, name: string): string {
    if dir == "" then name
    else if name == "" then dir
    else TrimTrailingSlashes(dir) + "/" + name
  }

  /** `filepath.Base`: the last element, ignoring trailing separators. */
  function Base(p: string): (r: string)
    ensures r != ""
  {
    if p == "" then "."
    else
      var q := TrimTrailingSlashes(p);
      if q == "" then "/" else q[LastSlash(q) + 1..]
  }

  /** `filepath.Dir`: everything before the last element. */
  function Dir(p: string): (r: string)
    ensures r != ""
  {
    var i := LastSlash(p);
    if i < 0 then "."
    else
      var d := TrimTrailingSlashes(p[..i + 1]);
      if d == "" then "/" else d
  }

  lemma {:induction false} LastSlashOfJoined(x: string, name: string)
    requires SlashFree(name)
    ensures LastSlash(x + "/" + name) == |x|
    decreases |name|
  {
    var j := x + "/" + name;
    if |name| > 0 {
      assert j[..|j|-1] == x + "/" + name[..|name|-1];
      LastSlashOfJoined(x, name[..|name|-1]);
    }
  }

  /** The base name of a joined path is the name that was joined. */
  lemma BaseOfJoin(dir: string, name: string)
    requires name != "" && SlashFree(name)
    ensures Base(Join(dir, name)) == name
  {
    if dir == "" {
      assert TrimTrailingSlashes(name) == name;
      assert LastSlash(name) == -1;
    } else {
      var j := TrimTrailingSlashes(dir) + "/" + name;
      assert TrimTrailingSlashes(j) == j;
      LastSlashOfJoined(TrimTrailingSlashes(dir), name);
      assert j[|TrimTrailingSlashes(dir)| + 1..] == name;
    }
  }

  /** Joining a slash-free name onto a directory written without a trailing
      separator, then taking the directory, gives the directory back. */
  lemma DirOfJoin(dir: string, name: string)
    requires dir != "" && dir[|dir|-1] != '/' && name != "" && SlashFree(name)
    ensures Dir(Join(dir, name)) == dir
  {
    var j := dir + "/" + name;
    assert TrimTrailingSlashes(dir) == dir;
    LastSlashOfJoined(dir, name);
    assert j[..|dir| + 1] == dir + "/";
    assert TrimTrailingSlashes(dir + "/") == TrimTrailingSlashes(dir);
  }

  /** A base name other than the root is a single path element. */
  lemma BaseSlashFree(p: string)
    requires Base(p) != "/"
    ensures SlashFree(Base(p))
  {
  }

  /** Installing a file under a folder keeps its base name. */
  lemma BaseOfJoinBase(dir: string, p: string)
    requires Base(p) != "/"
    ensures Base(Join(dir, Base(p))) == Base(p)
  {
    BaseSlashFree(p);
    BaseOfJoin(dir, Base(p));
  }
}

=== FILE: run.dfy ===
/**
 The operator's entry point: validating the command line and building the
 shell lines that install the toolkit and set up or clean up a runtime.
 */
module Run {
  import opened Wrappers
  import FilePath
  import Strings

  const ToolkitCommand := "toolkit"
  const ToolkitSubDir := "toolkit"
  /** Positional arguments, the program name included. */
  const NumPositionalArgs := 2
  const AvailableRuntimes: set<string> := {"docker", "crio", "containerd"}

  predicate IsFlag(arg: string) { Strings.HasPrefix(arg, "-") }
  predicate IsHelp(arg: string) { arg == "--help" || arg == "-h" }

  predicate HasHelp(args: seq<string>) { exists i :: 0 <= i < |args| && IsHelp(args[i]) }

  /** `i` is the first help request in `args`. */
  predicate FirstHelpAt(args: seq<string>, i: int) {
    0 <= i < |args| && IsHelp(args[i]) && forall j :: 0 <= j < i ==> !IsHelp(args[j])
  }

  /** The destination and the program name are not flags. */
  predicate PositionalsOk(args: seq<string>)
    requires |args| >= NumPositionalArgs
  {
    forall i :: 0 <= i < NumPositionalArgs ==> !IsFlag(args[i])
  }

  /** Everything after the positionals is a flag. */
  predicate FlagsOk(args: seq<string>) {
    forall i :: NumPositionalArgs <= i < |args| ==> IsFlag(args[i])
  }

  datatype ParseError = MissingArguments | FlagWhereArgument | ArgumentWhereFlag

  /** What parsing hands on: the arguments left for the flag parser, and the
      destination when one was taken (a help request takes none). */
  datatype Parsed = Parsed(remaining: seq<string>, destination: Option<string>)

  /** Splits off the destination, or short-cuts to help. */
  method ParseArgs(args: seq<string>) returns (r: Result<Parsed, ParseError>)
    ensures |args| < NumPositionalArgs <==> r == Err(MissingArguments)
    ensures forall i :: |args| >= NumPositionalArgs && FirstHelpAt(args, i) ==> r == Ok(Parsed([args[0], args[i]], None))
    ensures |args| >= NumPositionalArgs && !HasHelp(args) ==>
              (r == Err(FlagWhereArgument) <==> !PositionalsOk(args))
    ensures |args| >= NumPositionalArgs && !HasHelp(args) ==>
              (r == Err(ArgumentWhereFlag) <==> PositionalsOk(args) && !FlagsOk(args))
    ensures r.Ok? && r.value.destination.None? ==> HasHelp(args)
    ensures r.Ok? && r.value.destination.Some? ==>
              && !HasHelp(args) && PositionalsOk(args) && FlagsOk(args)
              && r.value.remaining == [args[0]] + args[NumPositionalArgs..]
              && r.value.destination.value == args[1]
              // putting the destination back gives the command line again
              && [r.value.remaining[0], r.value.destination.value] + r.value.remaining[1..] == args
  {
    if |args| < NumPositionalArgs {
      return Err(MissingArguments);
    }
    var i := 0;
    while i < |args|
      invariant 0 <= i <= |args|
      invariant forall j :: 0 <= j < i ==> !IsHelp(args[j])
    {
      if IsHelp(args[i]) {
        assert FirstHelpAt(args, i);
        forall k | FirstHelpAt(args, k) ensures k == i {}
        return Ok(Parsed([args[0], args[i]], None));
      }
      i := i + 1;
    }
    assert !HasHelp(args);
    i := 0;
    while i < NumPositionalArgs
      invariant 0 <= i <= NumPositionalArgs
      invariant forall j :: 0 <= j < i ==> !IsFlag(args[j])
    {
      if IsFlag(args[i]) {
        return Err(FlagWhereArgument);
      }
      i := i + 1;
    }
    i := NumPositionalArgs;
    while i < |args|
      invariant NumPositionalArgs <= i <= |args|
      invariant forall j :: NumPositionalArgs <= j < i ==> IsFlag(args[j])
    {
      if !IsFlag(args[i]) {
        return Err(ArgumentWhereFlag);
      }
      i := i + 1;
    }
    var remaining := [args[0]] + args[NumPositionalArgs..];
    assert [remaining[0], args[1]] + remaining[1..] == args;
    return Ok(Parsed(remaining, Some(args[1])));
  }

  datatype FlagError = UnknownRuntime(runtime: string)

  /** Accepts exactly the three supported runtimes. */
  function VerifyFlags(runtime: string): (r: Result<(), FlagError>)
    ensures r.Ok? <==> runtime == "docker" || runtime == "crio" || runtime == "containerd"
    ensures r.Err? ==> r.error == UnknownRuntime(runtime)
  {
    if runtime in AvailableRuntimes then Ok(()) else Err(UnknownRuntime(runtime))
  }

  /** Where the toolkit goes under the destination. */
  function ToolkitDir(destination: string): (r: string)
    ensures FilePath.Base(r) == ToolkitSubDir
    ensures destination != "" && destination[|destination| - 1] != '/' ==> FilePath.Dir(r) == destination
  {
    assert FilePath.SlashFree(ToolkitSubDir);
    FilePath.BaseOfJoin(destination, ToolkitSubDir);
    if destination != "" && destination[|destination| - 1] != '/' then
      FilePath.DirOfJoin(destination, ToolkitSubDir);
      FilePath.Join(destination, ToolkitSubDir)
    else
      FilePath.Join(destination, ToolkitSubDir)
  }

  /** `toolkit <toolkitDir> <toolkit args>`. */
  function InstallCommand(destination: string, toolkitArgs: string): string {
    ToolkitCommand + " " + ToolkitDir(destination) + " " + toolkitArgs + "\n"
  }

  // ---------------------------------------------------------------------------
  // The words `sh -c` sees
  // ---------------------------------------------------------------------------

  predicate IsBlank(c: char) { c == ' ' || c == '\t' || c == '\n' }

  /** A single word: non-empty and without blanks. */
  predicate IsWord(w: string) {
    |w| > 0 && forall i :: 0 <= i < |w| ==> !IsBlank(w[i])
  }

  /** The words an unquoted command line splits into at runs of blanks. */
  function Words(s: string): (r: seq<string>)
    ensures |s| > 0 && !IsBlank(s[0]) ==> |r| > 0
    decreases |s|
  {
    if |s| == 0 then []
    else if IsBlank(s[0]) then Words(s[1..])
    else if |s| == 1 || IsBlank(s[1]) then [[s[0]]] + Words(s[1..])
    else
      var w := Words(s[1..]);
      [[s[0]] + w[0]] + w[1..]
  }

  /** A blank separates: the words of `a`, then the words of `b`. */
  lemma {:induction false} WordsSplit(a: string, c: char, b: string)
    requires IsBlank(c)
    ensures Words(a + [c] + b) == Words(a) + Words(b)
    decreases |a|
  {
    if |a| == 0 {
      var s := a + [c] + b;
      assert s == [c] + b && s[1..] == b;
    } else {
      assert (a + [c] + b)[1..] == a[1..] + [c] + b;
      WordsSplit(a[1..], c, b);
      WordsSplitStep(a, c, b);
    }
  }

  /** One step of WordsSplit: from the words after the first character to
      the words of the whole. */
  lemma WordsSplitStep(a: string, c: char, b: string)
    requires IsBlank(c) && |a| > 0
    requires Words(a[1..] + [c] + b) == Words(a[1..]) + Words(b)
    ensures Words(a + [c] + b) == Words(a) + Words(b)
  {
    var s := a + [c] + b;
    assert s[0] == a[0] && s[1..] == a[1..] + [c] + b;
    if IsBlank(a[0]) {
      assert Words(s) == Words(s[1..]);
    } else if |a| == 1 {
      WordsSplitSingle(a, c, b);
    } else if IsBlank(a[1]) {
      assert s[1] == a[1];
      assert Words(s) == [[a[0]]] + Words(s[1..]);
    } else {
      assert s[1] == a[1];
      assert Words(s) == [[a[0]] + Words(s[1..])[0]] + Words(s[1..])[1..];
      WordsJoinStep(a, Words(s[1..]), Words(b));
    }
  }

  /** The case of WordsSplit where `a` is a single non-blank character. */
  lemma WordsSplitSingle(a: string, c: char, b: string)
    requires IsBlank(c) && |a| == 1 && !IsBlank(a[0])
    ensures Words(a + [c] + b) == Words(a) + Words(b)
  {
    var s := a + [c] + b;
    assert s[0] == a[0] && s[1] == c && s[1..] == [c] + b;
    assert Words(s[1..]) == Words(b) by { assert ([c] + b)[1..] == b; }
    assert Words(a) == [[a[0]]] by { assert a[1..] == ""; }
  }

  /** The first character joins the first word that follows it. */
  lemma WordsJoinStep(a: string, ws: seq<string>, wb: seq<string>)
    requires |a| > 1 && !IsBlank(a[0]) && !IsBlank(a[1])
    requires ws == Words(a[1..]) + wb
    ensures [[a[0]] + ws[0]] + ws[1..] == Words(a) + wb
  {
    var w := Words(a[1..]);
    assert |w| > 0;
    assert ws[0] == w[0] && ws[1..] == w[1..] + wb;
  }

  /** A word is its own only word. */
  lemma {:induction false} WordsOfWord(w: string)
    requires IsWord(w)
    ensures Words(w) == [w]
    decreases |w|
  {
    if |w| == 1 {
      assert w[1..] == "" && [w[0]] == w;
    } else {
      WordsOfWord(w[1..]);
      assert [w[0]] + w[1..] == w;
    }
  }

  /** Words separated by one blank each. */
  lemma WordsCons(w: string, c: char, rest: string)
    requires IsWord(w) && IsBlank(c)
    ensures Words(w + [c] + rest) == [w] + Words(rest)
  {
    WordsSplit(w, c, rest);
    WordsOfWord(w);
  }

  /** A destination without blanks gives a toolkit directory without
      blanks. */
  lemma ToolkitDirIsWord(destination: string)
    requires forall i :: 0 <= i < |destination| ==> !IsBlank(destination[i])
    ensures IsWord(ToolkitDir(destination))
  {
    var t := FilePath.TrimTrailingSlashes(destination);
    if destination != "" {
      var r := t + "/" + ToolkitSubDir;
      forall i | 0 <= i < |r| ensures !IsBlank(r[i]) {
        if i < |t| { assert r[i] == destination[i]; }
      }
    }
  }

  /** The words of `a b rest` followed by a newline. */
  lemma WordsTwoThenRest(a: string, b: string, rest: string)
    requires IsWord(a) && IsWord(b)
    ensures Words(a + " " + b + " " + rest + "\n") == [a, b] + Words(rest)
  {
    assert a + " " + b + " " + rest + "\n" == a + [' '] + (b + [' '] + (rest + ['\n'] + ""));
    WordsSplit(rest, '\n', "");
    WordsCons(b, ' ', rest + ['\n'] + "");
    WordsCons(a, ' ', b + [' '] + (rest + ['\n'] + ""));
  }

  /** The words of `a b c rest` followed by a newline. */
  lemma WordsThreeThenRest(a: string, b: string, c: string, rest: string)
    requires IsWord(a) && IsWord(b) && IsWord(c)
    ensures Words(a + " " + b + " " + c + " " + rest + "\n") == [a, b, c] + Words(rest)
  {
    assert a + " " + b + " " + c + " " + rest + "\n" == a + [' '] + (b + " " + c + " " + rest + "\n");
    WordsCons(a, ' ', b + " " + c + " " + rest + "\n");
    WordsTwoThenRest(b, c, rest);
  }

  /** The words of `a b rest c` followed by a newline. */
  lemma WordsTwoRestThenLast(a: string, b: string, rest: string, c: string)
    requires IsWord(a) && IsWord(b) && IsWord(c)
    ensures Words(a + " " + b + " " + rest + " " + c + "\n") == [a, b] + Words(rest) + [c]
  {
    var tail := rest + [' '] + (c + ['\n'] + "");
    assert a + " " + b + " " + rest + " " + c + "\n" == a + [' '] + (b + [' '] + tail);
    WordsCons(a, ' ', b + [' '] + tail);
    WordsCons(b, ' ', tail);
    WordsSplit(rest, ' ', c + ['\n'] + "");
    WordsSplit(c, '\n', "");
    WordsOfWord(c);
  }

  /** The line `sh -c` runs for the install is the words `toolkit` and the
      `toolkit` directory under the destination, followed by the words of the
      pass-through arguments. */
  lemma InstallCommandWords(destination: string, toolkitArgs: string)
    requires forall i :: 0 <= i < |destination| ==> !IsBlank(destination[i])
    ensures Words(InstallCommand(destination, toolkitArgs))
            == [ToolkitCommand, ToolkitDir(destination)] + Words(toolkitArgs)
  {
    ToolkitDirIsWord(destination);
    assert IsWord(ToolkitCommand);
    WordsTwoThenRest(ToolkitCommand, ToolkitDir(destination), toolkitArgs);
  }

  /** The two arguments after the verb: containerd takes its own arguments
      first and the toolkit directory last, every other runtime the reverse. */
  function RuntimeOperands(runtime: string, runtimeArgs: string, destination: string): (r: (string, string))
    ensures runtime == "containerd" ==> r.1 == ToolkitDir(destination) && r.0 == runtimeArgs
    ensures runtime != "containerd" ==> r.0 == ToolkitDir(destination) && r.1 == runtimeArgs
  {
    if runtime == "containerd" then (runtimeArgs, ToolkitDir(destination))
    else (ToolkitDir(destination), runtimeArgs)
  }

  /** `<runtime> <verb> <operands>`, the line handed to `sh -c`. */
  function RuntimeCommand(runtime: string, verb: string, runtimeArgs: string, destination: string): string {
    var ops := RuntimeOperands(runtime, runtimeArgs, destination);
    runtime + " " + verb + " " + ops.0 + " " + ops.1 + "\n"
  }

  function SetupCommand(runtime: string, runtimeArgs: string, destination: string): string {
    RuntimeCommand(runtime, "setup", runtimeArgs, destination)
  }

  function CleanupCommand(runtime: string, runtimeArgs: string, destination: string): string {
    RuntimeCommand(runtime, "cleanup", runtimeArgs, destination)
  }

  /** The supported runtimes and the two verbs are single words. */
  lemma KnownWords(runtime: string, verb: string)
    requires runtime in AvailableRuntimes
    requires verb == "setup" || verb == "cleanup"
    ensures IsWord(runtime) && IsWord(verb)
  {
    if runtime == "docker" {
      assert IsWord("docker");
    } else if runtime == "crio" {
      assert IsWord("crio");
    } else {
      assert IsWord("containerd");
    }
    if verb == "setup" {
      assert IsWord("setup");
    } else {
      assert IsWord("cleanup");
    }
  }

  /** The words of the setup and cleanup lines: the runtime and the verb,
      then the runtime arguments followed by the toolkit directory for
      containerd, and the toolkit directory followed by the runtime arguments
      for the other runtimes. */
  lemma RuntimeCommandWords(runtime: string, verb: string, runtimeArgs: string, destination: string)
    requires VerifyFlags(runtime).Ok?
    requires verb == "setup" || verb == "cleanup"
    requires forall i :: 0 <= i < |destination| ==> !IsBlank(destination[i])
    ensures var w := Words(RuntimeCommand(runtime, verb, runtimeArgs, destination));
            runtime == "containerd" ==> w == [runtime, verb] + Words(runtimeArgs) + [ToolkitDir(destination)]
    ensures var w := Words(RuntimeCommand(runtime, verb, runtimeArgs, destination));
            runtime != "containerd" ==> w == [runtime, verb, ToolkitDir(destination)] + Words(runtimeArgs)
  {
    var d := ToolkitDir(destination);
    ToolkitDirIsWord(destination);
    KnownWords(runtime, verb);
    if runtime == "containerd" {
      WordsTwoRestThenLast(runtime, verb, runtimeArgs, d);
    } else {
      WordsThreeThenRest(runtime, verb, d, runtimeArgs);
    }
  }

  /** For containerd the line ends with the toolkit directory; for the others
      the toolkit directory follows the verb. */
  lemma ToolkitDirPlacement(runtime: string, verb: string, runtimeArgs: string, destination: string)
    ensures var r := RuntimeCommand(runtime, verb, runtimeArgs, destination);
            var d := ToolkitDir(destination) + "\n";
            runtime == "containerd" ==> |d| <= |r| && r[|r| - |d|..] == d
    ensures var r := RuntimeCommand(runtime, verb, runtimeArgs, destination);
            var p := runtime + " " + verb + " " + ToolkitDir(destination) + " ";
            runtime != "containerd" ==> |p| <= |r| && r[..|p|] == p
  {
    var r := RuntimeCommand(runtime, verb, runtimeArgs, destination);
    var ops := RuntimeOperands(runtime, runtimeArgs, destination);
    if runtime == "containerd" {
      var head := runtime + " " + verb + " " + ops.0 + " ";
      assert r == head + (ToolkitDir(destination) + "\n");
    } else {
      var p := runtime + " " + verb + " " + ToolkitDir(destination) + " ";
      assert r == p + (runtimeArgs + "\n");
    }
  }
}

=== FILE: runtime_installer.dfy ===
/**
 The installers for the NVIDIA container runtime and its experimental
 variant: which executable is wrapped, with which environment and which
 preamble.
 */
module RuntimeInstaller {
  import opened Wrappers
  import FilePath
  import opened Executable
  import ShellWrapper

  const NvidiaContainerRuntimeSource := "/usr/bin/nvidia-container-runtime"
  const NvidiaExperimentalContainerRuntimeSource := "nvidia-container-runtime.experimental"
  const ConfigHomeKey := "XDG_CONFIG_HOME"
  const LibraryPathKey := "LD_LIBRARY_PATH"
  const ManagementLibrary := "libnvidia-ml.so"

  /** The file names an installer produces. */
  datatype Target = Target(dotfileName: string, wrapperName: string)

  /** An executable together with the names it is installed under. */
  datatype Installer = Installer(exe: Executable, target: Target)

  /** Fall back to plain `runc` while the driver modules are not loaded. */
  const RuntimePreLines: seq<string> := [
    "",
    "cat /proc/modules | grep -e \"^nvidia \" >/dev/null 2>&1",
    "if [ \"${?}\" != \"0\" ]; then",
    "\techo \"nvidia driver modules are not yet loaded, invoking runc directly\"",
    "\texec runc \"$@\"",
    "fi",
    ""
  ]

  /** `newRuntimeInstaller`: XDG_CONFIG_HOME points below the destination
      pattern, and the caller's entries are laid over it. */
  function NewRuntimeInstaller(source: string, target: Target, env: map<string, string>, destDirPattern: string)
    : (r: Installer)
    ensures r.exe.source == source && r.target == target
    ensures r.exe.preLines == RuntimePreLines && r.exe.argLines == [] && r.exe.dotFileExtension == ""
    ensures r.exe.env.Some?
    ensures r.exe.env.value.Keys == env.Keys + {ConfigHomeKey}
    ensures forall k :: k in env ==> r.exe.env.value[k] == env[k]
    ensures ConfigHomeKey !in env ==> r.exe.env.value[ConfigHomeKey] == FilePath.Join(destDirPattern, ".config")
  {
    var runtimeEnv := map[ConfigHomeKey := FilePath.Join(destDirPattern, ".config")] + env;
    Installer(Executable(source, "", Some(runtimeEnv), RuntimePreLines, []), target)
  }

  /** The preamble is seven lines, blank at both ends, and falls back to runc. */
  lemma PreLinesShape()
    ensures |RuntimePreLines| == 7
    ensures RuntimePreLines[0] == "" && RuntimePreLines[6] == ""
    ensures RuntimePreLines[4] == "\texec runc \"$@\""
  {
  }

  /** `newNvidiaContainerRuntimeInstaller`. */
  function NewNvidiaContainerRuntimeInstaller(destDirPattern: string): Installer {
    NewRuntimeInstaller(NvidiaContainerRuntimeSource,
                        Target("nvidia-container-runtime.real", "nvidia-container-runtime"), map[], destDirPattern)
  }

  /** The standard runtime exports XDG_CONFIG_HOME and nothing else, so its
      wrapper exports exactly that and PATH. */
  lemma StandardInstallerEnv(destDirPattern: string, destFolder: string)
    ensures var i := NewNvidiaContainerRuntimeInstaller(destDirPattern);
            && i.exe.env == Some(map[ConfigHomeKey := FilePath.Join(destDirPattern, ".config")])
            && WrapperEnv(i.exe, destFolder).Keys == {ConfigHomeKey, ShellWrapper.PathKey}
  {
    var i := NewNvidiaContainerRuntimeInstaller(destDirPattern);
    var m := map[ConfigHomeKey := FilePath.Join(destDirPattern, ".config")];
    assert m + map[] == m;
    assert i.exe.env.value.Keys == {ConfigHomeKey};
  }

  /** The experimental runtime's extra environment. */
  function ExperimentalEnv(libraryRoot: string): (r: map<string, string>)
    ensures LibraryPathKey in r <==> libraryRoot != ""
    ensures libraryRoot != "" ==> r[LibraryPathKey] == libraryRoot + ":$LD_LIBRARY_PATH"
    ensures r.Keys <= {LibraryPathKey}
  {
    if libraryRoot != "" then map[LibraryPathKey := libraryRoot + ":" + "$LD_LIBRARY_PATH"] else map[]
  }

  /** `newNvidiaContainerRuntimeExperimentalInstaller`. */
  function NewExperimentalInstaller(libraryRoot: string, destDirPattern: string): Installer {
    NewRuntimeInstaller(NvidiaExperimentalContainerRuntimeSource,
                        Target("nvidia-container-runtime.experimental", "nvidia-container-runtime-experimental"),
                        ExperimentalEnv(libraryRoot), destDirPattern)
  }

  /** The experimental runtime adds the library root to the loader path iff
      one was found, and otherwise exports what the standard one does. */
  lemma ExperimentalInstallerEnv(libraryRoot: string, destDirPattern: string)
    ensures var env := NewExperimentalInstaller(libraryRoot, destDirPattern).exe.env.value;
            && (LibraryPathKey in env <==> libraryRoot != "")
            && (libraryRoot != "" ==> env[LibraryPathKey] == libraryRoot + ":$LD_LIBRARY_PATH")
            && env[ConfigHomeKey] == FilePath.Join(destDirPattern, ".config")
            && env.Keys - {LibraryPathKey} == {ConfigHomeKey}
  {
    assert ConfigHomeKey != LibraryPathKey by { assert ConfigHomeKey[0] != LibraryPathKey[0]; }
  }

  /** `findLibraryRoot`: the directory holding the management library, or
      "" when the lookup failed. */
  function FindLibraryRoot<E>(found: Result<string, E>): (r: string)
    ensures r == "" <==> found.Err?
    ensures found.Ok? ==> r == FilePath.Dir(found.value)
  {
    if found.Err? then "" else FilePath.Dir(found.value)
  }

  /** A library found under a directory gives that directory as the root, so
      the experimental wrapper puts it on the loader path. */
  lemma LibraryRootOfFound<E>(dir: string, destDirPattern: string)
    requires dir != "" && dir[|dir| - 1] != '/'
    ensures FindLibraryRoot<E>(Ok(FilePath.Join(dir, ManagementLibrary))) == dir
    ensures var env := NewExperimentalInstaller(FindLibraryRoot<E>(Ok(FilePath.Join(dir, ManagementLibrary))), destDirPattern).exe.env.value;
            LibraryPathKey in env && env[LibraryPathKey] == dir + ":$LD_LIBRARY_PATH"
  {
    assert FilePath.SlashFree(ManagementLibrary);
    FilePath.DirOfJoin(dir, ManagementLibrary);
  }
}

=== FILE: semver.dfy ===
/**
 The subset of `golang.org/x/mod/semver` the daemon-version logic relies on:
 validity and comparison of `vMAJOR[.MINOR[.PATCH]]` strings. Short forms are
 completed with zeros ("v1.3" is "v1.3.0"). Every invalid string sorts below
 every valid one, and all invalid strings compare equal.
 */
module Semver {
  import opened Wrappers

  datatype Version = Version(major: nat, minor: nat, patch: nat)

  predicate IsDigit(c: char) { '0' <= c <= '9' }

  /** Length of the leading run of decimal digits. */
  function DigitRun(s: string): (n: nat)
    ensures n <= |s|
    ensures forall i :: 0 <= i < n ==> IsDigit(s[i])
    ensures n < |s| ==> !IsDigit(s[n])
    decreases |s|
  {
    if |s| > 0 && IsDigit(s[0]) then 1 + DigitRun(s[1..]) else 0
  }

  /** Decimal value of a string of digits. */
  function DecimalValue(ds: string): nat
    requires forall i :: 0 <= i < |ds| ==> IsDigit(ds[i])
    decreases |ds|
  {
    if |ds| == 0 then 0
    else
      assert IsDigit(ds[|ds|-1]);
      10 * DecimalValue(ds[..|ds|-1]) + (ds[|ds|-1] as int - '0' as int)
  }

  /** A numeric component: digits, no leading zero unless the number is 0.
      Returns the value and the rest of the string. */
  function ParseNumber(s: string): (r: Option<(nat, string)>)
    ensures r.Some? ==> |r.value.1| < |s| && r.value.1 == s[|s| - |r.value.1|..]
  {
    var n := DigitRun(s);
    if n == 0 || (n > 1 && s[0] == '0') then None
    else Some((DecimalValue(s[..n]), s[n..]))
  }

  function Parse(v: string): Option<Version> {
    if |v| == 0 || v[0] != 'v' then None
    else match ParseNumber(v[1..])
      case None => None
      case Some((major, r1)) =>
        if r1 == "" then Some(Version(major, 0, 0))
        else if r1[0] != '.' then None
        else match ParseNumber(r1[1..])
          case None => None
          case Some((minor, r2)) =>
            if r2 == "" then Some(Version(major, minor, 0))
            else if r2[0] != '.' then None
            else match ParseNumber(r2[1..])
              case None => None
              case Some((patch, r3)) =>
                if r3 == "" then Some(Version(major, minor, patch)) else None
  }

  predicate IsValid(v: string) {
    Parse(v).Some?
  }

  function CompareNat(a: nat, b: nat): int {
    if a < b then -1 else if a > b then 1 else 0
  }

  function CompareVersion(a: Version, b: Version): int {
    if a.major != b.major then CompareNat(a.major, b.major)
    else if a.minor != b.minor then CompareNat(a.minor, b.minor)
    else CompareNat(a.patch, b.patch)
  }

  function CompareParsed(a: Option<Version>, b: Option<Version>): (r: int)
    ensures a.Some? && b.Some? ==> (r == 0 <==> a == b) && (r < 0 <==> Precedes(a.value, b.value))
  {
    match (a, b)
    case (None, None) => 0
    case (None, Some(_)) => -1
    case (Some(_), None) => 1
    case (Some(x), Some(y)) => CompareVersion(x, y)
  }

  /** `semver.Compare`: -1, 0 or +1. */
  function Compare(a: string, b: string): (r: int)
    ensures -1 <= r <= 1
    ensures !IsValid(a) && !IsValid(b) ==> r == 0
    ensures !IsValid(a) && IsValid(b) ==> r == -1
    ensures IsValid(a) && !IsValid(b) ==> r == 1
    ensures IsValid(a) && IsValid(b) ==>
              var x, y := Parse(a).value, Parse(b).value;
              && (r == 0 <==> x == y)
              && (r < 0 <==> Precedes(x, y))
  {
    CompareParsed(Parse(a), Parse(b))
  }

  /** Precedence of two valid versions: major first, then minor, then
      patch. */
  predicate Precedes(x: Version, y: Version) {
    || x.major < y.major
    || (x.major == y.major && x.minor < y.minor)
    || (x.major == y.major && x.minor == y.minor && x.patch < y.patch)
  }

  /** What "at least v1.3" means for the daemon version: it is valid, and its
      major number exceeds 1 or it is 1 with a minor number of 3 or more. */
  lemma AtLeastV13(v: string)
    ensures Compare(v, "v1.3") >= 0 <==>
              && IsValid(v)
              && (Parse(v).value.major > 1 || (Parse(v).value.major == 1 && Parse(v).value.minor >= 3))
  {
    ParseV13();
  }

  /** Compare is a total preorder: antisymmetric in sign, reflexive and
      transitive. */
  lemma CompareParsedAntisymmetric(x: Option<Version>, y: Option<Version>)
    ensures CompareParsed(x, y) == -CompareParsed(y, x)
  {
    match (x, y)
    case (Some(u), Some(w)) =>
      assert CompareVersion(u, w) == -CompareVersion(w, u);
    case _ =>
  }

  lemma CompareAntisymmetric(a: string, b: string)
    ensures Compare(a, b) == -Compare(b, a)
  {
    CompareParsedAntisymmetric(Parse(a), Parse(b));
  }

  lemma CompareReflexive(a: string)
    ensures Compare(a, a) == 0
  {
    var pa := Parse(a);
    assert CompareParsed(pa, pa) == 0;
  }

  lemma CompareVersionTransitive(x: Version, y: Version, z: Version)
    requires CompareVersion(x, y) >= 0 && CompareVersion(y, z) >= 0
    ensures CompareVersion(x, z) >= 0
  {
  }

  lemma CompareParsedTransitive(x: Option<Version>, y: Option<Version>, z: Option<Version>)
    requires CompareParsed(x, y) >= 0 && CompareParsed(y, z) >= 0
    ensures CompareParsed(x, z) >= 0
  {
    if x.Some? && y.Some? && z.Some? {
      CompareVersionTransitive(x.value, y.value, z.value);
    }
  }

  lemma CompareTransitive(a: string, b: string, c: string)
    requires Compare(a, b) >= 0 && Compare(b, c) >= 0
    ensures Compare(a, c) >= 0
  {
    CompareParsedTransitive(Parse(a), Parse(b), Parse(c));
  }

  /** The numeric parts the string spells out. */
  lemma ParseV13()
    ensures Parse("v1.3") == Some(Version(1, 3, 0))
  {
    assert "v1.3"[1..] == "1.3";
    assert DigitRun("1.3") == 1 by { assert DigitRun(".3") == 0; }
    assert "1.3"[..1] == "1" && "1.3"[1..] == ".3";
    assert DecimalValue("1") == 1 by { assert "1"[..0] == ""; }
    assert ".3"[1..] == "3";
    assert DigitRun("3") == 1 by { assert "3"[1..] == ""; }
    assert "3"[..1] == "3" && "3"[1..] == "";
    assert DecimalValue("3") == 3 by { assert "3"[..0] == ""; }
  }

  lemma ParseV12()
    ensures Parse("v1.2") == Some(Version(1, 2, 0))
  {
    assert "v1.2"[1..] == "1.2";
    assert DigitRun("1.2") == 1 by { assert DigitRun(".2") == 0; }
    assert "1.2"[..1] == "1" && "1.2"[1..] == ".2";
    assert DecimalValue("1") == 1 by { assert "1"[..0] == ""; }
    assert ".2"[1..] == "2";
    assert DigitRun("2") == 1 by { assert "2"[1..] == ""; }
    assert "2"[..1] == "2" && "2"[1..] == "";
    assert DecimalValue("2") == 2 by { assert "2"[..0] == ""; }
  }

  lemma ParseV14()
    ensures Parse("v1.4") == Some(Version(1, 4, 0))
  {
    assert "v1.4"[1..] == "1.4";
    assert DigitRun("1.4") == 1 by { assert DigitRun(".4") == 0; }
    assert "1.4"[..1] == "1" && "1.4"[1..] == ".4";
    assert DecimalValue("1") == 1 by { assert "1"[..0] == ""; }
    assert ".4"[1..] == "4";
    assert DigitRun("4") == 1 by { assert "4"[1..] == ""; }
    assert "4"[..1] == "4" && "4"[1..] == "";
    assert DecimalValue("4") == 4 by { assert "4"[..0] == ""; }
  }

  /** Strings that do not start with 'v' are never valid. */
  lemma NoLeadingVInvalid(v: string)
    requires |v| == 0 || v[0] != 'v'
    ensures !IsValid(v)
  {}
}

=== FILE: shell_wrapper.dfy ===
/**
 The text of the shell wrapper the toolkit installs in front of each of its
 executables, line by line (each element is one line without its newline),
 and the ordering of its environment assignments.
 */
module ShellWrapper {
  import Strings

  const Shebang := "#! /bin/sh"
  /** The last line: hand the wrapper's own arguments on. */
  const ForwardArgs := "\t\"$@\""
  const PathKey := "PATH"
  const PathPlaceholder := "$PATH"

  /** `K=V \`: one environment assignment, continued onto the next line. */
  function EnvLine(key: string, value: string): string { key + "=" + value + " \\" }
  /** The call of the wrapped executable. */
  function CallLine(target: string): string { target + " \\" }
  /** One extra argument of the call. */
  function ArgLine(arg: string): string { "\t" + arg + " \\" }

  function MapLines(f: string -> string, lines: seq<string>): (r: seq<string>)
    ensures |r| == |lines|
    ensures forall i :: 0 <= i < |lines| ==> r[i] == f(lines[i])
  {
    seq(|lines|, i requires 0 <= i < |lines| => f(lines[i]))
  }

  /** The environment with the destination folder put in front of PATH (the
      caller's PATH, or the shell's when the caller gives none). */
  function WithPath(env: map<string, string>, destFolder: string): (r: map<string, string>)
    ensures r.Keys == env.Keys + {PathKey}
    ensures r[PathKey] == destFolder + ":" + (if PathKey in env then env[PathKey] else PathPlaceholder)
    ensures forall k :: k in env && k != PathKey ==> r[k] == env[k]
  {
    var path := if PathKey in env then env[PathKey] else PathPlaceholder;
    env[PathKey := destFolder + ":" + path]
  }

  /** `order` lists every key of `keys` exactly once. */
  predicate Enumerates(order: seq<string>, keys: set<string>) {
    && (forall i, j :: 0 <= i < j < |order| ==> order[i] != order[j])
    && (forall i :: 0 <= i < |order| ==> order[i] in keys)
    && (forall k :: k in keys ==> k in order)
  }

  /** Strictly ascending in Go's byte-wise string order. */
  predicate Ascending(order: seq<string>) {
    forall i, j :: 0 <= i < j < |order| ==> Strings.LessEq(order[i], order[j]) && order[i] != order[j]
  }

  function EnvLines(order: seq<string>, env: map<string, string>, f: string -> string): (r: seq<string>)
    requires forall i :: 0 <= i < |order| ==> order[i] in env
    ensures |r| == |order|
    ensures forall i :: 0 <= i < |order| ==> r[i] == EnvLine(order[i], f(env[order[i]]))
  {
    seq(|order|, i requires 0 <= i < |order| && order[i] in env => EnvLine(order[i], f(env[order[i]])))
  }

  /** The whole wrapper: shebang, preamble, environment, call, extra
      arguments, forwarded arguments. */
  function Script(pre: seq<string>, envLines: seq<string>, target: string, args: seq<string>): (r: seq<string>)
    ensures |r| == |pre| + |envLines| + |args| + 3
    ensures r[0] == Shebang && r[|r| - 1] == ForwardArgs
    ensures r[1..1 + |pre|] == pre
    ensures r[1 + |pre|..1 + |pre| + |envLines|] == envLines
    ensures r[1 + |pre| + |envLines|] == CallLine(target)
    ensures forall i :: 0 <= i < |args| ==> r[2 + |pre| + |envLines| + i] == ArgLine(args[i])
  {
    [Shebang] + pre + envLines + [CallLine(target)] + MapLines(ArgLine, args) + [ForwardArgs]
  }

  /** `k` is a least key of `keys`. */
  predicate IsLeast(k: string, keys: set<string>) {
    k in keys && forall j :: j in keys ==> Strings.LessEq(k, j)
  }

  /** Some key of a non-empty set is below all the others. */
  lemma {:induction false} MinimumExists(keys: set<string>)
    requires keys != {}
    ensures exists k :: IsLeast(k, keys)
    decreases |keys|
  {
    var x :| x in keys;
    var rest := keys - {x};
    Strings.LessEqTotal(x, x);
    if rest == {} {
      assert keys == {x};
      assert IsLeast(x, keys);
    } else {
      MinimumExists(rest);
      var m :| IsLeast(m, rest);
      Strings.LessEqTotal(x, m);
      if Strings.LessEq(x, m) {
        forall j | j in rest ensures Strings.LessEq(x, j) {
          Strings.LessEqTransitive(x, m, j);
        }
        assert IsLeast(x, keys);
      } else {
        assert IsLeast(m, keys);
      }
    }
  }

  /** `sort.Strings` over the keys of a map. */
  method SortKeys(keys: set<string>) returns (order: seq<string>)
    ensures Enumerates(order, keys) && Ascending(order)
  {
    order := [];
    var rest := keys;
    while rest != {}
      invariant rest <= keys
      invariant forall i :: 0 <= i < |order| ==> order[i] in keys && order[i] !in rest
      invariant forall k :: k in keys ==> k in rest || k in order
      invariant Ascending(order)
      invariant forall i, k :: 0 <= i < |order| && k in rest ==> Strings.LessEq(order[i], k)
      invariant forall i, j :: 0 <= i < j < |order| ==> order[i] != order[j]
      decreases |rest|
    {
      MinimumExists(rest);
      var m :| IsLeast(m, rest);
      order := order + [m];
      rest := rest - {m};
    }
  }

  /** The head of an ascending listing is the least key. */
  lemma HeadIsLeast(a: seq<string>, keys: set<string>, k: string)
    requires Enumerates(a, keys) && Ascending(a) && |a| > 0 && k in keys && k != a[0]
    ensures Strings.LessEq(a[0], k)
  {
    var n :| 0 <= n < |a| && a[n] == k;
    assert n > 0;
  }

  /** Dropping the head of a listing lists the remaining keys. */
  lemma TailEnumerates(a: seq<string>, keys: set<string>)
    requires Enumerates(a, keys) && |a| > 0
    ensures Enumerates(a[1..], keys - {a[0]})
  {
    forall k | k in keys - {a[0]} ensures k in a[1..] {
      var n :| 0 <= n < |a| && a[n] == k;
      assert a[1..][n - 1] == k;
    }
  }

  /** Two ascending listings of the same keys are the same listing: the
      sorted wrapper text depends on the environment alone. */
  lemma {:induction false} AscendingUnique(a: seq<string>, b: seq<string>, keys: set<string>)
    requires Enumerates(a, keys) && Ascending(a)
    requires Enumerates(b, keys) && Ascending(b)
    ensures a == b
    decreases |a|
  {
    assert |a| == 0 <==> |b| == 0;
    if |a| > 0 {
      if a[0] != b[0] {
        HeadIsLeast(a, keys, b[0]);
        HeadIsLeast(b, keys, a[0]);
        Strings.LessEqAntisymmetric(a[0], b[0]);
      }
      TailEnumerates(a, keys);
      TailEnumerates(b, keys);
      AscendingUnique(a[1..], b[1..], keys - {a[0]});
      assert a == [a[0]] + a[1..] && b == [b[0]] + b[1..];
    }
  }
}

=== FILE: strings.dfy ===
/** String helpers from Go's `strings` package and the byte-wise string order
    used by `sort.Strings`. */
module Strings {

  predicate HasPrefix(s: string, prefix: string) {
    |prefix| <= |s| && s[..|prefix|] == prefix
  }

  /** `strings.TrimPrefix`: drops `prefix` once if `s` starts with it. */
  function TrimPrefix(s: string, prefix: string): (r: string)
    ensures HasPrefix(s, prefix) ==> prefix + r == s
    ensures !HasPrefix(s, prefix) ==> r == s
  {
    if HasPrefix(s, prefix) then s[|prefix|..] else s
  }

  /** `pat` occurs somewhere in `s`. */
  predicate Occurs(s: string, pat: string)
    decreases |s|
  {
    HasPrefix(s, pat) || (|s| > 0 && Occurs(s[1..], pat))
  }

  /** `strings.ReplaceAll`: replaces the leftmost non-overlapping occurrences of
      `pat`, scanning left to right. */
  function ReplaceAll(s: string, pat: string, rep: string): (r: string)
    requires |pat| > 0
    ensures !Occurs(s, pat) ==> r == s
    decreases |s|
  {
    if |s| < |pat| then s
    else if s[..|pat|] == pat then rep + ReplaceAll(s[|pat|..], pat, rep)
    else [s[0]] + ReplaceAll(s[1..], pat, rep)
  }

  /** Replacing a pattern by itself is the identity. */
  lemma {:induction false} ReplaceAllSelf(s: string, pat: string)
    requires |pat| > 0
    ensures ReplaceAll(s, pat, pat) == s
    decreases |s|
  {
    if |s| >= |pat| {
      if s[..|pat|] == pat {
        ReplaceAllSelf(s[|pat|..], pat);
        assert s == s[..|pat|] + s[|pat|..];
      } else {
        ReplaceAllSelf(s[1..], pat);
        assert s == [s[0]] + s[1..];
      }
    }
  }

  /** The scan replaces the first occurrence of `pat` and carries on after
      it: when `a` and the start of `pat` hold no occurrence (so `pat` first
      appears right after `a`), the text before it is kept and the text after
      it is scanned afresh. With the pattern-free case of `ReplaceAll` this
      determines the result for every input. */
  lemma {:induction false} ReplaceFirst(a: string, pat: string, b: string, rep: string)
    requires |pat| > 0 && !Occurs(a + pat[..|pat| - 1], pat)
    ensures ReplaceAll(a + pat + b, pat, rep) == a + rep + ReplaceAll(b, pat, rep)
    decreases |a|
  {
    var s := a + pat + b;
    if |a| == 0 {
      assert s == pat + b;
      assert s[..|pat|] == pat && s[|pat|..] == b;
    } else {
      var h := a + pat[..|pat| - 1];
      assert s[..|pat|] != pat by {
        assert s[..|pat|] == h[..|pat|];
      }
      assert !Occurs(a[1..] + pat[..|pat| - 1], pat) by {
        assert h[1..] == a[1..] + pat[..|pat| - 1];
      }
      assert s[1..] == a[1..] + pat + b;
      calc {
        ReplaceAll(s, pat, rep);
        [s[0]] + ReplaceAll(a[1..] + pat + b, pat, rep);
        { ReplaceFirst(a[1..], pat, b, rep); }
        [a[0]] + (a[1..] + rep + ReplaceAll(b, pat, rep));
        { assert a == [a[0]] + a[1..]; }
        a + rep + ReplaceAll(b, pat, rep);
      }
    }
  }

  /** Concatenation of a sequence of strings, with no separator. */
  function Concat(lines: seq<string>): string
    decreases |lines|
  {
    if |lines| == 0 then "" else lines[0] + Concat(lines[1..])
  }

  lemma {:induction false} ConcatAppend(a: seq<string>, b: seq<string>)
    ensures Concat(a + b) == Concat(a) + Concat(b)
    decreases |a|
  {
    if |a| > 0 {
      assert (a + b)[1..] == a[1..] + b;
      ConcatAppend(a[1..], b);
    } else {
      assert a + b == b;
    }
  }

  /** Lexicographic order on code points, as Go compares strings byte-wise
      (UTF-8 preserves code-point order). */
  predicate LessEq(a: string, b: string)
    decreases |a|
  {
    |a| == 0 || (|b| > 0 && (a[0] < b[0] || (a[0] == b[0] && LessEq(a[1..], b[1..]))))
  }

  lemma {:induction false} LessEqTotal(a: string, b: string)
    ensures LessEq(a, b) || LessEq(b, a)
    decreases |a|
  {
    if |a| > 0 && |b| > 0 && a[0] == b[0] {
      LessEqTotal(a[1..], b[1..]);
    }
  }

  lemma {:induction false} LessEqAntisymmetric(a: string, b: string)
    requires LessEq(a, b) && LessEq(b, a)
    ensures a == b
    decreases |a|
  {
    if |a| > 0 {
      LessEqAntisymmetric(a[1..], b[1..]);
      assert a == [a[0]] + a[1..] && b == [b[0]] + b[1..];
    }
  }

  lemma {:induction false} LessEqTransitive(a: string, b: string, c: string)
    requires LessEq(a, b) && LessEq(b, c)
    ensures LessEq(a, c)
    decreases |a|
  {
    if |a| > 0 && a[0] == b[0] && b[0] == c[0] {
      LessEqTransitive(a[1..], b[1..], c[1..]);
    }
  }
}

=== FILE: toml_tree.dfy ===
/**
 A nested key/value document (the in-memory form of a TOML or JSON file) with
 the path operations the configuration engines use: GetPath, SetPath,
 DeletePath and the bottom-up pruning of empty tables.
 */
module TomlTree {
  import opened Wrappers

  /** A document value. Floats and date-times are not modelled. */
  datatype Value =
    | Str(s: string)
    | Bool(b: bool)
    | Int(i: int)
    | Arr(items: seq<Value>)
    | Table(t: map<string, Value>)

  type Tree = map<string, Value>
  type Path = seq<string>

  const Empty: Value := Table(map[])

  /** `p` is a (not necessarily proper) prefix of `q`. */
  predicate IsPrefix(p: Path, q: Path) {
    |p| <= |q| && q[..|p|] == p
  }

  /** The two paths part ways: at some index both have keys, and they differ. */
  predicate Diverge(p: Path, q: Path)
    decreases |p|
  {
    |p| > 0 && |q| > 0 && (p[0] != q[0] || Diverge(p[1..], q[1..]))
  }

  /** The value at a path; the empty path denotes the whole tree. A missing key
      or a non-table on the way is "absent", never an error. */
  function GetPath(t: Tree, p: Path): Option<Value>
    decreases |p|
  {
    if |p| == 0 then Some(Table(t))
    else if p[0] !in t then None
    else if |p| == 1 then Some(t[p[0]])
    else match t[p[0]]
      case Table(sub) => GetPath(sub, p[1..])
      case _ => None
  }

  /** Every table on the way to `p` that already exists is a table, so that
      SetPath can walk (and create) the intermediate tables. */
  predicate Writable(t: Tree, p: Path)
    decreases |p|
  {
    |p| <= 1 || p[0] !in t || (t[p[0]].Table? && Writable(t[p[0]].t, p[1..]))
  }

  /** Sets the value at `p`, creating missing intermediate tables. As in
      go-toml, an existing non-table value on the way is stepped over: the
      remaining keys are written into the table that holds it. */
  function SetPath(t: Tree, p: Path, v: Value): Tree
    requires |p| > 0
    decreases |p|
  {
    if |p| == 1 then t[p[0] := v]
    else if p[0] !in t then t[p[0] := Table(SetPath(map[], p[1..], v))]
    else match t[p[0]]
      case Table(sub) => t[p[0] := Table(SetPath(sub, p[1..], v))]
      case _ => SetPath(t, p[1..], v)
  }

  /** Removes the key at `p` from its parent table; a no-op when the parent is
      not a table. */
  function DeletePath(t: Tree, p: Path): Tree
    requires |p| > 0
    decreases |p|
  {
    if |p| == 1 then t - {p[0]}
    else if p[0] in t && t[p[0]].Table? then t[p[0] := Table(DeletePath(t[p[0]].t, p[1..]))]
    else t
  }

  /** The table at `p`, or the empty table when there is none. */
  function SubTable(t: Tree, p: Path): Tree {
    match GetPath(t, p)
    case Some(Table(m)) => m
    case _ => map[]
  }

  /** One step of the pruning loop: delete the table at `p` if it has no keys. */
  function PruneAt(t: Tree, p: Path): Tree
    requires |p| > 0
  {
    if GetPath(t, p) == Some(Empty) then DeletePath(t, p) else t
  }

  /** Prunes empty tables along `p`, from the deepest prefix to the shortest. */
  function PruneUp(t: Tree, p: Path): Tree
    decreases |p|
  {
    if |p| == 0 then t else PruneUp(PruneAt(t, p), p[..|p|-1])
  }

  /** `p` holds a table. */
  predicate IsTableAt(t: Tree, p: Path) {
    GetPath(t, p).Some? && GetPath(t, p).value.Table?
  }

  /** `p` can hold a table: everything on the way to it, and `p` itself, is a
      table or absent. */
  predicate Open(t: Tree, p: Path) {
    Writable(t, p) && (GetPath(t, p).None? || GetPath(t, p).value.Table?)
  }

  /** The tree with an empty table created at `p` when nothing is there: the
      trace a write below `p` leaves once the written key is deleted again. */
  function Ensure(t: Tree, p: Path): Tree {
    if |p| == 0 || GetPath(t, p).Some? then t else SetPath(t, p, Empty)
  }

  /** No non-empty prefix of `p` holds an empty table. */
  predicate NoEmptyOnPath(t: Tree, p: Path) {
    forall k :: 1 <= k <= |p| ==> GetPath(t, p[..k]) != Some(Empty)
  }

  // ---------------------------------------------------------------------------
  // Path algebra
  // ---------------------------------------------------------------------------

  lemma {:induction false} Trichotomy(p: Path, q: Path)
    ensures Diverge(p, q) || IsPrefix(p, q) || IsPrefix(q, p)
    decreases |p|
  {
    if |p| > 0 && |q| > 0 && p[0] == q[0] {
      Trichotomy(p[1..], q[1..]);
      if IsPrefix(p[1..], q[1..]) {
        assert q[..|p|] == [q[0]] + q[1..][..|p|-1];
        assert p == [p[0]] + p[1..];
      } else if IsPrefix(q[1..], p[1..]) {
        assert p[..|q|] == [p[0]] + p[1..][..|q|-1];
        assert q == [q[0]] + q[1..];
      }
    }
  }

  lemma PrefixTail(p: Path, q: Path)
    ensures |p| > 0 && IsPrefix(p, q) ==> IsPrefix(p[1..], q[1..])
  {
    if |p| > 0 && IsPrefix(p, q) {
      assert q[1..][..|p|-1] == q[..|p|][1..];
    }
  }

  lemma PrefixTrans(a: Path, b: Path, c: Path)
    ensures IsPrefix(a, b) && IsPrefix(b, c) ==> IsPrefix(a, c)
  {
    if IsPrefix(a, b) && IsPrefix(b, c) {
      assert c[..|a|] == c[..|b|][..|a|];
    }
  }

  lemma {:induction false} DivergeNotPrefix(p: Path, q: Path)
    requires Diverge(p, q)
    ensures !IsPrefix(p, q) && !IsPrefix(q, p)
    decreases |p|
  {
    if p[0] == q[0] {
      DivergeNotPrefix(p[1..], q[1..]);
      PrefixTail(p, q);
      PrefixTail(q, p);
    }
  }

  lemma DivergeSymmetric(p: Path, q: Path)
    requires Diverge(p, q)
    ensures Diverge(q, p)
    decreases |p|
  {
    if p[0] == q[0] {
      DivergeSymmetric(p[1..], q[1..]);
    }
  }

  // ---------------------------------------------------------------------------
  // Get after Set / Delete
  // ---------------------------------------------------------------------------

  lemma {:induction false} GetSetSame(t: Tree, p: Path, v: Value)
    requires |p| > 0 && Writable(t, p)
    ensures GetPath(SetPath(t, p, v), p) == Some(v)
    decreases |p|
  {
    if |p| > 1 {
      var sub := if p[0] in t then t[p[0]].t else map[];
      GetSetSame(sub, p[1..], v);
    }
  }

  lemma {:induction false} GetSetOther(t: Tree, p: Path, v: Value, q: Path)
    requires |p| > 0 && Writable(t, p) && Diverge(p, q)
    ensures GetPath(SetPath(t, p, v), q) == GetPath(t, q)
    decreases |p|
  {
    if p[0] == q[0] {
      var sub := if p[0] in t then t[p[0]].t else map[];
      if |q| > 1 {
        GetSetOther(sub, p[1..], v, q[1..]);
      }
    }
  }

  lemma {:induction false} GetDeleteSame(t: Tree, p: Path)
    requires |p| > 0
    ensures GetPath(DeletePath(t, p), p) == None
    decreases |p|
  {
    if |p| > 1 && p[0] in t && t[p[0]].Table? {
      GetDeleteSame(t[p[0]].t, p[1..]);
    }
  }

  lemma {:induction false} GetDeleteOther(t: Tree, p: Path, q: Path)
    requires |p| > 0 && Diverge(p, q)
    ensures GetPath(DeletePath(t, p), q) == GetPath(t, q)
    decreases |p|
  {
    if p[0] == q[0] && |p| > 1 && p[0] in t && t[p[0]].Table? && |q| > 1 {
      GetDeleteOther(t[p[0]].t, p[1..], q[1..]);
    }
  }

  lemma {:induction false} GetDeleteBelow(t: Tree, p: Path, q: Path)
    requires |p| > 0 && IsPrefix(p, q)
    ensures GetPath(DeletePath(t, p), q) == None
    decreases |p|
  {
    if |p| > 1 && p[0] in t && t[p[0]].Table? {
      assert q[1..][..|p|-1] == q[..|p|][1..];
      GetDeleteBelow(t[p[0]].t, p[1..], q[1..]);
    } else if |p| > 1 && |q| > 1 && p[0] in t {
      assert q[0] == p[0];
    }
  }

  /** Below an empty table, or below a path that is absent, there is nothing. */
  lemma {:induction false} GetBelowEmpty(t: Tree, p: Path, q: Path)
    requires IsPrefix(p, q) && |p| < |q|
    requires GetPath(t, p) == Some(Empty) || GetPath(t, p) == None
    ensures GetPath(t, q) == None
    decreases |p|
  {
    if |p| > 0 && q[0] in t && t[q[0]].Table? {
      assert q[1..][..|p|-1] == q[..|p|][1..];
      GetBelowEmpty(t[q[0]].t, p[1..], q[1..]);
    }
  }

  /** Every proper prefix of a present path holds a table. */
  lemma {:induction false} GetPrefixIsTable(t: Tree, p: Path, q: Path)
    requires IsPrefix(p, q) && |p| < |q| && GetPath(t, q).Some?
    ensures GetPath(t, p).Some? && GetPath(t, p).value.Table?
  {
    if !(GetPath(t, p).Some? && GetPath(t, p).value.Table?) {
      if GetPath(t, p).None? {
        GetBelowEmpty(t, p, q);
      } else {
        NonTableBlocks(t, p, q);
      }
    }
  }

  lemma {:induction false} NonTableBlocks(t: Tree, p: Path, q: Path)
    requires IsPrefix(p, q) && |p| < |q|
    requires GetPath(t, p).Some? && !GetPath(t, p).value.Table?
    ensures GetPath(t, q) == None
    decreases |p|
  {
    if |p| > 0 {
      assert q[0] == p[0];
      if t[q[0]].Table? {
        assert q[1..][..|p|-1] == q[..|p|][1..];
        NonTableBlocks(t[q[0]].t, p[1..], q[1..]);
      }
    }
  }

  /** A path whose parent is present as a table is writable. */
  lemma {:induction false} WritableFromParent(t: Tree, p: Path)
    requires |p| > 0
    requires GetPath(t, p[..|p|-1]).Some? && GetPath(t, p[..|p|-1]).value.Table?
    ensures Writable(t, p)
    decreases |p|
  {
    if |p| > 1 {
      assert p[1..][..|p|-2] == p[..|p|-1][1..];
      WritableFromParent(t[p[0]].t, p[1..]);
    }
  }

  lemma {:induction false} WritablePrefix(t: Tree, p: Path, q: Path)
    requires Writable(t, q) && IsPrefix(p, q)
    ensures Writable(t, p)
    decreases |p|
  {
    if |p| > 1 && p[0] in t {
      assert q[1..][..|p|-1] == q[..|p|][1..];
      WritablePrefix(t[p[0]].t, p[1..], q[1..]);
    }
  }

  // ---------------------------------------------------------------------------
  // Set algebra
  // ---------------------------------------------------------------------------

  lemma {:induction false} WritableAfterSet(t: Tree, p: Path, v: Value)
    requires |p| > 0 && Writable(t, p)
    ensures Writable(SetPath(t, p, v), p)
    decreases |p|
  {
    if |p| > 1 {
      var sub := if p[0] in t then t[p[0]].t else map[];
      WritableAfterSet(sub, p[1..], v);
    }
  }

  /** Writing the value that is already there changes nothing. */
  lemma {:induction false} SetNoop(t: Tree, p: Path, v: Value)
    requires |p| > 0 && Writable(t, p) && GetPath(t, p) == Some(v)
    ensures SetPath(t, p, v) == t
    decreases |p|
  {
    if |p| > 1 {
      SetNoop(t[p[0]].t, p[1..], v);
    }
  }

  /** A second write to the same path overrides the first. */
  lemma {:induction false} SetSetSame(t: Tree, p: Path, v: Value, w: Value)
    requires |p| > 0 && Writable(t, p)
    ensures Writable(SetPath(t, p, v), p)
    ensures SetPath(SetPath(t, p, v), p, w) == SetPath(t, p, w)
    decreases |p|
  {
    WritableAfterSet(t, p, v);
    if |p| > 1 {
      var sub := if p[0] in t then t[p[0]].t else map[];
      SetSetSame(sub, p[1..], v, w);
      SetSetStep(t, p, v, w);
    }
  }

  /** The step of SetSetSame: an override one level down is an override. */
  lemma SetSetStep(t: Tree, p: Path, v: Value, w: Value)
    requires |p| > 1 && (p[0] !in t || t[p[0]].Table?)
    requires var sub := if p[0] in t then t[p[0]].t else map[];
             SetPath(SetPath(sub, p[1..], v), p[1..], w) == SetPath(sub, p[1..], w)
    ensures SetPath(SetPath(t, p, v), p, w) == SetPath(t, p, w)
  {
    SetCons(t, p, v);
    SetCons(SetPath(t, p, v), p, w);
    SetCons(t, p, w);
  }

  /** One step of SetPath down a key that is absent or a table. */
  lemma SetCons(t: Tree, p: Path, v: Value)
    requires |p| > 1 && (p[0] !in t || t[p[0]].Table?)
    ensures SetPath(t, p, v) == t[p[0] := Table(SetPath(if p[0] in t then t[p[0]].t else map[], p[1..], v))]
  {
  }

  /** One step of SubTable down a key that is absent or a table. */
  lemma SubTableCons(t: Tree, p: Path)
    requires |p| > 1 && (p[0] !in t || t[p[0]].Table?)
    ensures SubTable(t, p) == SubTable(if p[0] in t then t[p[0]].t else map[], p[1..])
  {
  }

  /** Writing below `p` is writing an updated table at `p`. */
  lemma {:induction false} SetSplit(t: Tree, p: Path, q: Path, v: Value)
    requires |p| > 0 && |q| > 0 && Writable(t, p + q)
    ensures Writable(t, p) && Writable(SubTable(t, p), q)
    ensures SetPath(t, p + q, v) == SetPath(t, p, Table(SetPath(SubTable(t, p), q, v)))
    decreases |p|
  {
    WritablePrefix(t, p, p + q);
    var pq := p + q;
    if |p| == 1 {
      assert pq[0] == p[0] && pq[1..] == q;
      SetCons(t, pq, v);
    } else {
      assert pq[0] == p[0] && pq[1..] == p[1..] + q;
      var sub := if p[0] in t then t[p[0]].t else map[];
      SetSplit(sub, p[1..], q, v);
      SubTableCons(t, p);
      SetCons(t, pq, v);
      SetCons(t, p, Table(SetPath(SubTable(t, p), q, v)));
    }
  }

  // ---------------------------------------------------------------------------
  // Pruning
  // ---------------------------------------------------------------------------

  /** Pruning only touches the prefixes of the pruned path. */
  lemma {:induction false} PruneAtFrame(t: Tree, p: Path, q: Path)
    requires |p| > 0 && |q| > 0 && !IsPrefix(q, p)
    ensures GetPath(PruneAt(t, p), q) == GetPath(t, q)
  {
    if GetPath(t, p) == Some(Empty) {
      Trichotomy(p, q);
      if Diverge(p, q) {
        GetDeleteOther(t, p, q);
      } else {
        GetDeleteBelow(t, p, q);
        GetBelowEmpty(t, p, q);
      }
    }
  }

  lemma {:induction false} PruneUpFrame(t: Tree, p: Path, q: Path)
    requires |q| > 0 && !IsPrefix(q, p)
    ensures GetPath(PruneUp(t, p), q) == GetPath(t, q)
    decreases |p|
  {
    if |p| > 0 {
      PruneAtFrame(t, p, q);
      var p' := p[..|p|-1];
      PrefixTrans(q, p', p);
      PruneUpFrame(PruneAt(t, p), p', q);
    }
  }

  lemma {:induction false} PruneUpNoEmpty(t: Tree, p: Path)
    ensures NoEmptyOnPath(PruneUp(t, p), p)
    decreases |p|
  {
    if |p| > 0 {
      var t' := PruneAt(t, p);
      var p' := p[..|p|-1];
      PruneUpNoEmpty(t', p');
      var r := PruneUp(t', p');
      assert GetPath(t', p) != Some(Empty) by {
        if GetPath(t, p) == Some(Empty) { GetDeleteSame(t, p); }
      }
      assert !IsPrefix(p, p');
      PruneUpFrame(t', p', p);
      forall k | 1 <= k <= |p|
        ensures GetPath(r, p[..k]) != Some(Empty)
      {
        if k < |p| {
          assert p[..k] == p'[..k];
        } else {
          assert p[..k] == p;
        }
      }
    }
  }

  /** Pruning a path with no empty table on it changes nothing. */
  lemma {:induction false} PruneUpNoop(t: Tree, p: Path)
    requires NoEmptyOnPath(t, p)
    ensures PruneUp(t, p) == t
    decreases |p|
  {
    if |p| > 0 {
      assert p[..|p|] == p;
      var p' := p[..|p|-1];
      assert NoEmptyOnPath(t, p') by {
        forall k | 1 <= k <= |p'| ensures GetPath(t, p'[..k]) != Some(Empty) {
          assert p'[..k] == p[..k];
        }
      }
      PruneUpNoop(t, p');
    }
  }

  // ---------------------------------------------------------------------------
  // Delete after Set, and pruning what a write leaves behind
  // ---------------------------------------------------------------------------

  /** Deleting what is not there changes nothing. */
  lemma {:induction false} DeleteAbsent(t: Tree, p: Path)
    requires |p| > 0 && GetPath(t, p) == None
    ensures DeletePath(t, p) == t
    decreases |p|
  {
    if |p| > 1 && p[0] in t && t[p[0]].Table? {
      DeleteAbsent(t[p[0]].t, p[1..]);
    }
  }

  /** One step of DeletePath down a key that holds a table. */
  lemma DeleteCons(t: Tree, p: Path)
    requires |p| > 1 && p[0] in t && t[p[0]].Table?
    ensures DeletePath(t, p) == t[p[0] := Table(DeletePath(t[p[0]].t, p[1..]))]
  {
  }

  lemma EnsureCons(t: Tree, k: string, q: Path)
    ensures k in t && t[k].Table? ==> Ensure(t, [k] + q) == t[k := Table(Ensure(t[k].t, q))]
    ensures k !in t ==> Ensure(t, [k] + q) == t[k := Table(Ensure(map[], q))]
  {
    var p := [k] + q;
    assert p[0] == k && p[1..] == q;
  }

  /** Writing at an absent path and deleting it again leaves only the tables
      the write created on the way. */
  lemma {:induction false} DeleteAfterSet(t: Tree, p: Path, v: Value)
    requires |p| > 0 && Writable(t, p) && GetPath(t, p) == None
    ensures DeletePath(SetPath(t, p, v), p) == Ensure(t, p[..|p|-1])
    decreases |p|
  {
    var k := p[0];
    if |p| == 1 {
      assert DeletePath(SetPath(t, p, v), p) == t;
    } else {
      var q := p[1..];
      assert p[..|p|-1] == [k] + q[..|q|-1];
      var sub := if k in t then t[k].t else map[];
      DeleteAfterSet(sub, q, v);
      DeleteAfterSetStep(t, p, v);
    }
  }

  /** The step of DeleteAfterSet, one level down. */
  lemma DeleteAfterSetStep(t: Tree, p: Path, v: Value)
    requires |p| > 1 && (p[0] !in t || t[p[0]].Table?)
    requires var sub := if p[0] in t then t[p[0]].t else map[];
             DeletePath(SetPath(sub, p[1..], v), p[1..]) == Ensure(sub, p[1..][..|p|-2])
    ensures DeletePath(SetPath(t, p, v), p) == Ensure(t, p[..|p|-1])
  {
    var q := p[1..];
    assert p[..|p|-1] == [p[0]] + q[..|q|-1];
    SetCons(t, p, v);
    DeleteCons(SetPath(t, p, v), p);
    EnsureCons(t, p[0], q[..|q|-1]);
  }

  /** Pruning up a path removes exactly the empty tables `Ensure` created. */
  lemma {:induction false} PruneEnsure(t: Tree, p: Path, k: string)
    requires NoEmptyOnPath(t, p) && Writable(t, p + [k])
    ensures PruneUp(Ensure(t, p), p) == t
    decreases |p|
  {
    if |p| == 0 {
    } else if GetPath(t, p).Some? {
      PruneUpNoop(t, p);
    } else {
      WritablePrefix(t, p, p + [k]);
      var p' := p[..|p|-1];
      var e := SetPath(t, p, Empty);
      GetSetSame(t, p, Empty);
      DeleteAfterSet(t, p, Empty);
      assert PruneAt(e, p) == Ensure(t, p');
      assert NoEmptyOnPath(t, p') by {
        forall i | 1 <= i <= |p'| ensures GetPath(t, p'[..i]) != Some(Empty) {
          assert p'[..i] == p[..i];
        }
      }
      assert p' + [p[|p|-1]] == p;
      PruneEnsure(t, p', p[|p|-1]);
    }
  }

  // ---------------------------------------------------------------------------
  // Writes below a table
  // ---------------------------------------------------------------------------

  /** Writing below an open path is rewriting the table at that path. */
  lemma {:induction false} SetBelow(t: Tree, p: Path, q: Path, v: Value)
    requires |p| > 0 && |q| > 0 && Open(t, p)
    ensures SetPath(t, p + q, v) == SetPath(t, p, Table(SetPath(SubTable(t, p), q, v)))
    decreases |p|
  {
    var k := p[0];
    var pq := p + q;
    if |p| == 1 {
      assert pq[0] == k && pq[1..] == q;
      SetCons(t, pq, v);
    } else {
      assert pq[0] == k && pq[1..] == p[1..] + q;
      var sub := if k in t then t[k].t else map[];
      SetBelow(sub, p[1..], q, v);
      SubTableCons(t, p);
      SetCons(t, pq, v);
      SetCons(t, p, Table(SetPath(SubTable(t, p), q, v)));
    }
  }

  /** A write below a table just written is folded into that table. */
  lemma SetThenBelow(t: Tree, p: Path, m: Tree, q: Path, v: Value)
    requires |p| > 0 && |q| > 0 && Writable(t, p)
    ensures SetPath(SetPath(t, p, Table(m)), p + q, v) == SetPath(t, p, Table(SetPath(m, q, v)))
  {
    var t1 := SetPath(t, p, Table(m));
    WritableAfterSet(t, p, Table(m));
    GetSetSame(t, p, Table(m));
    SetBelow(t1, p, q, v);
    SetSetSame(t, p, Table(m), Table(SetPath(m, q, v)));
  }

  /** Open paths stay open under prefixes. */
  lemma {:induction false} OpenPrefix(t: Tree, p: Path, q: Path)
    requires Writable(t, q) && IsPrefix(p, q) && |p| < |q|
    ensures Open(t, p)
    decreases |p|
  {
    WritablePrefix(t, p, q);
    if |p| > 0 && p[0] in t {
      assert q[1..][..|p|-1] == q[..|p|][1..];
      OpenPrefix(t[p[0]].t, p[1..], q[1..]);
    }
  }

  /** A change to one top-level key leaves every path under another key alone. */
  lemma TopKeyFrame(t: Tree, k: string, v: Value, p: Path)
    requires |p| > 0 && p[0] != k
    ensures GetPath(t[k := v], p) == GetPath(t, p)
    ensures Writable(t[k := v], p) == Writable(t, p)
    ensures DeletePath(t[k := v], p) == DeletePath(t, p)[k := v]
  {
  }

  lemma TopKeySet(t: Tree, k: string, v: Value, p: Path, w: Value)
    requires |p| > 0 && p[0] != k && Writable(t, p)
    ensures SetPath(t[k := v], p, w) == SetPath(t, p, w)[k := v]
  {
  }

  /** Paths that agree on their first `i` keys and differ at key `i` diverge. */
  lemma {:induction false} DivergeAt(p: Path, q: Path, i: nat)
    requires i < |p| && i < |q| && p[..i] == q[..i] && p[i] != q[i]
    ensures Diverge(p, q)
    decreases i
  {
    if i > 0 {
      assert p[1..][..i-1] == p[..i][1..];
      assert q[1..][..i-1] == q[..i][1..];
      DivergeAt(p[1..], q[1..], i - 1);
    }
  }

  /** Reading below a table is reading inside it. */
  lemma {:induction false} GetAppend(t: Tree, p: Path, q: Path, m: Tree)
    requires GetPath(t, p) == Some(Table(m))
    ensures GetPath(t, p + q) == GetPath(m, q)
    decreases |p|
  {
    if |p| == 0 {
      assert p + q == q;
    } else if |q| > 0 {
      assert (p + q)[0] == p[0] && (p + q)[1..] == p[1..] + q;
      if |p| > 1 {
        GetAppend(t[p[0]].t, p[1..], q, m);
      }
    } else {
      assert p + q == p;
    }
  }

  /** A two-key write touches only its two keys at the top level. */
  lemma SetPairKeys(m: Tree, a: string, b: string, v: Value)
    requires a != b
    ensures forall k :: k != a && k != b ==> (k in SetPath(m, [a, b], v) <==> k in m)
    ensures forall k :: k != a && k != b && k in m ==> SetPath(m, [a, b], v)[k] == m[k]
  {
    var p := [a, b];
    assert p[0] == a && p[1..] == [b];
  }

  /** Repeating a two-key write changes nothing (also when `a` holds a
      non-table and the write lands beside it). */
  lemma SetPairTwice(m: Tree, a: string, b: string, v: Value)
    requires a != b
    ensures SetPath(SetPath(m, [a, b], v), [a, b], v) == SetPath(m, [a, b], v)
  {
    var p := [a, b];
    assert p[0] == a && p[1..] == [b];
    var m1 := SetPath(m, p, v);
    if a in m && !m[a].Table? {
      assert [b][0] == b;
      assert SetPath(m, p, v) == SetPath(m, [b], v) == m[b := v];
      assert m1[a] == m[a];
      assert SetPath(m1, p, v) == SetPath(m1, [b], v) == m1[b := v];
      assert m1[b := v] == m1;
    } else {
      var sub := if a in m then m[a].t else map[];
      assert SetPath(sub, [b], v) == sub[b := v];
      assert m1 == m[a := Table(sub[b := v])];
      assert SetPath(m1, p, v) == m1[a := Table(sub[b := v][b := v])];
      assert sub[b := v][b := v] == sub[b := v];
    }
  }

  // ---------------------------------------------------------------------------
  // Deletes next to writes, and what deletes leave behind
  // ---------------------------------------------------------------------------

  /** A value that is there sits behind tables only. */
  lemma {:induction false} GetSomeWritable(t: Tree, p: Path)
    requires GetPath(t, p).Some?
    ensures Writable(t, p)
    decreases |p|
  {
    if |p| > 1 {
      GetSomeWritable(t[p[0]].t, p[1..]);
    }
  }

  /** Deleting from the empty table gives the empty table. */
  lemma {:induction false} DeleteFromEmpty(p: Path)
    requires |p| > 0
    ensures DeletePath(map[], p) == map[]
  {
    if |p| == 1 {
      var e: Tree := map[];
      assert e - {p[0]} == e;
    }
  }

  /** A delete under one top-level key leaves the other keys alone. */
  lemma DeleteOtherKey(t: Tree, q: Path, k: string)
    requires |q| > 0 && q[0] != k
    ensures k in DeletePath(t, q) <==> k in t
    ensures k in t ==> DeletePath(t, q)[k] == t[k]
  {
  }

  /** A write under the top-level key `p[0]` commutes with a delete under
      another top-level key. */
  lemma DeleteSetOtherTop(t: Tree, p: Path, v: Value, q: Path)
    requires |p| > 0 && |q| > 0 && Writable(t, p) && q[0] != p[0]
    ensures DeletePath(SetPath(t, p, v), q) == SetPath(DeletePath(t, q), p, v)
  {
    var k := p[0];
    var d := DeletePath(t, q);
    DeleteOtherKey(t, q, k);
    var w := if |p| == 1 then v else Table(SetPath(if k in t then t[k].t else map[], p[1..], v));
    assert SetPath(t, p, v) == t[k := w];
    assert SetPath(d, p, v) == d[k := w];
    TopKeyFrame(t, k, w, q);
  }

  /** A delete off the written path commutes with the write. */
  lemma {:induction false} DeleteSetOther(t: Tree, p: Path, v: Value, q: Path)
    requires |p| > 0 && |q| > 0 && Writable(t, p) && Diverge(p, q)
    ensures DeletePath(SetPath(t, p, v), q) == SetPath(DeletePath(t, q), p, v)
    decreases |p|
  {
    var k := p[0];
    if q[0] != k {
      DeleteSetOtherTop(t, p, v, q);
    } else {
      assert |p| > 1 && |q| > 1 && Diverge(p[1..], q[1..]);
      var sub := if k in t then t[k].t else map[];
      DeleteSetOther(sub, p[1..], v, q[1..]);
      if k !in t {
        DeleteFromEmpty(q[1..]);
      }
    }
  }

  /** Deleting below a table just written is deleting inside it. */
  lemma {:induction false} DeleteBelowSet(t: Tree, p: Path, m: Tree, q: Path)
    requires |p| > 0 && |q| > 0 && Writable(t, p)
    ensures DeletePath(SetPath(t, p, Table(m)), p + q) == SetPath(t, p, Table(DeletePath(m, q)))
    decreases |p|
  {
    var k := p[0];
    var pq := p + q;
    assert pq[0] == k && pq[1..] == p[1..] + q;
    if |p| > 1 {
      var sub := if k in t then t[k].t else map[];
      DeleteBelowSet(sub, p[1..], m, q);
      SetCons(t, p, Table(m));
      SetCons(t, p, Table(DeletePath(m, q)));
      DeleteCons(SetPath(t, p, Table(m)), pq);
    } else {
      assert p[1..] + q == q;
      DeleteCons(t[k := Table(m)], pq);
    }
  }

  /** Deletes at diverging paths commute. */
  lemma {:induction false} DeleteDeleteOther(t: Tree, a: Path, b: Path)
    requires |a| > 0 && |b| > 0 && Diverge(a, b)
    ensures DeletePath(DeletePath(t, a), b) == DeletePath(DeletePath(t, b), a)
    decreases |a|
  {
    if a[0] == b[0] {
      assert |a| > 1 && |b| > 1 && Diverge(a[1..], b[1..]);
      if a[0] in t && t[a[0]].Table? {
        DeleteDeleteOther(t[a[0]].t, a[1..], b[1..]);
      }
    }
  }

  /** A delete leaves every path that is not a proper prefix of the deleted
      one either as it was or absent. */
  lemma DeleteShrinks(t: Tree, p: Path, q: Path)
    requires |p| > 0 && |q| > 0 && (!IsPrefix(q, p) || |q| == |p|)
    ensures GetPath(DeletePath(t, p), q) == None || GetPath(DeletePath(t, p), q) == GetPath(t, q)
  {
    Trichotomy(p, q);
    if Diverge(p, q) {
      GetDeleteOther(t, p, q);
    } else {
      assert IsPrefix(p, q);
      GetDeleteBelow(t, p, q);
    }
  }

  /** Pruning a path, likewise, leaves the path itself and everything that is
      not a prefix of it as it was or absent. */
  lemma {:induction false} PruneUpShrinks(t: Tree, p: Path, q: Path)
    requires |q| > 0 && (!IsPrefix(q, p) || |q| == |p|)
    ensures GetPath(PruneUp(t, p), q) == None || GetPath(PruneUp(t, p), q) == GetPath(t, q)
    decreases |p|
  {
    if |p| > 0 {
      var t' := PruneAt(t, p);
      if GetPath(t, p) == Some(Empty) {
        DeleteShrinks(t, p, q);
      }
      var p' := p[..|p|-1];
      if IsPrefix(q, p) {
        assert q == p;
        assert IsPrefix(p', q);
        PruneUpAbsentBelow(t', p', q);
      } else {
        PrefixTrans(q, p', p);
        PruneUpFrame(t', p', q);
      }
    }
  }

  /** Once pruning deletes a prefix of `q`, `q` is gone; otherwise it is as it was. */
  lemma {:induction false} PruneUpAbsentBelow(t: Tree, p: Path, q: Path)
    requires |q| > |p| && IsPrefix(p, q)
    ensures GetPath(PruneUp(t, p), q) == None || GetPath(PruneUp(t, p), q) == GetPath(t, q)
    decreases |p|
  {
    if |p| > 0 {
      var t' := PruneAt(t, p);
      if GetPath(t, p) == Some(Empty) {
        GetDeleteBelow(t, p, q);
      }
      var p' := p[..|p|-1];
      PrefixTrans(p', p, q);
      PruneUpAbsentBelow(t', p', q);
      if GetPath(t', q) == None {
        PruneUpKeepsAbsent(t', p', q);
      }
    }
  }

  /** Pruning never makes anything appear. */
  lemma {:induction false} PruneUpKeepsAbsent(t: Tree, p: Path, q: Path)
    requires |q| > 0 && GetPath(t, q) == None
    ensures GetPath(PruneUp(t, p), q) == None
    decreases |p|
  {
    if |p| > 0 {
      var t' := PruneAt(t, p);
      assert GetPath(t', q) == None by {
        if GetPath(t, p) == Some(Empty) {
          DeleteKeepsAbsent(t, p, q);
        }
      }
      PruneUpKeepsAbsent(t', p[..|p|-1], q);
    }
  }

  /** Deleting never makes anything appear. */
  lemma {:induction false} DeleteKeepsAbsent(t: Tree, p: Path, q: Path)
    requires |p| > 0 && |q| > 0 && GetPath(t, q) == None
    ensures GetPath(DeletePath(t, p), q) == None
    decreases |p|
  {
    if |p| > 1 && p[0] in t && t[p[0]].Table? && q[0] == p[0] && |q| > 1 {
      DeleteKeepsAbsent(t[p[0]].t, p[1..], q[1..]);
    }
  }

  /** A path that parts ways with `p` parts ways with everything below `p`. */
  lemma {:induction false} DivergeBelow(q: Path, p: Path, r: Path)
    requires Diverge(q, p) && IsPrefix(p, r)
    ensures Diverge(q, r)
    decreases |q|
  {
    if q[0] == p[0] {
      assert r[1..][..|p|-1] == p[1..];
      DivergeBelow(q[1..], p[1..], r[1..]);
    }
  }

  /** After Ensure there is something at `p`, and nothing off `p` changed. */
  lemma EnsureFacts(t: Tree, p: Path)
    requires |p| > 0 && Writable(t, p)
    ensures GetPath(Ensure(t, p), p).Some?
    ensures forall q :: Diverge(p, q) ==> GetPath(Ensure(t, p), q) == GetPath(t, q)
  {
    if GetPath(t, p).None? {
      GetSetSame(t, p, Empty);
      forall q | Diverge(p, q) ensures GetPath(SetPath(t, p, Empty), q) == GetPath(t, q) {
        GetSetOther(t, p, Empty, q);
      }
    }
  }

  /** The new value of the top-level key a write at `p` goes through. */
  function Written(t: Tree, p: Path, v: Value): Value
    requires |p| > 0
  {
    if |p| == 1 then v
    else Table(SetPath(if p[0] in t && t[p[0]].Table? then t[p[0]].t else map[], p[1..], v))
  }

  /** A write along a writable path changes one top-level key. */
  lemma SetTop(t: Tree, p: Path, v: Value)
    requires |p| > 0 && Writable(t, p)
    ensures SetPath(t, p, v) == t[p[0] := Written(t, p, v)]
  {
  }

  /** What a write does to its top-level key ignores the other keys. */
  lemma WrittenOtherKey(t: Tree, p: Path, v: Value, k: string, w: Value)
    requires |p| > 0 && p[0] != k
    ensures Written(t[k := w], p, v) == Written(t, p, v)
  {
    assert (p[0] in t[k := w]) == (p[0] in t);
    if p[0] in t {
      assert t[k := w][p[0]] == t[p[0]];
    }
  }

  /** Writes under different top-level keys commute. */
  lemma SetSetOtherTop(t: Tree, a: Path, x: Value, b: Path, y: Value)
    requires |a| > 0 && |b| > 0 && Writable(t, a) && Writable(t, b) && a[0] != b[0]
    ensures SetPath(SetPath(t, a, x), b, y) == SetPath(SetPath(t, b, y), a, x)
  {
    var wa, wb := Written(t, a, x), Written(t, b, y);
    SetTop(t, a, x);
    SetTop(t, b, y);
    TopKeyFrame(t, a[0], wa, b);
    TopKeyFrame(t, b[0], wb, a);
    SetTop(t[a[0] := wa], b, y);
    SetTop(t[b[0] := wb], a, x);
    WrittenOtherKey(t, b, y, a[0], wa);
    WrittenOtherKey(t, a, x, b[0], wb);
    assert t[a[0] := wa][b[0] := wb] == t[b[0] := wb][a[0] := wa];
  }

  /** A write below a top-level table rewrites that table. */
  lemma SetUnder(t: Tree, p: Path, v: Value, sub: Tree)
    requires |p| > 1 && (p[0] in t ==> t[p[0]].Table?)
    requires sub == if p[0] in t then t[p[0]].t else map[]
    ensures SetPath(t, p, v) == t[p[0] := Table(SetPath(sub, p[1..], v))]
  {
  }

  /** Writes at diverging paths commute. */
  lemma {:induction false} SetSetOther(t: Tree, a: Path, x: Value, b: Path, y: Value)
    requires |a| > 0 && |b| > 0 && Writable(t, a) && Writable(t, b) && Diverge(a, b)
    ensures SetPath(SetPath(t, a, x), b, y) == SetPath(SetPath(t, b, y), a, x)
    decreases |a|, 1
  {
    if b[0] == a[0] {
      SetSetOtherBelow(t, a, x, b, y);
    } else {
      SetSetOtherTop(t, a, x, b, y);
    }
  }

  /** Diverging writes under the same top-level key: commute inside it. */
  lemma {:induction false} SetSetOtherBelow(t: Tree, a: Path, x: Value, b: Path, y: Value)
    requires |a| > 0 && |b| > 0 && Writable(t, a) && Writable(t, b) && Diverge(a, b) && a[0] == b[0]
    ensures SetPath(SetPath(t, a, x), b, y) == SetPath(SetPath(t, b, y), a, x)
    decreases |a|, 0
  {
    assert |a| > 1 && |b| > 1 && Diverge(a[1..], b[1..]);
    var k := a[0];
    var sub := if k in t then t[k].t else map[];
    var sa, sb := SetPath(sub, a[1..], x), SetPath(sub, b[1..], y);
    SetUnder(t, a, x, sub);
    SetUnder(t, b, y, sub);
    SetUnder(t[k := Table(sa)], b, y, sa);
    SetUnder(t[k := Table(sb)], a, x, sb);
    SetSetOther(sub, a[1..], x, b[1..], y);
  }

  /** A write along a writable path keeps every diverging writable path
      writable. */
  lemma {:induction false} WritableSetOther(t: Tree, p: Path, v: Value, q: Path)
    requires |p| > 0 && Writable(t, p) && Writable(t, q) && Diverge(p, q)
    ensures Writable(SetPath(t, p, v), q)
    decreases |p|
  {
    if p[0] == q[0] {
      var sub := if p[0] in t then t[p[0]].t else map[];
      SetUnder(t, p, v, sub);
      WritableSetOther(sub, p[1..], v, q[1..]);
    } else {
      SetTop(t, p, v);
      TopKeyFrame(t, p[0], Written(t, p, v), q);
    }
  }

  /** A path that branches off a writable path no deeper than its last key
      is writable. */
  lemma {:induction false} WritableBranch(t: Tree, p: Path, q: Path)
    requires Writable(t, p) && 0 < |q| <= |p| && q[..|q|-1] == p[..|q|-1]
    ensures Writable(t, q)
    decreases |q|
  {
    if |q| > 1 {
      assert q[0] == p[0];
      if p[0] in t {
        assert q[1..][..|q|-2] == q[..|q|-1][1..];
        assert p[1..][..|q|-2] == p[..|q|-1][1..];
        WritableBranch(t[p[0]].t, p[1..], q[1..]);
      }
    }
  }

  /** A proper prefix of a present path holds a non-empty table. */
  lemma GetPrefixNonEmpty(t: Tree, p: Path, q: Path)
    requires IsPrefix(p, q) && |p| < |q| && GetPath(t, q).Some?
    ensures GetPath(t, p) != Some(Empty)
  {
    GetPrefixIsTable(t, p, q);
    var m := GetPath(t, p).value.t;
    var rest := q[|p|..];
    assert p + rest == q;
    GetAppend(t, p, rest, m);
    assert rest[0] in m;
  }
}

=== FILE: toolkit.dfy ===
/**
 The toolkit installer's older helpers: the unsorted wrapper writer, the
 `.real` naming, the rewrite of the toolkit's own config file, the choice of
 the container library and the relative symlinks.
 */
module Toolkit {
  import opened Wrappers
  import FilePath
  import Strings
  import opened TomlTree
  import opened ShellWrapper
  import Executable

  const DotRealExtension := ".real"
  const ContainerRuntimeHookSource := "/usr/bin/nvidia-container-toolkit"
  const RuntimeHookLink := "nvidia-container-runtime-hook"

  /** `installDotRealFile`: where the source binary is copied. */
  function DotRealPath(destFolder: string, src: string): string {
    Executable.InstalledAs(destFolder, FilePath.Base(src) + DotRealExtension)
  }

  /** The `.real` copy sits beside the wrapper and carries its name plus
      `.real`. */
  lemma DotRealShape(destFolder: string, src: string)
    requires FilePath.Base(src) != "/"
    ensures FilePath.Base(DotRealPath(destFolder, src)) == FilePath.Base(src) + DotRealExtension
    ensures destFolder != "" && destFolder[|destFolder| - 1] != '/' ==>
              FilePath.Dir(DotRealPath(destFolder, src)) == FilePath.Dir(Executable.InstalledPath(destFolder, src))
  {
    Executable.DotFileShape(Executable.Executable(src, DotRealExtension, None, [], []), destFolder);
  }

  /** No substitution: the older writer copies text verbatim. */
  function Verbatim(s: string): string { s }

  /** `wrapExecutable`: the older writer. Pre-lines, values and argument
      lines are copied verbatim, and the assignments come in map iteration
      order, which Go leaves unspecified: `order` is any listing of the
      keys. The caller's map gains PATH. */
  method WrapExecutable(destFolder: string, dotRealFilename: string, env: map<string, string>,
                        preLines: seq<string>, argLines: seq<string>)
    returns (lines: seq<string>, envOut: map<string, string>, order: seq<string>)
    ensures envOut == WithPath(env, destFolder)
    ensures Enumerates(order, envOut.Keys)
    ensures lines == Script(preLines, EnvLines(order, envOut, Verbatim), dotRealFilename, argLines)
  {
    lines := [Shebang] + preLines;
    var path := if PathKey in env then env[PathKey] else PathPlaceholder;
    envOut := env[PathKey := destFolder + ":" + path];
    // Go ranges over the map in no fixed order, so the export order is any
    // enumeration of the keys. The sorted one is computed only to show that
    // such an enumeration exists; it is not the order used.
    var sorted := SortKeys(envOut.Keys);
    order :| Enumerates(order, envOut.Keys);
    assert Enumerates(order, envOut.Keys);
    var head := lines;
    for i := 0 to |order|
      invariant forall j :: 0 <= j < |order| ==> order[j] in envOut
      invariant lines == head + EnvLines(order[..i], envOut, Verbatim)
    {
      assert order[..i + 1] == order[..i] + [order[i]];
      lines := lines + [EnvLine(order[i], envOut[order[i]])];
    }
    assert order[..|order|] == order;
    lines := lines + [CallLine(dotRealFilename)];
    var body := lines;
    for i := 0 to |argLines|
      invariant lines == body + MapLines(ArgLine, argLines[..i])
    {
      assert argLines[..i + 1] == argLines[..i] + [argLines[i]];
      lines := lines + [ArgLine(argLines[i])];
    }
    assert argLines[..|argLines|] == argLines;
    lines := lines + [ForwardArgs];
  }

  /** The assignments an environment asks for, as lines. */
  function Assignments(env: map<string, string>): set<string> {
    set k | k in env :: EnvLine(k, env[k])
  }

  /** Whatever the iteration order, the unsorted writer emits each
      assignment exactly once per key and nothing else, so it differs from
      the sorted writer only in the order of those lines. */
  lemma UnsortedSameAssignments(env: map<string, string>, order: seq<string>)
    requires Enumerates(order, env.Keys)
    ensures |EnvLines(order, env, Verbatim)| == |env.Keys|
    ensures (set l | l in EnvLines(order, env, Verbatim)) == Assignments(env)
  {
    EnumeratesCard(order, env.Keys);
    var lines := EnvLines(order, env, Verbatim);
    forall a | a in Assignments(env) ensures a in lines {
      var k :| k in env && a == EnvLine(k, env[k]);
      var i :| 0 <= i < |order| && order[i] == k;
      assert lines[i] == a;
    }
  }

  /** A listing without repeats has one entry per key. */
  lemma {:induction false} EnumeratesCard(order: seq<string>, keys: set<string>)
    requires Enumerates(order, keys)
    ensures |order| == |keys|
    decreases |order|
  {
    if |order| == 0 {
      assert keys == {};
    } else {
      TailEnumerates(order, keys);
      EnumeratesCard(order[1..], keys - {order[0]});
    }
  }

  /** With a single variable (PATH alone) there is one order, and the old
      writer's output is the sorted writer's. */
  lemma SingleKeyOrderForced(env: map<string, string>, order: seq<string>, k: string)
    requires env.Keys == {k} && Enumerates(order, env.Keys)
    ensures order == [k] && Ascending(order)
  {
    EnumeratesCard(order, env.Keys);
  }

  // ---------------------------------------------------------------------------
  // The toolkit config file
  // ---------------------------------------------------------------------------

  const CliSection := "nvidia-container-cli"
  const RootKey := "root"
  const CliPathKey := "path"
  const LdconfigKey := "ldconfig"

  function CliKey(k: string): Path { [CliSection, k] }

  /** What `fmt.Sprintf("%s", v)` gives for the stored ldconfig value: the
      string itself, or Go's marker for a missing value. */
  function Formatted(v: Option<Value>): string {
    match v
    case Some(Str(s)) => s
    case None => "%!s(<nil>)"
    case Some(_) => "%!s(?)"
  }

  /** The ldconfig path moved under the driver root, with the leading `@`
      (run on the host) kept. */
  function LdconfigPath(driverDir: string, ldconfig: string): (r: string)
    ensures |r| > 0 && r[0] == '@'
  {
    "@" + FilePath.Join(driverDir, Strings.TrimPrefix(ldconfig, "@/"))
  }

  /** A host ldconfig is re-rooted at the driver directory. */
  lemma LdconfigRerooted(driverDir: string, rest: string)
    requires driverDir != "" && driverDir[|driverDir| - 1] != '/' && rest != ""
    ensures LdconfigPath(driverDir, "@/" + rest) == "@" + driverDir + "/" + rest
  {
    assert Strings.HasPrefix("@/" + rest, "@/");
    assert Strings.TrimPrefix("@/" + rest, "@/") == rest;
    assert FilePath.TrimTrailingSlashes(driverDir) == driverDir;
  }

  /** With the driver at the root of the host the path is unchanged. */
  lemma LdconfigAtRoot(rest: string)
    requires rest != ""
    ensures LdconfigPath("/", "@/" + rest) == "@/" + rest
  {
    assert Strings.HasPrefix("@/" + rest, "@/");
    assert Strings.TrimPrefix("@/" + rest, "@/") == rest;
    assert FilePath.TrimTrailingSlashes("/") == "";
  }

  /** `installToolkitConfig`: sets the three `nvidia-container-cli` settings. */
  function InstallToolkitConfig(config: Tree, driverDir: string, cliPath: string): Tree {
    var ldconfig := Formatted(GetPath(config, CliKey(LdconfigKey)));
    var c1 := SetPath(config, CliKey(RootKey), Str(driverDir));
    var c2 := SetPath(c1, CliKey(CliPathKey), Str(cliPath));
    SetPath(c2, CliKey(LdconfigKey), Str(LdconfigPath(driverDir, ldconfig)))
  }

  lemma CliKeysApart(a: string, b: string)
    requires a != b
    ensures Diverge(CliKey(a), CliKey(b))
  {
    DivergeAt(CliKey(a), CliKey(b), 1);
  }

  /** When the section is a table or absent, the three settings read back
      and every other setting, inside the section or out, is unchanged. */
  lemma {:induction false} InstallToolkitConfigEffect(config: Tree, driverDir: string, cliPath: string, q: Path)
    requires Open(config, [CliSection])
    requires Diverge(q, CliKey(RootKey)) && Diverge(q, CliKey(CliPathKey)) && Diverge(q, CliKey(LdconfigKey))
    ensures var r := InstallToolkitConfig(config, driverDir, cliPath);
            var ldconfig := Formatted(GetPath(config, CliKey(LdconfigKey)));
            && GetPath(r, CliKey(RootKey)) == Some(Str(driverDir))
            && GetPath(r, CliKey(CliPathKey)) == Some(Str(cliPath))
            && GetPath(r, CliKey(LdconfigKey)) == Some(Str(LdconfigPath(driverDir, ldconfig)))
            && GetPath(r, q) == GetPath(config, q)
  {
    var ldconfig := Formatted(GetPath(config, CliKey(LdconfigKey)));
    var p1, p2, p3 := CliKey(RootKey), CliKey(CliPathKey), CliKey(LdconfigKey);
    var c1 := SetPath(config, p1, Str(driverDir));
    var c2 := SetPath(c1, p2, Str(cliPath));
    var r := SetPath(c2, p3, Str(LdconfigPath(driverDir, ldconfig)));
    assert Writable(config, p1) && Writable(config, p2) && Writable(config, p3);
    CliKeysApart(RootKey, CliPathKey);
    CliKeysApart(RootKey, LdconfigKey);
    CliKeysApart(CliPathKey, LdconfigKey);
    DivergeSymmetric(p1, p2);
    DivergeSymmetric(p1, p3);
    DivergeSymmetric(p2, p3);
    DivergeSymmetric(q, p1);
    DivergeSymmetric(q, p2);
    DivergeSymmetric(q, p3);
    GetSetSame(config, p1, Str(driverDir));
    WritableSetOther(config, p1, Str(driverDir), p2);
    WritableSetOther(config, p1, Str(driverDir), p3);
    GetSetOther(config, p1, Str(driverDir), q);
    GetSetSame(c1, p2, Str(cliPath));
    GetSetOther(c1, p2, Str(cliPath), p1);
    WritableSetOther(c1, p2, Str(cliPath), p3);
    GetSetOther(c1, p2, Str(cliPath), q);
    GetSetSame(c2, p3, Str(LdconfigPath(driverDir, ldconfig)));
    GetSetOther(c2, p3, Str(LdconfigPath(driverDir, ldconfig)), p1);
    GetSetOther(c2, p3, Str(LdconfigPath(driverDir, ldconfig)), p2);
    GetSetOther(c2, p3, Str(LdconfigPath(driverDir, ldconfig)), q);
  }

  // ---------------------------------------------------------------------------
  // The container library
  // ---------------------------------------------------------------------------

  const ContainerLibrary := "libnvidia-container.so.1"
  const LibraryCandidates: seq<string> := [
    "/usr/lib64/libnvidia-container.so.1",
    "/usr/lib/x86_64-linux-gnu/libnvidia-container.so.1"
  ]

  /** A link inside the toolkit directory and the name it points to. */
  datatype Symlink = Symlink(path: string, target: string)

  /** `installSymlink`: the link is made relative, naming only the target's
      base name. */
  function InstallSymlink(toolkitDir: string, link: string, target: string): (r: Symlink)
    ensures FilePath.Base(target) != "/" ==> FilePath.SlashFree(r.target)
  {
    if FilePath.Base(target) != "/" then
      FilePath.BaseSlashFree(target);
      Symlink(FilePath.Join(toolkitDir, link), FilePath.Base(target))
    else
      Symlink(FilePath.Join(toolkitDir, link), FilePath.Base(target))
  }

  /** The hook's extra name points at the hook wrapper beside it. */
  lemma HookSymlink(toolkitDir: string)
    ensures InstallSymlink(toolkitDir, RuntimeHookLink, Executable.InstalledPath(toolkitDir, ContainerRuntimeHookSource)).target
            == "nvidia-container-toolkit"
  {
    var src := ContainerRuntimeHookSource;
    assert FilePath.TrimTrailingSlashes(src) == src;
    assert FilePath.LastSlash(src) == 8 by {
      assert src[8] == '/';
      assert forall j :: 8 < j < |src| ==> src[j] != '/';
    }
    assert FilePath.Base(src) == "nvidia-container-toolkit";
    FilePath.BaseOfJoinBase(toolkitDir, src);
  }

  /** How a library candidate fared: `resolve` stands for symlink
      resolution and `copies(dest, src)` for the copy into the toolkit. */
  predicate Installs(toolkitDir: string, c: string, resolve: string -> Option<string>,
                     copies: (string, string) -> bool)
  {
    resolve(c).Some? && copies(Executable.InstalledPath(toolkitDir, resolve(c).value), resolve(c).value)
  }

  datatype LibraryInstall = LibraryInstall(index: nat, installed: string, link: Option<Symlink>)
  datatype LibraryError = LibraryNotFound

  /** `installContainerLibrary`: the first candidate that resolves and
      copies is installed; a symlink under the library's name is added when
      the copy carries another name. */
  function InstallContainerLibrary(toolkitDir: string, candidates: seq<string>, resolve: string -> Option<string>,
                                   copies: (string, string) -> bool): (r: Result<LibraryInstall, LibraryError>)
    ensures r.Err? <==> forall i :: 0 <= i < |candidates| ==> !Installs(toolkitDir, candidates[i], resolve, copies)
    ensures r.Ok? ==>
              && r.value.index < |candidates|
              && Installs(toolkitDir, candidates[r.value.index], resolve, copies)
              && (forall j :: 0 <= j < r.value.index ==> !Installs(toolkitDir, candidates[j], resolve, copies))
              && r.value.installed == Executable.InstalledPath(toolkitDir, resolve(candidates[r.value.index]).value)
              && (r.value.link.None? <==> FilePath.Base(r.value.installed) == ContainerLibrary)
              && (r.value.link.Some? ==> r.value.link.value == InstallSymlink(toolkitDir, ContainerLibrary, r.value.installed))
    decreases |candidates|
  {
    if |candidates| == 0 then Err(LibraryNotFound)
    else if Installs(toolkitDir, candidates[0], resolve, copies) then
      var installed := Executable.InstalledPath(toolkitDir, resolve(candidates[0]).value);
      if FilePath.Base(installed) == ContainerLibrary then Ok(LibraryInstall(0, installed, None))
      else Ok(LibraryInstall(0, installed, Some(InstallSymlink(toolkitDir, ContainerLibrary, installed))))
    else
      match InstallContainerLibrary(toolkitDir, candidates[1..], resolve, copies)
      case Err(e) => Err(e)
      case Ok(lib) => Ok(lib.(index := lib.index + 1))
  }

  /** A candidate that resolves to a file named after the library needs no
      symlink; one resolving to a versioned file gets a link to its base name. */
  lemma LibraryLink(toolkitDir: string, resolved: string)
    requires FilePath.Base(resolved) != "/"
    ensures var installed := Executable.InstalledPath(toolkitDir, resolved);
            && FilePath.Base(installed) == FilePath.Base(resolved)
            && (FilePath.Base(resolved) != ContainerLibrary ==>
                  InstallSymlink(toolkitDir, ContainerLibrary, installed).target == FilePath.Base(resolved))
  {
    FilePath.BaseOfJoinBase(toolkitDir, resolved);
  }
}

=== FILE: wrappers.dfy ===
/** Failure-compatible wrappers used across the model. */
module Wrappers {

  /** An optional value: the result of a lookup that may find nothing. */
  datatype Option<+T> = None | Some(value: T)

  /** The outcome of an operation that the source reports through an `error` return. */
  datatype Result<+T, +E> = Ok(value: T) | Err(error: E)
}
